=== FILE: README.md ===
# PacBio read-processing scripts, modelled in Dafny

The repository is a set of small command-line scripts for PacBio sequencing data. Each one reads
FASTA, FASTQ, BAM or SAM files and filters, renames or summarises what it reads:

- `filter_ccs.py` and `filter_pbbarcode_old.py` collect the consensus (CCS) reads of each input
  file. They choose a reference read length: the mode, median or mean. They keep the reads whose
  length lies within `about` of that reference and whose `rq` reaches a threshold. For each sample
  they write a clean FASTQ or FASTA file and one row of a summary table.
- `ccs2sub.py` keeps the subreads whose `movie/zmw` prefix names a consensus read.
- `filter_bam2fq.py` prints the consensus reads that pass a quality threshold and a length
  window, as FASTQ.
- `filter_ccs_bam.py` copies each BAM/SAM file into `<sample>.clean.bam`, keeping the records
  whose `rq` passes the threshold.
- `rm_repeat_barcode.py` prints a FASTA file of barcodes. It leaves out every barcode that repeats
  an earlier one, or the reverse complement of an earlier one.
- `barcode2fasta.py` looks barcode sequences up in database tables. It prints each one under the
  sample name that a barcode table gives it.
- `rename_lima_file.py` copies demultiplexed files into a target directory. Each file is named
  after the barcode pair it carries; the copy is named after the sample that a table assigns to
  that pair.

The model is a set of pure functions over immutable values:

- A file is its path, its text lines and its decoded alignment records (`Records.SourceFile`).
- An exception the script would raise is an `Err` of `Results.Error`.
- Printed or written output is a sequence of lines or records.

The shared pieces each get their own module:

- the Python string operations the scripts rely on (`PyStr`);
- the FASTA, FASTQ and tab-separated readers (`Fasta`, `Fastq`, `Tsv`);
- `get_sample` (`SampleName`);
- the reference-length estimators and `n50` (`Estimators`);
- the statistics engine of the two `stat_reads` scripts (`ReadStats`).

Each script then has a module of its own.

Every operation is paired with a lemma that connects it to something independent of its body:

- an inverse, such as reading back what a writer produced, or the reverse complement of a
  reverse complement;
- a reference definition, such as the copies planned for the files before the first failure, or
  the records whose sequence is fresh;
- an invariant, such as "the last row wins", "no two printed barcodes are related", or "filtering
  twice is filtering once with the higher threshold".

## Model

| member | source | states |
|---|---|---|
| PyStr.ParseInt | lib/barcode2fasta.py:47 | `int(text)` succeeds exactly when the stripped text, after an optional sign, is a non-empty run of decimal digits. Its value is that of the digits, negated after `-`. Any other text is a ValueError |
| PyStr.ParseIntToString | lib/barcode2fasta.py:47 | Reading back the decimal rendering of any integer, negative ones included, gives the integer |
| PyStr.PadTwo | lib/barcode2fasta.py:47 | `"%02d"` gives digits after an optional `-`, which read back as the number. It is exactly two characters for 0 to 9, and carries no padding `0` for 10 and above or after the `-` of a negative number |
| PyStr.NatToStringLeading | lib/barcode2fasta.py:47 | The decimal rendering of a positive number does not start with `0` |
| PyStr.BaseName | lib/ccs2sub.py:24 | The last `/`-field of a path holds no `/`, ends the path, and is the whole path or follows a `/` |
| SampleName.GetSample | lib/ccs2sub.py:22-31 | With `--` in the base name, the sample is the text after the first `--`, up to the next `--`, the first `.bam` or the end, whichever comes first; it holds neither `--` nor `.bam`. Otherwise it is the base name up to its first `.`, or the whole base name when there is none |
| SampleName.LimaSample | lib/ccs2sub.py:26-27 | `split('--')[1].split('.bam')[0]` is the text after the first `--`, cut at the end, the next `--` or the first `.bam`, whichever comes first, and holds neither `--` nor `.bam` |
| SampleName.PlainSample | lib/ccs2sub.py:29 | `split('.')[0]` is the name up to its first `.`, or the whole name when it holds none |
| SampleName.GetSampleOfDir | lib/ccs2sub.py:24 | The directory part of a path never changes the sample name |
| SampleName.GetSamplePlain | lib/ccs2sub.py:29 | A plain name `<stem>.<rest>` stands for the sample `<stem>` |
| SampleName.GetSampleLima | lib/ccs2sub.py:26-27 | A demultiplexer name `<prefix>--<sample>.bam<rest>` stands for `<sample>` |
| Records.MarkedId | lib/ccs2sub.py:54 | A header's id, taken after stripping the marker, is a white-space-free token. It is an IndexError exactly when nothing but white space remains once the markers are stripped |
| Records.FormatOf | lib/ccs2sub.py:125-132 | The FASTA suffixes are tested first, then the FASTQ ones, then `.bam/.sam`. A name gets the first reader whose suffix it ends with, and the format error exactly when it ends with none |
| Records.FastaSuffixes | lib/ccs2sub.py:125-126 | Whatever comes before it, each of `.fasta`, `.fa`, `.fasta.gz` and `.fa.gz` selects the FASTA reader |
| Records.FastqSuffixes | lib/ccs2sub.py:127-128 | Whatever comes before it, each of `.fastq`, `.fq`, `.fastq.gz` and `.fq.gz` selects the FASTQ reader, since no such name is also a FASTA name |
| Records.AlignmentSuffixes | lib/ccs2sub.py:129-130 | Whatever comes before it, `.bam` or `.sam` selects the BAM/SAM reader |
| Fasta.HeaderViewOfToken | lib/filter_pbbarcode_old.py:37-45 | The line `>id`, for a white-space-free id with no `>` at either end, is read as a header whose first token and whole marker-stripped text are both `id` |
| Fasta.SequenceLineView | lib/filter_pbbarcode_old.py:37-52 | A stripped sequence line that does not start with `>` is read as sequence text unchanged, or skipped when it is empty |
| Fasta.ReadFastaRoundTrip | lib/filter_pbbarcode_old.py:24-57 | The `[id, seq]` reader gives back exactly the records that were written as header and sequence lines, in order |
| Fasta.ReadFastaFails | lib/filter_pbbarcode_old.py:37-47 | The only exception the reader raises is IndexError. It is raised exactly when some line read for an id has nothing but `>` and white space. Those lines are the first non-blank line and every line starting with `>` |
| Fasta.ReadFastaCount | lib/filter_pbbarcode_old.py:41-56 | The reader yields one record per header line, the first non-blank line counting as a header |
| Fasta.ReadFastaBlank | lib/filter_pbbarcode_old.py:39-40 | A file of blank lines yields no record |
| Fasta.ReadFastaGlue | lib/filter_pbbarcode_old.py:51-52 | Sequence lines after a header are glued onto its sequence, whatever is read after them |
| Fasta.ReadFastaFullRoundTrip | lib/rm_repeat_barcode.py:19-51 | The whole-header reader gives back the written records, in order, except those without sequence, which it drops |
| Fasta.ReadFastaFullGlue | lib/rm_repeat_barcode.py:44-47 | In the whole-header reader, sequence lines are glued onto the pending record's sequence |
| Fastq.ReadFastqRoundTrip | lib/ccs2sub.py:72-103 | The four-line reader gives back exactly the records that were written, in order |
| Fastq.ReadFastqFails | lib/ccs2sub.py:84-99 | The only exception the reader raises is IndexError. It is raised exactly when some `@` line read as a header has nothing but `@` and white space. A header is an `@` line met while the buffer is empty or holds four or more lines |
| Fastq.FeedData | lib/ccs2sub.py:98-99 | With one to three lines buffered, any non-blank line, `@` lines included, is appended as data |
| Fastq.FeedHeader | lib/ccs2sub.py:91-97 | With an empty or four-line buffer, an `@` line yields the buffered record, if there is one, and starts a new one |
| Fastq.FeedOverfull | lib/ccs2sub.py:91-102 | Once five or more lines are buffered, the reader yields nothing more |
| Fastq.ReadFastqBound | lib/ccs2sub.py:101-102 | The reader yields at most one record per four non-blank lines |
| Tsv.ReadTsvAppend | lib/barcode2fasta.py:19-34 | Reading two pieces of a table one after the other gives the rows of the whole table |
| Tsv.TsvRoundTrip | lib/barcode2fasta.py:19-34 | Rows written one per line with tabs are read back unchanged, in order |
| Estimators.Mode | lib/filter_ccs.py:63-65 | `argmax(bincount)` is a length that occurs, as often as any other, and the smallest such. An empty list is a ValueError |
| Estimators.MedianPermutation | lib/filter_ccs.py:66-67 | The median does not depend on the order of the lengths |
| Estimators.MedianBounds | lib/filter_ccs.py:66-67 | The median of lengths in `[lo, hi]` lies in `[lo, hi]` |
| Estimators.MeanPermutation | lib/filter_ccs.py:68-69 | The mean does not depend on the order of the lengths |
| Estimators.MeanBounds | lib/filter_ccs.py:68-69 | The mean of lengths in `[lo, hi]` lies in `[lo, hi]` |
| Estimators.Reference | lib/filter_ccs.py:63-69 | `model` gives the mode and fails exactly on no reads. `median` gives the median and any other text the mean; neither fails, and both are `nan` exactly on no reads |
| Estimators.ReferenceBounds | lib/filter_ccs.py:63-69 | Whichever estimate is chosen, on lengths in `[lo, hi]` it is a number in `[lo, hi]` |
| Estimators.N50 | lib/filter_ccs.py:39-48 | The result is a length from the input. Walking the lengths in descending order, it is the first at which the running sum reaches half the total. It is none exactly for no lengths |
| Estimators.HalfIndex | lib/filter_ccs.py:44-48 | The loop stops at the first prefix whose sum reaches half the total, or at none if no prefix does |
| ReadStats.StatQuality | lib/filter_ccs.py:51-71 | Counts every read. The dictionary keys are the distinct `(id, rq)` pairs in first-occurrence order. The reference is the chosen estimate of the lengths. Fails with ValueError exactly for `model` on no reads |
| ReadStats.StatQualityLastWins | lib/filter_ccs.py:60-61 | A key's dictionary entry holds the last read with that id and `rq` |
| ReadStats.Select | lib/filter_ccs.py:104-111 | Every kept item lies in the length window and has a numeric `rq` that reaches the threshold. The only error is TypeError |
| ReadStats.SelectFilters | lib/filter_ccs.py:104-111 | The loop raises exactly when some item in the window carries a text `rq`. Otherwise it keeps exactly the passing items, in dictionary order |
| ReadStats.FileRow | lib/filter_ccs.py:104-122 | The row names the sample and counts all reads. Q20 counts the kept reads, with Q40 ≤ Q30 ≤ Q20. The loop's TypeError is passed on. Otherwise the row fails exactly when nothing is kept or there are no reads, and then with ZeroDivision |
| ReadStats.StatFile | lib/filter_ccs.py:97-122 | A file's row names its sample. Its total is the number of reads, and 0 < Q20 = kept ≤ total |
| ReadStats.StatFileErrors | lib/filter_ccs.py:106-108 | A file fails with TypeError exactly when some collected item in the length window has a text `rq` |
| ReadStats.StatFileKeeps | lib/filter_ccs.py:104-111 | The kept items, which are the records of the clean file, are exactly the collected items that pass both tests, in dictionary order |
| ReadStats.StatFileBounds | lib/filter_ccs.py:121-122 | The average kept length lies within `about` of the reference. The effective rate lies in (0, 100] |
| ReadStats.TiersOfPerfectReads | lib/filter_ccs.py:113-117 | When every read has `rq = 1`, the Q20, Q30 and Q40 counts are equal |
| ReadStats.KeyLine | lib/filter_ccs.py:111 | A clean-file header built from a key reads back, through the readers' strip and split, as the read's id |
| ReadStats.StatReads | lib/filter_ccs.py:86-128 | A report has one row per input file, in input order, under the file's sample name. Its three dictionaries share one key list |
| ReadStats.StatReadsFails | lib/filter_ccs.py:93-97 | The run fails exactly when some input file fails to be read or to yield a row |
| ReadStats.TableWritten | lib/filter_ccs.py:92-122 | The table written holds at most one row per input file |
| ReadStats.TableWrittenAgrees | lib/filter_ccs.py:92-122 | Without a failure, the table written holds exactly the report's rows. With one, it ends with the report's error |
| ReadStats.TableBeforeFailure | lib/filter_ccs.py:93-121 | When file `k` is the first to fail, the table keeps exactly the rows that a run on the files before `k` would write |
| ReadStats.SummaryLastWins | lib/filter_ccs.py:94-124 | A sample's summary entry is the row of the last file with that sample name |
| FilterCcs.ReadBam | lib/filter_ccs.py:23-36 | Only `.bam/.sam` files are read, one record per alignment in order with its id and `rq`. Any other name raises the format error |
| FilterCcs.FilterCcs | lib/filter_ccs.py:86-128 | A report holds one row per input file, under that file's sample name. Only runs whose inputs are all `.bam`/`.sam` give a report |
| FilterCcs.OnlyAlignments | lib/filter_ccs.py:23-30 | A successful run read only `.bam`/`.sam` inputs |
| FilterCcs.FilterCcsNeedsAlignments | lib/filter_ccs.py:29-30 | Any input that is neither `.bam` nor `.sam` makes the run fail |
| FilterCcs.CleanFastq | lib/filter_ccs.py:111 | The clean FASTQ file has four lines per kept read |
| FilterCcs.CleanFastqReadBack | lib/filter_ccs.py:111 | The clean FASTQ file, read back, gives the kept reads in order, with their ids, bases and qualities |
| FilterPbbarcode.GzipLines | lib/filter_pbbarcode_old.py:27-37 | An undecoded gzip line meets the text strip with a TypeError exactly when some line is not blank. Otherwise nothing is read |
| FilterPbbarcode.FastaFile | lib/filter_pbbarcode_old.py:121-134 | A plain FASTA read gets `rq = 1`. A gzip file behaves as undecoded bytes. Errors are TypeError or IndexError |
| FilterPbbarcode.FastqFile | lib/filter_pbbarcode_old.py:123-134 | A FASTQ read carries its `+` line as text in the `rq` slot |
| FilterPbbarcode.ReadFile | lib/filter_pbbarcode_old.py:119-134 | Dispatch by suffix to the FASTA, FASTQ or alignment reader. Any other name raises the format error |
| FilterPbbarcode.ReadFileRq | lib/filter_pbbarcode_old.py:130-134 | FASTA reads have `rq = 1`, FASTQ reads a text `rq`, and a gzip file that is read yields nothing |
| FilterPbbarcode.FilterPbbarcode | lib/filter_pbbarcode_old.py:172-214 | A report holds one row per input file, under that file's sample name. Only runs whose inputs are all plain FASTA or BAM/SAM give a report: FASTQ and gzip inputs always fail |
| FilterPbbarcode.OnlyCountable | lib/filter_pbbarcode_old.py:119-134 | A successful run read only uncompressed FASTA and BAM/SAM inputs |
| FilterPbbarcode.FastqFails | lib/filter_pbbarcode_old.py:190-195 | A FASTQ input always makes its file fail: TypeError, or ZeroDivision or ValueError when nothing is compared |
| FilterPbbarcode.GzipFails | lib/filter_pbbarcode_old.py:27-28 | A gzip input always makes its file fail |
| FilterPbbarcode.EmptyFails | lib/filter_pbbarcode_old.py:207 | A file with no reads never yields a row |
| FilterPbbarcode.FilterPbbarcodeFails | lib/filter_pbbarcode_old.py:179-183 | A run with any FASTQ input fails |
| FilterPbbarcode.FastaTiers | lib/filter_pbbarcode_old.py:199-203 | A plain FASTA input counts its kept reads equally in all three tiers |
| FilterPbbarcode.CleanFasta | lib/filter_pbbarcode_old.py:197 | The clean FASTA file has two lines per kept read |
| FilterPbbarcode.CleanFastaReadBack | lib/filter_pbbarcode_old.py:197 | The clean FASTA file, read back, gives the kept reads in order, with their ids and bases |
| Ccs2Sub.ConsensusId | lib/ccs2sub.py:136 | `id.split('/ccs')[0]` is the prefix of the id before its first `/ccs`, or the whole id if it has none |
| Ccs2Sub.ConsensusIdIdempotent | lib/ccs2sub.py:136 | Cutting a consensus id a second time changes nothing |
| Ccs2Sub.CcsIds | lib/ccs2sub.py:125-135 | A name with no reader raises the format error |
| Ccs2Sub.ReadCcs | lib/ccs2sub.py:121-140 | The consensus ids never contain `/ccs`. A name with no reader raises the format error |
| Ccs2Sub.ReadCcsFasta | lib/ccs2sub.py:121-140 | A written FASTA file of consensus reads gives exactly the set of their cut ids |
| Ccs2Sub.SubreadMatchesConsensus | lib/ccs2sub.py:136-164 | The subread `movie/zmw/range` and the consensus read `movie/zmw/ccs…` both reduce to `movie/zmw` |
| Ccs2Sub.Ccs2Sub | lib/ccs2sub.py:143-171 | The consensus file is read first. A subread file that is neither `.bam` nor `.sam` then raises the format error |
| Ccs2Sub.Ccs2SubSelects | lib/ccs2sub.py:162-168 | A subread is written exactly when its `movie/zmw` is a consensus id |
| Ccs2Sub.Ccs2SubInOrder | lib/ccs2sub.py:162-168 | Output follows input order, since two pieces of the input give their outputs one after the other. Each selected record is written as often as it occurs |
| FilterBam2fq.Blocks | lib/filter_bam2fq.py:41 | Each printed record is four lines |
| FilterBam2fq.FilterBam2Fq | lib/filter_bam2fq.py:34-41 | Only `.bam/.sam` files are read, and other names raise the format error. The output is whole four-line blocks, at most one per record |
| FilterBam2fq.PrintedExactly | lib/filter_bam2fq.py:36-41 | A record is printed exactly when its `rq` reaches the threshold and its length lies in `[minlen, maxlen]` |
| FilterBam2fq.DefaultBounds | lib/filter_bam2fq.py:34 | The defaults 0.9, 500 and 10000 are inclusive bounds: 0.89, 499 and 10001 are rejected |
| FilterBam2fq.BlocksChunks | lib/filter_bam2fq.py:36-41 | The `k`-th printed block is that of the `k`-th printed record |
| FilterBam2fq.FilterBam2FqReadsBack | lib/filter_bam2fq.py:34-41 | The output, read with the FASTQ reader, gives the kept records in input order as `id, bases, +, qualities` |
| FilterCcsBam.CleanName | lib/filter_ccs_bam.py:41-42 | The output name is the sample name followed by `.clean.bam` |
| FilterCcsBam.FilterBam | lib/filter_ccs_bam.py:32-50 | A name that is neither `.bam` nor `.sam` raises the format error before any output is opened. Otherwise the output goes to the clean name, with no more records than the input |
| FilterCcsBam.FilterBamKeeps | lib/filter_ccs_bam.py:44-47 | A record is written exactly when it is in the input and its `rq` is not below the threshold. Every copy of a passing record is written |
| FilterCcsBam.FilterAgain | lib/filter_ccs_bam.py:44-47 | Filtering the records of a cleaned file again is one filtering with the higher of the two thresholds, when the cleaned file is not its own output, for instance when it is read from another directory |
| FilterCcsBam.CleanedIsOwnOutput | lib/filter_ccs_bam.py:34-42 | A cleaned file `S.clean.bam` named without a directory has itself as its output name, so the output opened for writing is the input |
| FilterCcsBam.FilterBamMonotone | lib/filter_ccs_bam.py:45 | A higher threshold writes no more records |
| FilterCcsBam.FilterBams | lib/filter_ccs_bam.py:53-56 | At most one output per file. The only exception is the format error |
| FilterCcsBam.FilterBamsWrites | lib/filter_ccs_bam.py:53-56 | The outputs are the cleaned files of the inputs before the first unsupported name, in order. The run then raises that file's format error, or nothing if there is none |
| FilterCcsBam.Disk | lib/filter_ccs_bam.py:42 | The files left behind have distinct names |
| FilterCcsBam.DiskLastWins | lib/filter_ccs_bam.py:42 | Each clean file holds what the last input of that name wrote |
| FilterCcsBam.SameSampleOverwrites | lib/filter_ccs_bam.py:41-42 | Two inputs of the same sample in different directories leave only the second's records in `<sample>.clean.bam` |
| RmRepeat.Complement | lib/rm_repeat_barcode.py:54-67 | Succeeds exactly when the upper-cased sequence is all `ACGT`, and then complements it base by base. Any other character is a KeyError |
| RmRepeat.ReverseComplement | lib/rm_repeat_barcode.py:70-74 | Succeeds exactly on sequences whose upper-case form is `ACGT`, and gives their reverse complement. Any other sequence is a KeyError |
| RmRepeat.ReverseComplementInvolution | lib/rm_repeat_barcode.py:70-74 | On `ACGT` sequences the reverse complement has the same length, is again `ACGT`, and its own reverse complement is the original |
| RmRepeat.Dedup | lib/rm_repeat_barcode.py:81-92 | Every printed record comes from the input. The only exception is KeyError |
| RmRepeat.DedupFails | lib/rm_repeat_barcode.py:82 | The loop raises exactly when some record has a non-`ACGT` sequence |
| RmRepeat.DedupPrefix | lib/rm_repeat_barcode.py:81-84 | The records printed before the first bad record are those of the records before it |
| RmRepeat.DedupFresh | lib/rm_repeat_barcode.py:83 | No printed sequence, nor its reverse complement, was recorded before the loop |
| RmRepeat.DedupIsSelected | lib/rm_repeat_barcode.py:81-92 | On valid input, the loop prints, in input order, exactly the records whose sequence and reverse complement were not recorded by an earlier record |
| RmRepeat.DedupBeforeFailure | lib/rm_repeat_barcode.py:81-92 | With a bad record, the loop prints the selected records before it, in order, then raises KeyError |
| RmRepeat.SelectedMembers | lib/rm_repeat_barcode.py:83-84 | A record is printed exactly when it occurs at a position where it is fresh |
| RmRepeat.DedupNoRepeats | lib/rm_repeat_barcode.py:83-92 | No two printed sequences are equal or reverse complements of each other |
| RmRepeat.DedupCovers | lib/rm_repeat_barcode.py:83-92 | Every input sequence not recorded beforehand is printed, as itself or as its reverse complement |
| RmRepeat.RmRepeatBarcode | lib/rm_repeat_barcode.py:22-27 | `.gz` raises NameError, because `gzip` is never imported. Names other than `.fasta`/`.fa` raise the format error |
| RmRepeat.RmRepeatBarcodeNoRepeats | lib/rm_repeat_barcode.py:77-94 | On an `ACGT` FASTA file, the script succeeds and prints exactly the selected records. No two are related, and every barcode is represented |
| RmRepeat.LowerCaseKept | lib/rm_repeat_barcode.py:62-83 | Sequences are compared as written but complemented upper-case, so `a` and `t` are both printed |
| Barcode2Fasta.NormaliseName | lib/barcode2fasta.py:45-49 | A name without `-` is stored unchanged. A stored name has `-` exactly when the original did. The only error is ValueError |
| Barcode2Fasta.NormaliseDashed | lib/barcode2fasta.py:45-47 | `prefix-digits` is stored as the upper-cased prefix, `-`, and the number zero-padded to two digits |
| Barcode2Fasta.NormaliseIdempotent | lib/barcode2fasta.py:45-49 | Normalising a stored name gives it back |
| Barcode2Fasta.ReadBarcTxt | lib/barcode2fasta.py:37-53 | The dictionary has distinct keys. Errors are IndexError or ValueError |
| Barcode2Fasta.Absorb | lib/barcode2fasta.py:41-51 | Keys stay distinct. Errors are IndexError or ValueError |
| Barcode2Fasta.AbsorbSound | lib/barcode2fasta.py:41-51 | Every dictionary entry was there before or was stored by some row |
| Barcode2Fasta.AbsorbComplete | lib/barcode2fasta.py:41-51 | No key is lost. Every row is stored, or skipped because its sample is already a key |
| Barcode2Fasta.AbsorbSucceeds | lib/barcode2fasta.py:45-49 | A table whose barcode names all normalise is read without error |
| Barcode2Fasta.LaterSampleWins | lib/barcode2fasta.py:51 | Two samples under one barcode name: the later one is kept |
| Barcode2Fasta.SampleLikeBarcodeSkipped | lib/barcode2fasta.py:42-44 | A row whose sample equals a stored barcode name is skipped before its second cell is read |
| Barcode2Fasta.Lookup | lib/barcode2fasta.py:62-69 | Looks up the stripped second cell first, then the first cell. The result is always a stored sample. A one-cell row is an IndexError |
| Barcode2Fasta.Emit | lib/barcode2fasta.py:60-69 | Only IndexError is raised. Every printed record comes from a row that prints |
| Barcode2Fasta.EmitFails | lib/barcode2fasta.py:60-69 | The loop raises exactly when some row breaks it |
| Barcode2Fasta.EmitPrints | lib/barcode2fasta.py:60-69 | Without a breaking row, the loop prints the records of the printing rows, in row order |
| Barcode2Fasta.EmitAppend | lib/barcode2fasta.py:61 | Rows are handled one after another: two pieces print what the first prints, then, unless it raised, what the second prints |
| Barcode2Fasta.EmitFiles | lib/barcode2fasta.py:60 | Only IndexError is raised while printing the databases |
| Barcode2Fasta.Barcode2Fasta | lib/barcode2fasta.py:56-71 | An error in the barcode table ends the run before anything is printed. Errors are IndexError or ValueError |
| Barcode2Fasta.Barcode2FastaConcat | lib/barcode2fasta.py:60-61 | Several database files print what their concatenation prints |
| Barcode2Fasta.PrintedSamplesFromTable | lib/barcode2fasta.py:51-67 | Every printed sample name is the first cell of some row of the barcode table |
| RenameLima.PrimerPair | lib/rename_lima_file.py:83-89 | A name without a second `.` field is an IndexError. Any other error is a ValueError. The pair holds one or two barcodes |
| RenameLima.PrimerPairOfName | lib/rename_lima_file.py:83-89 | `<stem>.<fwd>--<rev>.<more>` carries the pair `{fwd, rev}` |
| RenameLima.PrimerPairSymmetric | lib/rename_lima_file.py:89 | `fwd--rev` and `rev--fwd` name the same pair |
| RenameLima.ReadBarcodeName | lib/rename_lima_file.py:92-102 | Succeeds exactly when every row has a second cell, and otherwise raises IndexError. Samples are distinct |
| RenameLima.ReadBarcodeNameLastWins | lib/rename_lima_file.py:96-100 | Each sample holds the pair of its last row: `{c1, c2}`, or `{c1}` for a two-cell row |
| RenameLima.FirstMatch | lib/rename_lima_file.py:109-112 | The first sample, in table order, whose pair equals the file's, or none if no sample has it |
| RenameLima.JudgePrimer | lib/rename_lima_file.py:105-114 | No match exactly when no sample's pair equals the file's. Otherwise the result is a sample with that pair |
| RenameLima.OutcomeOf | lib/rename_lima_file.py:122-132 | A file fails exactly when its name has no pair. A matched file goes to `<dir>/<sample>.<fields from the third on>` |
| RenameLima.CopyAll | lib/rename_lima_file.py:121-133 | At most one copy per file. The loop ends on the missing directory or on a bad name |
| RenameLima.CopyAllPlanned | lib/rename_lima_file.py:121-133 | The loop makes exactly the planned copies of the files before the first breaking file, in order, and then raises that file's exception |
| RenameLima.CopyAllFails | lib/rename_lima_file.py:121-133 | The loop raises exactly when some file breaks it |
| RenameLima.MissingDirUnnoticed | lib/rename_lima_file.py:125-131 | A missing target directory is not noticed while no file matches a sample |
| RenameLima.CopyAllNone | lib/rename_lima_file.py:125-126 | Nothing is copied when no file matches |
| RenameLima.CopiedUnderSample | lib/rename_lima_file.py:117-136 | A lima file whose pair a row names is copied under the sample name, whichever order the barcodes are given in |
| RenameLima.RenameLimaFile | lib/rename_lima_file.py:117-136 | A bad table ends the run before any copy. Errors are IndexError, ValueError or the missing directory |

## Left out

- Decoding BAM/SAM with pysam: a file's alignment records are given as already decoded (`SourceFile.alignments`). The output BAM header, the `template=` copy and BGZF compression are not modelled, nor is a record whose sequence pysam reports as `None`. Every alignment record is taken to carry an `rq` tag. A record without one makes `get_tag('rq')` raise KeyError in lib/filter_ccs.py:34, lib/filter_bam2fq.py:29, lib/filter_ccs_bam.py:45 and lib/filter_pbbarcode_old.py:102. That failure is not modelled.
- Gzip decompression: the scripts that do decode gzip are modelled on the decompressed lines. `filter_pbbarcode_old.py` never decodes the bytes it reads, and that is modelled as the TypeError it raises.
- Floating-point text: the text `str()` gives for an `rq` value is a parameter (`show`). The table's `{:,}` thousands grouping, `.2f` rounding, `round()` and the JSON printing of the dictionaries are left out. Rows keep exact rational values.
- Floating-point arithmetic: `rq`, the averages and the rates are exact reals. A `nan` `rq` tag is not representable.
- Logging, argparse and `main`: the command-line defaults appear only as constants (`FilterCcsBam.DefaultQvalue`, `FilterBam2fq.Defaults`).
- `os.path.abspath`, `os.path.exists`, `os.remove` and `shutil.copy` are not modelled. The target directory is a given absolute path plus a flag saying whether it exists. A copy is recorded, not performed, so errors raised by `shutil.copy` itself are not modelled.
- `rename_lima_file.py` `move_file` and `mkdir` are never called by the script, so they are not modelled.
- `bam2fq.py` (lines 19-38) only passes pysam records through to FASTQ text, with no logic of its own beyond what `FilterBam2fq` already models. It is not modelled.
- StatReads: on a failure the model returns only the error. What was already written before it is modelled by `TableWritten`: the summary header and the rows of earlier files. The clean files of earlier samples are not part of the failure result. Neither is the failing sample's clean file, which was truncated or partly written by then.
- NormaliseName: upper-casing covers ASCII letters only, and `int()` accepts only an optional sign and ASCII digits. Python also upper-cases other letters (`ß` becomes `SS`), and its `int()` accepts `_` between digits and non-ASCII decimal digits. So `ß-1`, `bc-1_0` and `bc-٣` normalise differently in Python (`SS-01`, `BC-10`, `BC-03`).
- PyStr.ParseInt: the same ASCII-only restriction as NormaliseName.
- Ccs2Sub: the output file is the sequence of records written. Removing an existing output and naming it with `abspath` are not modelled. The unused `name = get_sample(ccs)` is left out.
- FilterBam2fq.FilterBam2Fq: the `rq=` text in each header comes from the `show` parameter, as above.
- FilterCcsBam.FilterBam: an input that is its own output file is not modelled. `filter_bam` opens the output for writing, which truncates it, before it reads the input's records; `CleanedIsOwnOutput` shows when the two names agree. What pysam then reads from the truncated file is not modelled; the model treats the input's records as fixed. The same holds in `filter_bams` when an earlier output is passed in again.
- FilterCcsBam.FilterAgain: states the second filtering only for a cleaned file that is not its own output, such as one read from another directory, for the reason given for `FilterCcsBam.FilterBam`.
- Line files: a text file is modelled as the sequence of its lines, and each line is taken to hold no `'\n'` and no `'\r'`. The files are opened in universal-newline text mode, where `'\r'` and `"\r\n"` also end a line, and the model does not split lines on `'\r'`. The FASTA and FASTQ writers' conditions exclude newlines in ids and sequences. `Tsv.TsvRoundTrip` does not: a cell holding `'\n'` or `'\r'` would split its line in a real file, and the model does not see that.
- Estimators.N50: the source compares with `sum * 0.5` in floating point. The model compares `2 * running sum` with the total exactly, which agrees for integer lengths.

=== FILE: barcode2fasta.dfy ===
/** lib/barcode2fasta.py: barcode sequences looked up in database tables and printed as FASTA
    records under the sample names a barcode table assigns to them. */
module Barcode2Fasta {
  import opened Results
  import opened PyStr
  import opened Records
  import opened OrderedMaps
  import opened Tsv

  // ---------------------------------------------------------------------------------------------
  // barcode names

  /** The form in which `read_barc_txt` stores a barcode name. A name holding `-` is upper-cased
      and must then split on `-` into exactly a prefix and a number (the tuple unpacking raises
      ValueError otherwise, and so does `int()` on a bad number); it is stored as `PREFIX-NN`,
      the number zero-padded to two digits. A name without `-` is stored as it is. */
  function NormaliseName(name: string): (r: Result<string>)
    ensures '-' !in name ==> r == Ok(name)
    ensures r.Err? ==> r.error == ValueError
    ensures r.Ok? ==> ('-' in r.value <==> '-' in name)
  {
    if '-' !in name then Ok(name)
    else
      var parts := Split(Upper(name), "-");
      if |parts| != 2 then Err(ValueError)
      else
        var n :- ParseInt(parts[1]);
        assert (parts[0] + "-" + PadTwo(n))[|parts[0]|] == '-';
        Ok(parts[0] + "-" + PadTwo(n))
  }

  /** `prefix-digits` is stored as the upper-cased prefix, `-`, and the number the digits spell,
      zero-padded to at least two digits (`bc-7` becomes `BC-07`, `bc-007` too). */
  lemma NormaliseDashed(prefix: string, digits: string)
    requires '-' !in prefix && |digits| > 0 && AllDigits(digits)
    ensures NormaliseName(prefix + "-" + digits) == Ok(Upper(prefix) + "-" + PadTwo(ParseDigits(digits)))
  {
    var name := prefix + "-" + digits;
    assert name[|prefix|] == '-';
    UpperDashed(prefix, digits);
    SplitDashed(Upper(prefix), digits);
    DigitsParse(digits);
    NormaliseParts(name, Upper(prefix), digits, ParseDigits(digits));
  }

  /** Unfolding the normalisation of a dashed name once its parts are known. */
  lemma NormaliseParts(name: string, p: string, d: string, n: int)
    requires '-' in name && Split(Upper(name), "-") == [p, d] && ParseInt(d) == Ok(n)
    ensures NormaliseName(name) == Ok(p + "-" + PadTwo(n))
  {
  }

  lemma SplitDashed(up: string, digits: string)
    requires '-' !in up && AllDigits(digits)
    ensures Split(up + ['-'] + digits, "-") == [up, digits]
  {
    SplitAtFirst(up, '-', digits);
    DigitsSplit(digits);
    assert "-" == ['-'];
  }

  lemma UpperDashed(prefix: string, digits: string)
    requires '-' !in prefix && AllDigits(digits)
    ensures Upper(prefix + "-" + digits) == Upper(prefix) + ['-'] + digits
    ensures '-' !in Upper(prefix)
  {
    var name := prefix + "-" + digits;
    var r := Upper(prefix) + ['-'] + digits;
    forall i | 0 <= i < |name|
      ensures Upper(name)[i] == r[i]
    {
      if i > |prefix| {
        assert name[i] == digits[i - |prefix| - 1];
      }
    }
  }

  lemma DigitsSplit(digits: string)
    requires AllDigits(digits)
    ensures Split(digits, "-") == [digits]
  {
    NoCharNoOccur(digits, '-');
    assert "-" == ['-'];
    SplitHead(digits, "-");
  }

  lemma DigitsParse(digits: string)
    requires |digits| > 0 && AllDigits(digits)
    ensures ParseInt(digits) == Ok(ParseDigits(digits))
  {
    StripStable(digits, IsSpace);
    assert Strip(digits) == digits;
    assert digits[0] != '-' && digits[0] != '+';
  }

  /** A name with two or more `-` cannot be unpacked into a prefix and a number. */
  lemma NormaliseTwoDashes(a: string, b: string, c: string)
    requires '-' !in a + b + c
    ensures NormaliseName(a + "-" + b + "-" + c) == Err(ValueError)
  {
    var name := a + "-" + b + "-" + c;
    assert name[|a|] == '-';
    var up := Upper(name);
    var ua, ub, uc := Upper(a), Upper(b), Upper(c);
    NoDashUpper(a);
    NoDashUpper(b);
    NoDashUpper(c);
    assert up == ua + ['-'] + (ub + ['-'] + uc);
    SplitAtFirst(ua, '-', ub + ['-'] + uc);
    SplitAtFirst(ub, '-', uc);
    assert "-" == ['-'];
  }

  lemma NoDashUpper(s: string)
    requires '-' !in s
    ensures '-' !in Upper(s)
  {
  }

  /** A stored name is stored again unchanged: normalising is idempotent. */
  lemma NormaliseIdempotent(name: string)
    requires NormaliseName(name).Ok?
    ensures NormaliseName(NormaliseName(name).value) == NormaliseName(name)
  {
    if '-' in name {
      var u := Upper(name);
      var parts := Split(u, "-");
      DashSplit(u);
      var p0, p1 := parts[0], parts[1];
      var n := ParseInt(p1).value;
      StripFree(p1, '-');
      assert n >= 0;
      UpperFixed(name, p0);
      var d := PadTwo(n);
      assert NormaliseName(name).value == p0 + "-" + d;
      NormaliseDashed(p0, d);
    }
  }

  /** A string that splits on `-` into two parts is those parts joined by `-`. */
  lemma DashSplit(u: string)
    requires |Split(u, "-")| == 2
    ensures var parts := Split(u, "-");
      u == parts[0] + "-" + parts[1] && '-' !in parts[0] && '-' !in parts[1]
  {
    var parts := Split(u, "-");
    JoinSplit(u, "-");
    assert Join(parts, "-") == parts[0] + "-" + parts[1];
    CharContained(parts[0], '-');
    CharContained(parts[1], '-');
  }

  lemma CharContained(s: string, c: char)
    requires !Contains(s, [c])
    ensures c !in s
  {
    if c in s {
      var j :| 0 <= j < |s| && s[j] == c;
      assert s[j..j + 1] == [c];
      assert Occurs(s, [c], j);
    }
  }

  /** Stripping white space adds no character. */
  lemma StripFree(s: string, c: char)
    requires c !in s
    ensures c !in Strip(s)
  {
    var l := LStrip(s, IsSpace);
    assert forall i :: 0 <= i < |l| ==> l[i] == s[|s| - |l| + i];
  }

  /** A prefix of an upper-cased string is already upper-case. */
  lemma UpperFixed(name: string, p: string)
    requires p <= Upper(name)
    ensures Upper(p) == p
  {
    forall i | 0 <= i < |p|
      ensures UpperChar(p[i]) == p[i]
    {
      assert p[i] == UpperChar(name[i]);
    }
  }

  // ---------------------------------------------------------------------------------------------
  // the barcode table: `read_barc_txt`

  /** What `read_barc_txt` looks at in a row: its first cell, the sample, and the stored form of
      its second cell, the barcode name (`None` when the row has no second cell). */
  datatype Entry = Entry(sample: string, name: Option<Result<string>>)

  function EntryOf(row: Row): (e: Entry)
    requires |row| >= 1
    ensures e.sample == row[0]
    ensures e.name.None? <==> |row| < 2
  {
    Entry(row[0], if |row| < 2 then None else Some(NormaliseName(row[1])))
  }

  function Entries(rows: seq<Row>): (es: seq<Entry>)
    requires forall k :: 0 <= k < |rows| ==> |rows[k]| >= 1
    ensures |es| == |rows| && forall k :: 0 <= k < |rows| ==> es[k] == EntryOf(rows[k])
  {
    seq(|rows|, k requires 0 <= k < |rows| => EntryOf(rows[k]))
  }

  /** The loop of `read_barc_txt` continuing from the dictionary `data` built so far. An entry
      whose sample is already a KEY of the dictionary (a barcode name, not a sample) is skipped;
      any other entry stores `data[name] = sample`, replacing an earlier sample under the same
      name, or raises: IndexError without a second cell, ValueError for a bad name. */
  function Absorb(data: OMap<string, string>, es: seq<Entry>): (r: Result<OMap<string, string>>)
    ensures r.Err? ==> r.error == IndexError || r.error == ValueError
    ensures r.Ok? && DistinctKeys(data) ==> DistinctKeys(r.value)
    decreases |es|
  {
    if |es| == 0 then Ok(data)
    else if es[0].sample in Keys(data) then Absorb(data, es[1..])
    else match es[0].name
      case None => Err(IndexError)
      case Some(Err(_)) => Err(ValueError)
      case Some(Ok(name)) => Absorb(Put(data, name, es[0].sample), es[1..])
  }

  /** `read_barc_txt(file)`: the dictionary from stored barcode name to sample. */
  function ReadBarcTxt(table: seq<string>): (r: Result<OMap<string, string>>)
    ensures r.Ok? ==> DistinctKeys(r.value)
    ensures r.Err? ==> r.error == IndexError || r.error == ValueError
  {
    Absorb([], Entries(ReadTsv(table)))
  }

  /** An entry of the dictionary that `e` stores: its sample under its barcode name. */
  predicate Stores(e: Entry, item: (string, string)) {
    e.sample == item.1 && e.name == Some(Ok(item.0))
  }

  predicate StoredBySome(es: seq<Entry>, item: (string, string)) {
    exists j :: 0 <= j < |es| && Stores(es[j], item)
  }

  /** Every entry of the dictionary was there before or is stored by some row. */
  lemma {:induction false} AbsorbSound(data: OMap<string, string>, es: seq<Entry>)
    requires Absorb(data, es).Ok?
    ensures forall i :: 0 <= i < |Absorb(data, es).value| ==>
              Absorb(data, es).value[i] in data || StoredBySome(es, Absorb(data, es).value[i])
    decreases |es|
  {
    if |es| > 0 {
      var m := Absorb(data, es).value;
      if es[0].sample in Keys(data) {
        AbsorbSound(data, es[1..]);
        forall i | 0 <= i < |m| && StoredBySome(es[1..], m[i])
          ensures StoredBySome(es, m[i])
        {
          StoredByTail(es, m[i]);
        }
      } else {
        var name := es[0].name.value.value;
        var data' := Put(data, name, es[0].sample);
        AbsorbSound(data', es[1..]);
        PutItems(data, name, es[0].sample);
        forall i | 0 <= i < |m|
          ensures m[i] in data || StoredBySome(es, m[i])
        {
          if StoredBySome(es[1..], m[i]) {
            StoredByTail(es, m[i]);
          } else if m[i] !in data {
            assert Stores(es[0], m[i]);
          }
        }
      }
    }
  }

  lemma StoredByTail(es: seq<Entry>, item: (string, string))
    requires |es| > 0 && StoredBySome(es[1..], item)
    ensures StoredBySome(es, item)
  {
    var j :| 0 <= j < |es[1..]| && Stores(es[1..][j], item);
    assert es[j + 1] == es[1..][j];
  }

  /** The entries after `d[k] = v` are the old ones and `(k, v)`. */
  lemma PutItems(m: OMap<string, string>, k: string, v: string)
    ensures forall i :: 0 <= i < |Put(m, k, v)| ==> Put(m, k, v)[i] in m || Put(m, k, v)[i] == (k, v)
  {
  }

  /** An entry is accounted for by the dictionary: its sample is a stored barcode name (the row
      was skipped, or its sample collides with a barcode name), or its own barcode name is. */
  predicate Accounted(m: OMap<string, string>, e: Entry) {
    e.sample in Keys(m) || (e.name.Some? && e.name.value.Ok? && e.name.value.value in Keys(m))
  }

  /** Keys are never removed, and every row is accounted for. */
  lemma {:induction false} AbsorbComplete(data: OMap<string, string>, es: seq<Entry>)
    requires Absorb(data, es).Ok?
    ensures forall key :: key in Keys(data) ==> key in Keys(Absorb(data, es).value)
    ensures forall j :: 0 <= j < |es| ==> Accounted(Absorb(data, es).value, es[j])
    decreases |es|
  {
    if |es| > 0 {
      assert forall j :: 1 <= j < |es| ==> es[j] == es[1..][j - 1];
      if es[0].sample in Keys(data) {
        AbsorbComplete(data, es[1..]);
      } else {
        var name := es[0].name.value.value;
        PutKeeps(data, name, es[0].sample);
        AbsorbComplete(Put(data, name, es[0].sample), es[1..]);
      }
    }
  }

  lemma PutKeeps(m: OMap<string, string>, k: string, v: string)
    ensures k in Keys(Put(m, k, v))
    ensures forall key :: key in Keys(m) ==> key in Keys(Put(m, k, v))
  {
    if k !in Keys(m) {
      assert Keys(Put(m, k, v)) == Keys(m) + [k];
    }
  }

  /** A table whose every row has a barcode name that normalises is read without error. */
  lemma {:induction false} AbsorbSucceeds(data: OMap<string, string>, es: seq<Entry>)
    requires forall j :: 0 <= j < |es| ==> es[j].name.Some? && es[j].name.value.Ok?
    ensures Absorb(data, es).Ok?
    decreases |es|
  {
    if |es| > 0 {
      assert forall j :: 1 <= j < |es| ==> es[j] == es[1..][j - 1];
      if es[0].sample in Keys(data) {
        AbsorbSucceeds(data, es[1..]);
      } else {
        AbsorbSucceeds(Put(data, es[0].name.value.value, es[0].sample), es[1..]);
      }
    }
  }

  /** Two samples under the same barcode name: the later one replaces the earlier. */
  lemma LaterSampleWins(s1: string, s2: string, name: string)
    requires s2 != name
    ensures Absorb([], [Entry(s1, Some(Ok(name))), Entry(s2, Some(Ok(name)))]) == Ok([(name, s2)])
  {
    var e1, e2 := Entry(s1, Some(Ok(name))), Entry(s2, Some(Ok(name)));
    var none: OMap<string, string> := [];
    AbsorbStores(none, e1, [e2]);
    PutFresh(name, s1);
    AbsorbStores([(name, s1)], e2, []);
    PutAgain(name, s1, s2);
  }

  /** A row whose sample is a barcode name already stored is skipped without looking further:
      even a row with no barcode cell raises nothing. */
  lemma SampleLikeBarcodeSkipped(s: string, name: string)
    ensures Absorb([], [Entry(s, Some(Ok(name))), Entry(name, None)]) == Ok([(name, s)])
  {
    var e1, e2 := Entry(s, Some(Ok(name))), Entry(name, None);
    var none: OMap<string, string> := [];
    AbsorbStores(none, e1, [e2]);
    PutFresh(name, s);
    AbsorbSkips([(name, s)], e2, []);
  }

  lemma AbsorbStores(data: OMap<string, string>, e: Entry, rest: seq<Entry>)
    requires e.sample !in Keys(data) && e.name.Some? && e.name.value.Ok?
    ensures Absorb(data, [e] + rest) == Absorb(Put(data, e.name.value.value, e.sample), rest)
  {
    assert ([e] + rest)[0] == e && ([e] + rest)[1..] == rest;
  }

  lemma AbsorbSkips(data: OMap<string, string>, e: Entry, rest: seq<Entry>)
    requires e.sample in Keys(data)
    ensures Absorb(data, [e] + rest) == Absorb(data, rest)
  {
    assert ([e] + rest)[0] == e && ([e] + rest)[1..] == rest;
  }

  lemma PutFresh(k: string, v: string)
    ensures Put([], k, v) == [(k, v)] && Keys([(k, v)]) == [k]
  {
  }

  lemma PutAgain(k: string, v: string, w: string)
    ensures Put([(k, v)], k, w) == [(k, w)]
  {
    assert IndexOf([(k, v)], k) == Some(0);
  }

  // ---------------------------------------------------------------------------------------------
  // the database tables: `barcode2fasta`

  /** The name a database row is looked up by first: its second cell stripped of white space and
      then of `F` at either end. */
  function BarcodeKey(row: Row): string
    requires |row| >= 2
  {
    StripChar(Strip(row[1]), 'F')
  }

  /** `s` is the sample of some entry. */
  predicate IsSample(data: OMap<string, string>, s: string) {
    exists i :: 0 <= i < |data| && data[i].1 == s
  }

  /** The sample a database row is printed under: the entry of its barcode key if there is one,
      else the entry of its first cell, else none. A row with no second cell raises IndexError. */
  function Lookup(data: OMap<string, string>, row: Row): (r: Result<Option<string>>)
    requires |row| >= 1
    ensures r.Err? <==> |row| < 2
    ensures r.Err? ==> r.error == IndexError
    ensures r.Ok? && BarcodeKey(row) in Keys(data) ==> r.value == Get(data, BarcodeKey(row))
    ensures r.Ok? && BarcodeKey(row) !in Keys(data) ==> r.value == Get(data, row[0])
    ensures r.Ok? && r.value.Some? ==> IsSample(data, r.value.value)
  {
    if |row| < 2 then Err(IndexError)
    else
      var key := BarcodeKey(row);
      if key in Keys(data) then GetSample(data, key); Ok(Get(data, key))
      else if row[0] in Keys(data) then GetSample(data, row[0]); Ok(Get(data, row[0]))
      else Ok(None)
  }

  lemma GetSample(data: OMap<string, string>, k: string)
    requires k in Keys(data)
    ensures Get(data, k).Some? && IsSample(data, Get(data, k).value)
  {
    var i := IndexOf(data, k).value;
    assert data[i].1 == Get(data, k).value;
  }

  /** What the loop of `barcode2fasta` does with one database row. */
  datatype Outcome =
    | NoBarcode           // no second cell: IndexError
    | Unmatched           // neither lookup finds a sample: nothing printed
    | NoSequence          // a sample but no third cell: IndexError
    | Prints(rec: FastaRec)  // `>sample` and the third cell stripped

  function OutcomeOf(data: OMap<string, string>, row: Row): (o: Outcome)
    requires |row| >= 1
    ensures o.NoBarcode? <==> |row| < 2
    ensures o.Prints? ==> |row| >= 3 && IsSample(data, o.rec.id) && o.rec.bases == Strip(row[2])
  {
    match Lookup(data, row)
    case Err(_) => NoBarcode
    case Ok(None) => Unmatched
    case Ok(Some(s)) => if |row| < 3 then NoSequence else Prints(FastaRec(s, Strip(row[2])))
  }

  function Outcomes(data: OMap<string, string>, rows: seq<Row>): (os: seq<Outcome>)
    requires forall k :: 0 <= k < |rows| ==> |rows[k]| >= 1
    ensures |os| == |rows| && forall k :: 0 <= k < |rows| ==> os[k] == OutcomeOf(data, rows[k])
  {
    seq(|rows|, k requires 0 <= k < |rows| => OutcomeOf(data, rows[k]))
  }

  /** A row that makes the loop raise. */
  predicate Breaks(o: Outcome) {
    o.NoBarcode? || o.NoSequence?
  }

  /** The loop over the rows of one table, printing as it goes. */
  function Emit(os: seq<Outcome>): (r: Run)
    ensures r.failure.Some? ==> r.failure.value == IndexError
    ensures |r.printed| <= |os|
    ensures forall i :: 0 <= i < |r.printed| ==> exists k :: 0 <= k < |os| && os[k] == Prints(r.printed[i])
    decreases |os|
  {
    if |os| == 0 then Run([], None)
    else match os[0]
      case NoBarcode => Run([], Some(IndexError))
      case NoSequence => Run([], Some(IndexError))
      case Unmatched =>
        var r := Emit(os[1..]);
        assert forall k :: 0 <= k < |os[1..]| ==> os[1..][k] == os[k + 1];
        r
      case Prints(rec) =>
        var rest := Emit(os[1..]);
        assert forall k :: 0 <= k < |os[1..]| ==> os[1..][k] == os[k + 1];
        Run([rec] + rest.printed, rest.failure)
  }

  /** The loop raises exactly when some row breaks it. */
  lemma {:induction false} EmitFails(os: seq<Outcome>)
    ensures Emit(os).failure.Some? <==> exists j :: 0 <= j < |os| && Breaks(os[j])
    decreases |os|
  {
    if |os| > 0 {
      EmitFails(os[1..]);
      if !Breaks(os[0]) {
        assert forall j :: 0 <= j < |os[1..]| ==> os[1..][j] == os[j + 1];
        if exists j :: 0 <= j < |os| && Breaks(os[j]) {
          var j :| 0 <= j < |os| && Breaks(os[j]);
          assert os[1..][j - 1] == os[j];
        }
      }
    }
  }

  /** The loop prints, in order, the record of every row up to the first that breaks it. */
  lemma {:induction false} EmitPrints(os: seq<Outcome>)
    requires forall j :: 0 <= j < |os| ==> !Breaks(os[j])
    ensures Emit(os) == Run(Printed(os), None)
    decreases |os|
  {
    if |os| > 0 {
      assert forall j :: 0 <= j < |os[1..]| ==> os[1..][j] == os[j + 1];
      EmitPrints(os[1..]);
    }
  }

  /** The records of the rows that print, in row order. */
  function Printed(os: seq<Outcome>): (recs: seq<FastaRec>)
    ensures |recs| <= |os|
  {
    if |os| == 0 then []
    else (if os[0].Prints? then [os[0].rec] else []) + Printed(os[1..])
  }

  /** Rows are handled one after the other: printing two pieces of a table is printing the first
      and, unless it raised, then the second. */
  lemma {:induction false} EmitAppend(a: seq<Outcome>, b: seq<Outcome>)
    ensures Emit(a + b) == Then(Emit(a), Emit(b))
    decreases |a|
  {
    if |a| == 0 {
      assert a + b == b;
      assert Emit(b).printed == [] + Emit(b).printed;
    } else {
      assert (a + b)[0] == a[0] && (a + b)[1..] == a[1..] + b;
      EmitAppend(a[1..], b);
      if a[0].Prints? {
        var rest := Emit(a[1..]);
        if rest.failure.None? {
          assert [a[0].rec] + (rest.printed + Emit(b).printed) == ([a[0].rec] + rest.printed) + Emit(b).printed;
        }
      }
    }
  }

  /** The outcomes of two pieces of a table are those of the whole. */
  lemma OutcomesAppend(data: OMap<string, string>, a: seq<Row>, b: seq<Row>)
    requires forall k :: 0 <= k < |a| ==> |a[k]| >= 1
    requires forall k :: 0 <= k < |b| ==> |b[k]| >= 1
    ensures Outcomes(data, a + b) == Outcomes(data, a) + Outcomes(data, b)
  {
  }

  /** One database file: its table rows, looked up in `data`. */
  function EmitFile(data: OMap<string, string>, lines: seq<string>): (r: Run)
    ensures r.failure.Some? ==> r.failure.value == IndexError
  {
    Emit(Outcomes(data, ReadTsv(lines)))
  }

  /** The lines of all database files, one file after the other. */
  function Concat(files: seq<seq<string>>): (lines: seq<string>)
    decreases |files|
  {
    if |files| == 0 then [] else files[0] + Concat(files[1..])
  }

  /** The database files in the given order. */
  function EmitFiles(data: OMap<string, string>, files: seq<seq<string>>): (r: Run)
    ensures r.failure.Some? ==> r.failure.value == IndexError
    decreases |files|
  {
    if |files| == 0 then Run([], None)
    else Then(EmitFile(data, files[0]), EmitFiles(data, files[1..]))
  }

  /** `barcode2fasta(file, database)`: the barcode table is read first (its errors end the run
      before anything is printed), then every database table in order. */
  function Barcode2Fasta(table: seq<string>, files: seq<seq<string>>): (r: Run)
    ensures r.failure.Some? ==> r.failure.value == IndexError || r.failure.value == ValueError
    ensures ReadBarcTxt(table).Err? ==> r == Run([], Some(ReadBarcTxt(table).error))
  {
    match ReadBarcTxt(table)
    case Err(e) => Run([], Some(e))
    case Ok(data) => EmitFiles(data, files)
  }

  /** Several database files print exactly what their concatenation, as one file, prints: the
      output follows file order, then row order. */
  lemma {:induction false} EmitFilesConcat(data: OMap<string, string>, files: seq<seq<string>>)
    ensures EmitFiles(data, files) == EmitFile(data, Concat(files))
    decreases |files|
  {
    if |files| > 0 {
      EmitFilesConcat(data, files[1..]);
      var a, b := ReadTsv(files[0]), ReadTsv(Concat(files[1..]));
      ReadTsvAppend(files[0], Concat(files[1..]));
      OutcomesAppend(data, a, b);
      EmitAppend(Outcomes(data, a), Outcomes(data, b));
    }
  }

  lemma Barcode2FastaConcat(table: seq<string>, files: seq<seq<string>>)
    ensures Barcode2Fasta(table, files) == Barcode2Fasta(table, [Concat(files)])
  {
    var one := [Concat(files)];
    assert one[1..] == [] && Concat(one) == Concat(files) + [];
    if ReadBarcTxt(table).Ok? {
      var data := ReadBarcTxt(table).value;
      EmitFilesConcat(data, files);
      EmitFilesConcat(data, one);
    }
  }

  /** `s` is the first cell of some row of the barcode table. */
  predicate SampleOfRow(rows: seq<Row>, s: string) {
    exists j :: 0 <= j < |rows| && |rows[j]| >= 1 && rows[j][0] == s
  }

  /** Every sample printed is the first cell of some row of the barcode table. */
  lemma PrintedSamplesFromTable(table: seq<string>, files: seq<seq<string>>)
    ensures var r := Barcode2Fasta(table, files);
            forall i :: 0 <= i < |r.printed| ==> SampleOfRow(ReadTsv(table), r.printed[i].id)
  {
    var rows := ReadTsv(table);
    if ReadBarcTxt(table).Ok? {
      var data := ReadBarcTxt(table).value;
      var es := Entries(rows);
      AbsorbSound([], es);
      EmitFilesConcat(data, files);
      var os := Outcomes(data, ReadTsv(Concat(files)));
      var r := Emit(os);
      forall i | 0 <= i < |r.printed|
        ensures SampleOfRow(rows, r.printed[i].id)
      {
        var k :| 0 <= k < |os| && os[k] == Prints(r.printed[i]);
        SampleFromRow(rows, es, data, r.printed[i].id);
      }
    }
  }

  lemma SampleFromRow(rows: seq<Row>, es: seq<Entry>, data: OMap<string, string>, s: string)
    requires forall k :: 0 <= k < |rows| ==> |rows[k]| >= 1
    requires es == Entries(rows)
    requires IsSample(data, s)
    requires forall i :: 0 <= i < |data| ==> data[i] in [] || StoredBySome(es, data[i])
    ensures SampleOfRow(rows, s)
  {
    var k :| 0 <= k < |data| && data[k].1 == s;
    assert StoredBySome(es, data[k]);
    var j :| 0 <= j < |es| && Stores(es[j], data[k]);
    assert rows[j][0] == s;
  }
}

=== FILE: ccs2sub.dfy ===
/** lib/ccs2sub.py: collect the consensus (CCS) read ids of one file, cut to their canonical form
    `movie/zmw`, and keep the subreads whose first two `/`-fields name one of them. */
module Ccs2Sub {
  import opened Results
  import opened PyStr
  import opened Records
  import opened SampleName
  import Seqs
  import Fasta
  import Fastq

  /** `id.split('/ccs')[0]`: the consensus id without its `/ccs` suffix. */
  function ConsensusId(id: string): (r: string)
    ensures r <= id && !Contains(r, "/ccs")
    ensures Contains(id, "/ccs") ==> Find(id, "/ccs") == Some(|r|)
    ensures !Contains(id, "/ccs") ==> r == id
  {
    Before(id, "/ccs")
  }

  /** `'/'.join(qname.split('/')[0:2])`: the first two fields of a subread name. */
  function SubreadId(qname: string): string {
    var parts := Split(qname, "/");
    Join(parts[..if |parts| < 2 then |parts| else 2], "/")
  }

  /** The read ids of a consensus file, by its suffix. */
  function CcsIds(file: SourceFile): (r: Result<seq<string>>)
    ensures FormatOf(file.path).None? ==> r == Err(UnsupportedFormat(file.path))
  {
    match FormatOf(file.path)
    case None => Err(UnsupportedFormat(file.path))
    case Some(FastaFormat) =>
      var recs :- Fasta.ReadFasta(file.lines);
      Ok(FastaIds(recs))
    case Some(FastqFormat) =>
      var recs :- Fastq.ReadFastq(file.lines);
      Ok(seq(|recs|, i requires 0 <= i < |recs| => recs[i].id))
    case Some(AlignmentFormat) =>
      Ok(seq(|file.alignments|, i requires 0 <= i < |file.alignments| => file.alignments[i].qname))
  }

  function FastaIds(recs: seq<FastaRec>): (ids: seq<string>)
    ensures |ids| == |recs| && forall i :: 0 <= i < |recs| ==> ids[i] == recs[i].id
  {
    seq(|recs|, i requires 0 <= i < |recs| => recs[i].id)
  }

  function Canonical(ids: seq<string>): set<string> {
    set i | 0 <= i < |ids| :: ConsensusId(ids[i])
  }

  /** `read_ccs`: the canonical ids of a consensus file. */
  function ReadCcs(file: SourceFile): (r: Result<set<string>>)
    ensures FormatOf(file.path).None? ==> r == Err(UnsupportedFormat(file.path))
    ensures r.Ok? ==> forall id :: id in r.value ==> !Contains(id, "/ccs")
  {
    var ids :- CcsIds(file);
    Ok(Canonical(ids))
  }

  /** `ccs2sub`: the subreads written to the output, unchanged and in input order. The consensus
      file is read first, so its errors come first. */
  function Ccs2Sub(subreads: SourceFile, ccs: SourceFile): (r: Result<seq<Alignment>>)
    ensures FormatOf(ccs.path).None? ==> r == Err(UnsupportedFormat(ccs.path))
    ensures ReadCcs(ccs).Ok? && !IsAlignmentPath(subreads.path) ==> r == Err(UnsupportedFormat(subreads.path))
  {
    var known :- ReadCcs(ccs);
    if !IsAlignmentPath(subreads.path) then Err(UnsupportedFormat(subreads.path))
    else Ok(Seqs.Filter(subreads.alignments, (x: Alignment) => SubreadId(x.qname) in known))
  }

  // ---------------------------------------------------------------------------------------------
  // properties

  /** Cutting the `/ccs` suffix twice cuts nothing more. */
  lemma ConsensusIdIdempotent(id: string)
    ensures ConsensusId(ConsensusId(id)) == ConsensusId(id)
  {
  }

  /** A subread `movie/zmw/range` and the consensus read `movie/zmw/ccs...` of the same hole get
      the same canonical id, provided the fields hold no `/` and the hole number does not itself
      start with `ccs`. */
  lemma SubreadMatchesConsensus(movie: string, zmw: string, range: string, suffix: string)
    requires '/' !in movie && '/' !in zmw && !StartsWith(zmw, "ccs")
    ensures SubreadId(movie + "/" + zmw + "/" + range) == movie + "/" + zmw
    ensures ConsensusId(movie + "/" + zmw + "/ccs" + suffix) == movie + "/" + zmw
  {
    SubreadFields(movie, zmw, range);
    ConsensusFields(movie, zmw, suffix);
  }

  lemma SubreadFields(movie: string, zmw: string, range: string)
    requires '/' !in movie && '/' !in zmw
    ensures SubreadId(movie + "/" + zmw + "/" + range) == movie + "/" + zmw
  {
    var t := zmw + "/" + range;
    var s := movie + "/" + zmw + "/" + range;
    assert s == movie + ['/'] + t;
    SplitAtFirst(movie, '/', t);
    assert t == zmw + ['/'] + range;
    SplitAtFirst(zmw, '/', range);
    var parts := Split(s, "/");
    assert parts == [movie] + ([zmw] + Split(range, "/"));
    assert |parts| >= 2 && parts[..2] == [movie, zmw];
    JoinCons(movie, [zmw], "/");
    assert [movie] + [zmw] == [movie, zmw];
  }

  lemma ConsensusFields(movie: string, zmw: string, suffix: string)
    requires '/' !in movie && '/' !in zmw && !StartsWith(zmw, "ccs")
    ensures ConsensusId(movie + "/" + zmw + "/ccs" + suffix) == movie + "/" + zmw
  {
    var head := movie + "/" + zmw;
    var s := head + "/ccs" + suffix;
    assert s == movie + "/" + zmw + "/ccs" + suffix;
    assert s[|head|..|head| + 4] == "/ccs";
    forall j | 0 <= j < |head|
      ensures !Occurs(s, "/ccs", j)
    {
      assert s[j] == head[j];
      if j != |movie| {
        assert s[j] != '/';
        assert j + 4 <= |s| ==> s[j..j + 4][0] == s[j];
      } else {
        NotCcsAfterSlash(zmw, s, j);
      }
    }
    FindFirst(s, "/ccs", |head|);
    assert s[..|head|] == head;
  }

  /** At the slash before the hole number there is no `/ccs`. */
  lemma NotCcsAfterSlash(zmw: string, s: string, j: nat)
    requires '/' !in zmw && !StartsWith(zmw, "ccs")
    requires j + 1 + |zmw| < |s| && s[j + 1..j + 1 + |zmw|] == zmw && s[j + 1 + |zmw|] == '/'
    ensures !Occurs(s, "/ccs", j)
  {
    if j + 4 <= |s| {
      var w := s[j..j + 4];
      if |zmw| >= 3 {
        assert w[1..] == zmw[..3];
      } else {
        assert w[1 + |zmw|] == '/';
      }
    }
  }

  /** The canonical ids of a FASTA consensus file are those of the ids it holds. */
  lemma ReadCcsFasta(ccs: SourceFile, recs: seq<FastaRec>)
    requires FormatOf(ccs.path) == Some(FastaFormat)
    requires ccs.lines == Fasta.WriteFasta(recs)
    requires forall i :: 0 <= i < |recs| ==> Fasta.Writable(recs[i])
    ensures ReadCcs(ccs) == Ok(Canonical(FastaIds(recs)))
  {
    Fasta.ReadFastaRoundTrip(recs);
    assert CcsIds(ccs) == Ok(FastaIds(recs));
  }

  /** A subread is written iff its `movie/zmw` is a canonical consensus id. */
  lemma Ccs2SubSelects(subreads: SourceFile, ccs: SourceFile, known: set<string>, a: Alignment)
    requires ReadCcs(ccs) == Ok(known) && IsAlignmentPath(subreads.path)
    ensures Ccs2Sub(subreads, ccs).Ok?
    ensures a in Ccs2Sub(subreads, ccs).value <==> a in subreads.alignments && SubreadId(a.qname) in known
  {
    Seqs.FilterMembers(subreads.alignments, (x: Alignment) => SubreadId(x.qname) in known, a);
  }

  /** Order: the subreads of a file split in two are written as those of the first part followed
      by those of the second, and each kept subread is written as often as it occurs. */
  lemma Ccs2SubInOrder(path: string, lines: seq<string>, first: seq<Alignment>, second: seq<Alignment>,
                       ccs: SourceFile, known: set<string>)
    requires ReadCcs(ccs) == Ok(known) && IsAlignmentPath(path)
    ensures var whole := Ccs2Sub(SourceFile(path, lines, first + second), ccs);
            whole.Ok?
            && whole.value == Ccs2Sub(SourceFile(path, lines, first), ccs).value
                              + Ccs2Sub(SourceFile(path, lines, second), ccs).value
            && forall a :: multiset(whole.value)[a]
                             == if SubreadId(a.qname) in known then multiset(first + second)[a] else 0
  {
    var keep := (x: Alignment) => SubreadId(x.qname) in known;
    Seqs.FilterAppend(first, second, keep);
    Seqs.FilterCount(first + second, keep);
  }
}

=== FILE: estimators.dfy ===
/** The reference read length of lib/filter_ccs.py and lib/filter_pbbarcode_old.py
    (`stat_quality`): `np.argmax(np.bincount(...))` for "model", `np.median` for "median",
    `np.mean` otherwise; and `n50`, defined in both scripts. */
module Estimators {
  import opened Results
  import opened Seqs

  /** How often `v` occurs among `xs`: `np.bincount(xs)[v]`. */
  function Count(xs: seq<int>, v: int): nat {
    multiset(xs)[v]
  }

  /** The largest element. */
  function MaxOf(xs: seq<nat>): (m: nat)
    requires |xs| > 0
    ensures m in xs
    ensures forall i :: 0 <= i < |xs| ==> xs[i] <= m
  {
    if |xs| == 1 then xs[0]
    else
      var m := MaxOf(xs[1..]);
      assert xs[1..][0] in xs[1..];
      if xs[0] >= m then xs[0] else m
  }

  /** The first index of a largest bin among bins `0..n`. */
  function Best(xs: seq<nat>, n: nat): (b: nat)
    ensures b <= n
    ensures forall v :: 0 <= v <= n ==> Count(xs, v) <= Count(xs, b)
    ensures forall v :: 0 <= v < b ==> Count(xs, v) < Count(xs, b)
  {
    if n == 0 then 0
    else
      var b := Best(xs, n - 1);
      if Count(xs, n) > Count(xs, b) then n else b
  }

  /** `np.argmax(np.bincount(xs))`: the smallest most frequent value. An empty histogram has no
      argmax (ValueError). */
  function Mode(xs: seq<nat>): (r: Result<nat>)
    ensures r.Err? <==> |xs| == 0
    ensures r.Err? ==> r.error == ValueError
    ensures r.Ok? ==> r.value in xs
    ensures r.Ok? ==> forall v :: Count(xs, v) <= Count(xs, r.value)
    ensures r.Ok? ==> forall v :: 0 <= v < r.value ==> Count(xs, v) < Count(xs, r.value)
  {
    if |xs| == 0 then Err(ValueError)
    else
      var top := MaxOf(xs);
      var b := Best(xs, top);
      ModeFacts(xs, top, b);
      Ok(b)
  }

  lemma ModeFacts(xs: seq<nat>, top: nat, b: nat)
    requires |xs| > 0 && top == MaxOf(xs) && b == Best(xs, top)
    ensures b in xs
    ensures forall v :: Count(xs, v) <= Count(xs, b)
  {
    assert Count(xs, top) >= 1;
    forall v
      ensures Count(xs, v) <= Count(xs, b)
    {
      if v < 0 || v > top {
        assert v !in xs;
      }
    }
  }

  // ---------------------------------------------------------------------------------------------
  // median and mean

  /** A floating-point estimate; numpy gives `nan` for the median or mean of nothing. */
  datatype Estimate = Value(v: real) | NaN

  /** `np.median(xs)`: the middle of the sorted values, or the mean of the two middle ones. */
  function Median(xs: seq<int>): Estimate {
    MiddleOf(SortAsc(xs))
  }

  /** The middle of an ordered sequence. */
  function MiddleOf(d: seq<int>): Estimate {
    var n := |d|;
    if n == 0 then NaN
    else if n % 2 == 1 then Value(d[n / 2] as real)
    else Value((d[n / 2 - 1] + d[n / 2]) as real / 2.0)
  }

  /** `np.mean(xs)`. */
  function Mean(xs: seq<int>): Estimate {
    if |xs| == 0 then NaN else Value(Sum(xs) as real / |xs| as real)
  }

  /** Two ascending sequences with the same elements are equal. */
  lemma {:induction false} SortedUnique(a: seq<int>, b: seq<int>)
    requires SortedAsc(a) && SortedAsc(b) && multiset(a) == multiset(b)
    ensures a == b
    decreases |a|
  {
    assert |a| == |multiset(a)| == |multiset(b)| == |b|;
    if |a| > 0 {
      SortedTails(a, b);
      SortedUnique(a[1..], b[1..]);
      assert a == [a[0]] + a[1..] && b == [b[0]] + b[1..];
    }
  }

  /** Equal heads, and tails that are again ascending with equal multisets. */
  lemma SortedTails(a: seq<int>, b: seq<int>)
    requires |a| > 0 && |b| > 0 && SortedAsc(a) && SortedAsc(b) && multiset(a) == multiset(b)
    ensures a[0] == b[0] && multiset(a[1..]) == multiset(b[1..])
    ensures SortedAsc(a[1..]) && SortedAsc(b[1..])
  {
    SortedHeads(a, b);
    SortedHeads(b, a);
    HeadRemoved(a, b);
    SortedTail(a);
    SortedTail(b);
  }

  lemma HeadRemoved(a: seq<int>, b: seq<int>)
    requires |a| > 0 && |b| > 0 && a[0] == b[0] && multiset(a) == multiset(b)
    ensures multiset(a[1..]) == multiset(b[1..])
  {
    assert a == [a[0]] + a[1..] && b == [b[0]] + b[1..];
    assert multiset(a) == multiset{a[0]} + multiset(a[1..]);
    assert multiset(b) == multiset{a[0]} + multiset(b[1..]);
    forall y
      ensures multiset(a[1..])[y] == multiset(b[1..])[y]
    {
      assert multiset(a)[y] == multiset{a[0]}[y] + multiset(a[1..])[y];
      assert multiset(b)[y] == multiset{a[0]}[y] + multiset(b[1..])[y];
    }
  }

  lemma SortedTail(a: seq<int>)
    requires |a| > 0 && SortedAsc(a)
    ensures SortedAsc(a[1..])
  {
    forall i, j | 0 <= i < j < |a| - 1
      ensures a[1..][i] <= a[1..][j]
    {
      assert a[1..][i] == a[i + 1] && a[1..][j] == a[j + 1];
    }
  }

  /** The head of an ascending sequence is no larger than any element of an equal multiset. */
  lemma SortedHeads(a: seq<int>, b: seq<int>)
    requires |a| > 0 && |b| > 0 && SortedAsc(a) && multiset(a) == multiset(b)
    ensures a[0] <= b[0]
  {
    assert b[0] in multiset(a);
    var i :| 0 <= i < |a| && a[i] == b[0];
  }

  /** The median does not depend on the order of the values. */
  lemma MedianPermutation(xs: seq<int>, ys: seq<int>)
    requires multiset(xs) == multiset(ys)
    ensures Median(xs) == Median(ys)
  {
    assert |xs| == |multiset(xs)| == |multiset(ys)| == |ys|;
    SortedUnique(SortAsc(xs), SortAsc(ys));
  }

  /** The median of values in `[lo, hi]` lies in `[lo, hi]`. */
  lemma MedianBounds(xs: seq<int>, lo: int, hi: int)
    requires |xs| > 0 && forall i :: 0 <= i < |xs| ==> lo <= xs[i] <= hi
    ensures Median(xs).Value? && lo as real <= Median(xs).v <= hi as real
  {
    var d := SortAsc(xs);
    forall k | 0 <= k < |d|
      ensures lo <= d[k] <= hi
    {
      assert d[k] in multiset(xs);
    }
  }

  /** The mean does not depend on the order of the values. */
  lemma MeanPermutation(xs: seq<int>, ys: seq<int>)
    requires multiset(xs) == multiset(ys)
    ensures Mean(xs) == Mean(ys)
  {
    assert |xs| == |multiset(xs)| == |multiset(ys)| == |ys|;
    SumPermutation(xs, ys);
  }

  /** The mean of values in `[lo, hi]` lies in `[lo, hi]`. */
  lemma MeanBounds(xs: seq<int>, lo: real, hi: real)
    requires |xs| > 0 && forall i :: 0 <= i < |xs| ==> lo <= xs[i] as real <= hi
    ensures Mean(xs).Value? && lo <= Mean(xs).v <= hi
  {
    SumBoundsReal(xs, lo, hi);
    LowerQuotient(Sum(xs) as real, |xs| as real, lo);
    UpperQuotient(Sum(xs) as real, |xs| as real, hi);
  }

  /** A sum lies between `|xs|` times a lower bound and `|xs|` times an upper bound. */
  lemma {:induction false} SumBoundsReal(xs: seq<int>, lo: real, hi: real)
    requires forall i :: 0 <= i < |xs| ==> lo <= xs[i] as real <= hi
    ensures |xs| as real * lo <= Sum(xs) as real <= |xs| as real * hi
    decreases |xs|
  {
    if |xs| > 0 {
      var tl := xs[1..];
      assert forall i :: 0 <= i < |tl| ==> tl[i] == xs[i + 1];
      SumBoundsReal(tl, lo, hi);
      SumBoundsStep(|xs|, Sum(tl) as real, xs[0] as real, lo, hi);
    }
  }

  /** Adding one value within the bounds to a sum of `n - 1` values within them. */
  lemma SumBoundsStep(n: nat, s: real, x: real, lo: real, hi: real)
    requires n > 0 && (n - 1) as real * lo <= s <= (n - 1) as real * hi && lo <= x <= hi
    ensures n as real * lo <= x + s <= n as real * hi
  {
    assert n as real * lo == (n - 1) as real * lo + lo;
    assert n as real * hi == (n - 1) as real * hi + hi;
  }

  lemma LowerQuotient(s: real, n: real, lo: real)
    requires n > 0.0 && n * lo <= s
    ensures lo <= s / n
  {
  }

  lemma UpperQuotient(s: real, n: real, hi: real)
    requires n > 0.0 && s <= n * hi
    ensures s / n <= hi
  {
  }

  // ---------------------------------------------------------------------------------------------
  // the reference length

  /** The `model` argument's three cases; any other text means the mean. */
  function Reference(model: string, lengths: seq<nat>): (r: Result<Estimate>)
    ensures model == "model" ==> (r.Err? <==> |lengths| == 0)
    ensures model != "model" ==> r.Ok? && (r.value.NaN? <==> |lengths| == 0)
    ensures model == "model" && r.Ok? ==> r.value == Value(Mode(lengths).value as real)
    ensures model == "median" ==> r == Ok(Median(lengths))
    ensures model != "model" && model != "median" ==> r == Ok(Mean(lengths))
  {
    if model == "model" then
      var m :- Mode(lengths);
      Ok(Value(m as real))
    else if model == "median" then Ok(Median(lengths))
    else Ok(Mean(lengths))
  }

  /** Whichever estimator is chosen, the reference length of lengths in `[lo, hi]` is a number in
      `[lo, hi]`. */
  lemma ReferenceBounds(model: string, lengths: seq<nat>, lo: nat, hi: nat)
    requires |lengths| > 0 && forall i :: 0 <= i < |lengths| ==> lo <= lengths[i] <= hi
    ensures Reference(model, lengths).Ok? && Reference(model, lengths).value.Value?
    ensures lo as real <= Reference(model, lengths).value.v <= hi as real
  {
    if model == "model" {
      var m := Mode(lengths).value;
      var i :| 0 <= i < |lengths| && lengths[i] == m;
    } else if model == "median" {
      MedianBounds(lengths, lo, hi);
    } else {
      MeanBounds(lengths, lo as real, hi as real);
    }
  }

  // ---------------------------------------------------------------------------------------------
  // n50

  /** `k` is where `n50` stops on the descending lengths `d`: the first prefix `d[..k+1]` whose sum
      reaches half of `total`. */
  predicate StopsAt(d: seq<int>, total: int, k: int) {
    0 <= k < |d| && 2 * Running(d, k + 1) >= total
    && forall j :: 1 <= j <= k ==> 2 * Running(d, j) < total
  }

  /** The sum of the first `j` lengths. */
  function Running(d: seq<int>, j: nat): int
    requires j <= |d|
  {
    Sum(d[..j])
  }

  /** `n50(lengths)`: walking the lengths in descending order, the first length at which the
      running sum reaches half of the total; `None` for an empty list (the loop never returns). */
  method N50(lengths: seq<nat>) returns (r: Option<int>)
    ensures r.None? <==> |lengths| == 0
    ensures r.Some? ==> r.value in lengths
    ensures r.Some? ==> exists k :: StopsAt(SortDesc(lengths), Sum(lengths), k) && r.value == SortDesc(lengths)[k]
  {
    var d := SortDesc(lengths);
    var k := HalfIndex(d, Sum(lengths));
    match k
    case Some(i) =>
      assert d[i] in multiset(lengths);
      return Some(d[i]);
    case None =>
      if |d| > 0 {
        HalfReached(lengths, d);
        assert false;
      }
      return None;
  }

  /** The loop of `n50` on the descending lengths `d`: the index where the running sum first
      reaches half of `total`, if it does. */
  method HalfIndex(d: seq<int>, total: int) returns (k: Option<nat>)
    ensures k.Some? ==> StopsAt(d, total, k.value)
    ensures k.None? ==> forall j :: 1 <= j <= |d| ==> 2 * Running(d, j) < total
  {
    var acc := 0;
    var i := 0;
    while i < |d|
      invariant 0 <= i <= |d|
      invariant acc == Running(d, i)
      invariant forall j :: 1 <= j <= i ==> 2 * Running(d, j) < total
    {
      SumSnoc(d, i);
      acc := acc + d[i];
      if 2 * acc >= total {
        return Some(i);
      }
      assert 2 * Running(d, i + 1) < total;
      i := i + 1;
    }
    return None;
  }

  /** All of the (non-negative) lengths together reach half of their sum. */
  lemma HalfReached(lengths: seq<nat>, d: seq<int>)
    requires multiset(d) == multiset(lengths) && |d| > 0
    ensures 2 * Running(d, |d|) >= Sum(lengths)
  {
    assert d[..|d|] == d;
    SumPermutation(d, lengths);
    forall i | 0 <= i < |d|
      ensures d[i] >= 0
    {
      assert d[i] in multiset(lengths);
    }
    SumNonNegative(d);
  }

  lemma SumSnoc(d: seq<int>, i: nat)
    requires i < |d|
    ensures Running(d, i + 1) == Running(d, i) + d[i]
  {
    assert d[..i + 1] == d[..i] + [d[i]];
    SumAppend(d[..i], [d[i]]);
  }
}

=== FILE: fasta.dfy ===
/** The two line-based FASTA readers: `read_fasta` of lib/ccs2sub.py (the same code is in
    lib/filter_pbbarcode_old.py), which keys a record by the first token of its header and yields
    a record for every header, and `read_fasta` of lib/rm_repeat_barcode.py, which keeps the whole
    header and yields only records that have sequence lines. Both are folds over the file's lines
    with an explicit buffer; both look at a line only after `line.strip()`. */
module Fasta {
  import opened Results
  import opened PyStr
  import opened Records
  import Seqs

  // ---------------------------------------------------------------------------------------------
  // a line as the loops see it

  /** A line after `line.strip()`: blank, or its text together with what the loops may take from
      it: whether it starts with `>`, the first token after stripping `>` (`MarkedId`) and the
      whole text after stripping `>`.
      Both derived values are pure, so computing them for every line changes nothing. */
  datatype LineView = Blank | NonBlank(text: string, header: bool, firstId: Result<string>, wholeId: string)

  function View(raw: string): (v: LineView)
    ensures v.Blank? <==> IsBlank(raw)
    ensures v.NonBlank? ==> v.text == Strip(raw) && v.wholeId == StripChar(v.text, '>')
    ensures v.NonBlank? ==> v.header == IsHeaderLine(raw) && v.firstId == MarkedId(Strip(raw), '>')
  {
    var line := Strip(raw);
    if line == "" then Blank else NonBlank(line, StartsWith(line, ">"), MarkedId(line, '>'), StripChar(line, '>'))
  }

  function Views(lines: seq<string>): (vs: seq<LineView>)
    ensures |vs| == |lines|
    ensures forall i :: 0 <= i < |lines| ==> vs[i] == View(lines[i])
  {
    seq(|lines|, i requires 0 <= i < |lines| => View(lines[i]))
  }

  lemma ViewsAppend(a: seq<string>, b: seq<string>)
    ensures Views(a + b) == Views(a) + Views(b)
  {
  }

  predicate IsHeaderView(v: LineView) {
    v.NonBlank? && v.header
  }

  /** A line whose stripped form starts with `>`. */
  predicate IsHeaderLine(line: string) {
    StartsWith(Strip(line), ">")
  }

  // ---------------------------------------------------------------------------------------------
  // lib/ccs2sub.py: read_fasta

  /** The string buffer `seq` of the loop: empty before the first non-blank line, then the current
      id and the sequence read so far (`"id\nseq"`, split on the newline when a record is yielded). */
  datatype Buffer = Empty | Open(id: string, bases: string)

  /** One turn of the loop: the new buffer and the records yielded on this line. The first
      non-blank line opens a record whether or not it starts with `>`. */
  function Step(b: Buffer, v: LineView): Result<(Buffer, seq<FastaRec>)> {
    match v
    case Blank => Ok((b, []))
    case NonBlank(text, header, firstId, _) =>
      match b
      case Empty =>
        var id :- firstId;
        Ok((Open(id, ""), []))
      case Open(id, s) =>
        if header then
          var id' :- firstId;
          Ok((Open(id', ""), [FastaRec(id, s)]))
        else
          Ok((Open(id, s + text), []))
  }

  /** After the loop: the last buffered record, if any. */
  function Flush(b: Buffer): seq<FastaRec> {
    match b
    case Empty => []
    case Open(id, s) => [FastaRec(id, s)]
  }

  /** Runs the loop from buffer `b` over the remaining lines. */
  function Feed(b: Buffer, vs: seq<LineView>): Result<seq<FastaRec>>
    decreases |vs|
  {
    if |vs| == 0 then Ok(Flush(b))
    else
      var st :- Step(b, vs[0]);
      var rest :- Feed(st.0, vs[1..]);
      Ok(st.1 + rest)
  }

  /** `list(read_fasta(file))` over the file's lines. */
  function ReadFasta(lines: seq<string>): Result<seq<FastaRec>> {
    Feed(Empty, Views(lines))
  }

  /** The view of a line whose header id fails with IndexError, if it fails at all. */
  predicate IndexOnly(v: LineView) {
    v.NonBlank? && v.firstId.Err? ==> v.firstId.error == IndexError
  }

  /** The loop fails only on a header line that holds nothing but `>` and white space:
      the IndexError of `split()[0]`. */
  lemma {:induction false} FeedFailsIndex(b: Buffer, vs: seq<LineView>)
    requires forall i :: 0 <= i < |vs| ==> IndexOnly(vs[i])
    ensures Feed(b, vs).Err? ==> Feed(b, vs).error == IndexError
    decreases |vs|
  {
    if |vs| > 0 {
      match Step(b, vs[0])
      case Err(_) =>
      case Ok(st) =>
        FeedFailsIndex(st.0, vs[1..]);
    }
  }

  /** Line `i` is one the reader takes an id from: a non-blank line that starts with `>`, or the
      first non-blank line of the file. */
  predicate IdLine(lines: seq<string>, i: int)
    requires 0 <= i < |lines|
  {
    !IsBlank(lines[i]) && (IsHeaderLine(lines[i]) || forall j :: 0 <= j < i ==> IsBlank(lines[j]))
  }

  /** Line `i` is an id line whose text is nothing but `>` and white space. */
  predicate NoIdAt(lines: seq<string>, i: int) {
    0 <= i < |lines| && IdLine(lines, i) && MarkedId(Strip(lines[i]), '>').Err?
  }

  lemma ReadFastaFails(lines: seq<string>)
    ensures ReadFasta(lines).Err? ==> ReadFasta(lines).error == IndexError
    ensures ReadFasta(lines).Err? <==> exists i :: NoIdAt(lines, i)
  {
    var vs := Views(lines);
    forall i | 0 <= i < |vs|
      ensures IndexOnly(vs[i])
    {
    }
    FeedFailsIndex(Empty, vs);
    FeedFailsAt(Empty, vs);
    if ReadFasta(lines).Err? {
      var i :| BadAt(Empty, vs, i);
      BadAtLine(lines, i);
    }
    if exists i :: NoIdAt(lines, i) {
      var i :| NoIdAt(lines, i);
      BadAtLine(lines, i);
    }
  }

  /** The view-level and line-level descriptions of a missing id agree. */
  lemma BadAtLine(lines: seq<string>, i: int)
    requires 0 <= i < |lines|
    ensures BadAt(Empty, Views(lines), i) <==> NoIdAt(lines, i)
  {
    var vs := Views(lines);
    forall j | 0 <= j < i
      ensures vs[j].Blank? <==> IsBlank(lines[j])
    {
    }
    assert vs[i] == View(lines[i]);
  }

  /** On views, from buffer `b`: view `i` is taken for an id and has none. Only whether `b` is
      empty matters, as only then is a line without `>` taken. */
  predicate BadAt(b: Buffer, vs: seq<LineView>, i: int) {
    0 <= i < |vs| && vs[i].NonBlank? && vs[i].firstId.Err?
    && (vs[i].header || (b.Empty? && forall j :: 0 <= j < i ==> vs[j].Blank?))
  }

  /** The loop fails exactly when it meets a view it takes an id from and that has none. */
  lemma {:induction false} FeedFailsAt(b: Buffer, vs: seq<LineView>)
    ensures Feed(b, vs).Err? <==> exists i :: BadAt(b, vs, i)
    decreases |vs|
  {
    if |vs| > 0 {
      var tl := vs[1..];
      match Step(b, vs[0])
      case Err(_) =>
        assert BadAt(b, vs, 0);
      case Ok(st) =>
        FeedFailsAt(st.0, tl);
        assert !BadAt(b, vs, 0);
        assert st.0.Empty? <==> b.Empty? && vs[0].Blank?;
        forall i | 0 <= i < |tl|
          ensures BadAt(b, vs, i + 1) <==> BadAt(st.0, tl, i)
        {
          assert vs[i + 1] == tl[i];
          if vs[0].Blank? {
            assert (forall j :: 0 <= j < i + 1 ==> vs[j].Blank?) <==> (forall j :: 0 <= j < i ==> tl[j].Blank?);
          }
        }
        if exists i :: BadAt(b, vs, i) {
          var i :| BadAt(b, vs, i);
          assert BadAt(st.0, tl, i - 1);
        }
        if exists i :: BadAt(st.0, tl, i) {
          var i :| BadAt(st.0, tl, i);
          assert BadAt(b, vs, i + 1);
        }
    }
  }

  /** `out` in front of the records of a successful run; an error passes through. */
  function Prepend(out: seq<FastaRec>, res: Result<seq<FastaRec>>): Result<seq<FastaRec>> {
    match res
    case Ok(rest) => Ok(out + rest)
    case Err(e) => Err(e)
  }

  lemma FeedOk(b: Buffer, vs: seq<LineView>, b': Buffer, out: seq<FastaRec>)
    requires |vs| > 0 && Step(b, vs[0]) == Ok((b', out))
    ensures Feed(b, vs) == Prepend(out, Feed(b', vs[1..]))
  {
  }

  // -- how many records

  /** The number of lines that start (after stripping) with `>`. */
  function CountHeaders(vs: seq<LineView>): nat {
    |Seqs.Filter(vs, IsHeaderView)|
  }

  /** The header lines of a file: its first non-blank line, whatever it holds, and every later
      line that starts with `>`. */
  function HeaderCount(vs: seq<LineView>): nat {
    if |vs| == 0 then 0
    else if vs[0].Blank? then HeaderCount(vs[1..])
    else 1 + CountHeaders(vs[1..])
  }

  lemma CountHeadersCons(vs: seq<LineView>)
    requires |vs| > 0
    ensures CountHeaders(vs) == (if IsHeaderView(vs[0]) then 1 else 0) + CountHeaders(vs[1..])
  {
    assert vs == [vs[0]] + vs[1..];
    Seqs.FilterAppend([vs[0]], vs[1..], IsHeaderView);
  }

  /** The number of records a run from buffer `b` yields. */
  function Expected(b: Buffer, vs: seq<LineView>): nat {
    if b.Open? then 1 + CountHeaders(vs) else HeaderCount(vs)
  }

  lemma {:induction false} FeedCount(b: Buffer, vs: seq<LineView>)
    ensures Feed(b, vs).Ok? ==> |Feed(b, vs).value| == Expected(b, vs)
    decreases |vs|
  {
    if |vs| > 0 && Feed(b, vs).Ok? {
      var st := Step(b, vs[0]).value;
      FeedCount(st.0, vs[1..]);
      FeedCountStep(b, vs);
    }
  }

  lemma FeedCountStep(b: Buffer, vs: seq<LineView>)
    requires |vs| > 0 && Feed(b, vs).Ok?
    requires Step(b, vs[0]).Ok? ==>
      var st := Step(b, vs[0]).value;
      Feed(st.0, vs[1..]).Ok? ==> |Feed(st.0, vs[1..]).value| == Expected(st.0, vs[1..])
    ensures |Feed(b, vs).value| == Expected(b, vs)
  {
    var st := Step(b, vs[0]).value;
    FeedOk(b, vs, st.0, st.1);
    CountHeadersCons(vs);
  }

  /** One record per header line: the reader never merges or drops a header, even one followed
      directly by another header. */
  lemma ReadFastaCount(lines: seq<string>)
    ensures ReadFasta(lines).Ok? ==> |ReadFasta(lines).value| == HeaderCount(Views(lines))
  {
    FeedCount(Empty, Views(lines));
  }

  lemma {:induction false} FeedBlank(b: Buffer, vs: seq<LineView>)
    requires forall i :: 0 <= i < |vs| ==> vs[i].Blank?
    ensures Feed(b, vs) == Ok(Flush(b))
    decreases |vs|
  {
    if |vs| > 0 {
      FeedBlank(b, vs[1..]);
      FeedOk(b, vs, b, []);
      assert [] + Flush(b) == Flush(b);
    }
  }

  /** Blank-only input yields nothing. */
  lemma ReadFastaBlank(lines: seq<string>)
    requires forall i :: 0 <= i < |lines| ==> IsBlank(lines[i])
    ensures ReadFasta(lines) == Ok([])
  {
    FeedBlank(Empty, Views(lines));
  }

  // -- multi-line sequences

  /** The stripped lines concatenated. */
  function GlueLines(lines: seq<string>): string {
    if |lines| == 0 then "" else Strip(lines[0]) + GlueLines(lines[1..])
  }

  /** The texts of the non-blank lines concatenated. */
  function Glue(vs: seq<LineView>): string {
    if |vs| == 0 then "" else (if vs[0].Blank? then "" else vs[0].text) + Glue(vs[1..])
  }

  lemma {:induction false} GlueViews(lines: seq<string>)
    ensures Glue(Views(lines)) == GlueLines(lines)
    decreases |lines|
  {
    if |lines| > 0 {
      GlueViews(lines[1..]);
      GlueViewsStep(lines);
    }
  }

  lemma GlueViewsStep(lines: seq<string>)
    requires |lines| > 0 && Glue(Views(lines[1..])) == GlueLines(lines[1..])
    ensures Glue(Views(lines)) == GlueLines(lines)
  {
    ViewsHead(lines);
    ViewText(lines[0]);
  }

  lemma ViewsHead(lines: seq<string>)
    requires |lines| > 0
    ensures Views(lines)[0] == View(lines[0]) && Views(lines)[1..] == Views(lines[1..])
  {
  }

  /** The text a view contributes is the stripped line. */
  lemma ViewText(raw: string)
    ensures (if View(raw).Blank? then "" else View(raw).text) == Strip(raw)
  {
  }

  lemma {:induction false} FeedGlues(id: string, s: string, body: seq<LineView>, rest: seq<LineView>)
    requires forall i :: 0 <= i < |body| ==> !IsHeaderView(body[i])
    ensures Feed(Open(id, s), body + rest) == Feed(Open(id, s + Glue(body)), rest)
    decreases |body|
  {
    if |body| == 0 {
      assert body + rest == rest;
      assert s + Glue(body) == s;
    } else {
      var vs := body + rest;
      assert vs[0] == body[0] && vs[1..] == body[1..] + rest;
      var s' := s + (if body[0].Blank? then "" else body[0].text);
      assert s' + Glue(body[1..]) == s + Glue(body);
      assert !IsHeaderView(body[0]);
      if body[0].Blank? {
        assert s' == s;
      }
      assert Step(Open(id, s), vs[0]) == Ok((Open(id, s'), []));
      FeedOk(Open(id, s), vs, Open(id, s'), []);
      FeedGlues(id, s', body[1..], rest);
      var none: seq<FastaRec> := [];
      match Feed(Open(id, s'), vs[1..])
      case Ok(v) => assert none + v == v;
      case Err(_) =>
    }
  }

  /** The sequence lines that follow a header are stripped and concatenated; blank lines among
      them are skipped. */
  lemma ReadFastaGlue(id: string, s: string, body: seq<string>, rest: seq<string>)
    requires forall i :: 0 <= i < |body| ==> !IsHeaderLine(body[i])
    ensures Feed(Open(id, s), Views(body + rest)) == Feed(Open(id, s + GlueLines(body)), Views(rest))
  {
    ViewsAppend(body, rest);
    GlueViews(body);
    FeedGlues(id, s, Views(body), Views(rest));
  }

  // -- writing and reading back

  /** A string that serves as an id token after a marker character: no white space, and the
      marker at neither end. */
  predicate MarkedToken(id: string, mark: char) {
    IsToken(id) && id[0] != mark && id[|id| - 1] != mark
  }

  /** A sequence written on one line: already stripped, without newlines, and not taken for a
      header. */
  predicate SequenceLine(s: string, mark: char) {
    '\n' !in s && Strip(s) == s && (|s| > 0 ==> s[0] != mark)
  }

  predicate Writable(r: FastaRec) {
    MarkedToken(r.id, '>') && SequenceLine(r.bases, '>')
  }

  /** `>id` and the sequence on the next line, for each record. */
  function WriteFasta(recs: seq<FastaRec>): (lines: seq<string>)
    ensures |lines| == 2 * |recs|
  {
    if |recs| == 0 then [] else [">" + recs[0].id, recs[0].bases] + WriteFasta(recs[1..])
  }

  lemma WriteFastaCons(recs: seq<FastaRec>)
    requires |recs| > 0
    ensures WriteFasta(recs)[0] == ">" + recs[0].id && WriteFasta(recs)[1] == recs[0].bases
    ensures WriteFasta(recs)[2..] == WriteFasta(recs[1..])
  {
    var head := [">" + recs[0].id, recs[0].bases];
    assert WriteFasta(recs) == head + WriteFasta(recs[1..]);
    assert (head + WriteFasta(recs[1..]))[2..] == WriteFasta(recs[1..]);
  }

  /** The view of a written sequence line: blank when the sequence is empty, otherwise its text
      and not a header. */
  predicate Carries(v: LineView, bases: string) {
    if bases == "" then v == Blank else v.NonBlank? && !v.header && v.text == bases
  }

  /** The views of written records, two per record; with `tokens` the header's first token is the
      id as well as its whole text. */
  predicate Written(vs: seq<LineView>, recs: seq<FastaRec>, tokens: bool)
    decreases |recs|
  {
    |vs| == 2 * |recs| &&
    (|recs| > 0 ==>
      IsHeaderView(vs[0]) && vs[0].wholeId == recs[0].id && (tokens ==> vs[0].firstId == Ok(recs[0].id)) &&
      Carries(vs[1], recs[0].bases) && Written(vs[2..], recs[1..], tokens))
  }

  lemma HeaderViewOfToken(id: string)
    requires MarkedToken(id, '>')
    ensures IsHeaderView(View(">" + id)) && View(">" + id).wholeId == id && View(">" + id).firstId == Ok(id)
  {
    TokenIsHeaderText(id);
    HeaderViewOfText(id);
    HeaderTextMarked(id);
    TokenFirst(id);
  }

  lemma TokenIsHeaderText(id: string)
    requires MarkedToken(id, '>')
    ensures HeaderText(id)
  {
    assert !IsSpace(id[|id| - 1]);
    assert forall i :: 0 <= i < |id| ==> id[i] != '\n' by {
      forall i | 0 <= i < |id| ensures id[i] != '\n' {
        assert !IsSpace(id[i]);
      }
    }
  }

  lemma TokenFirst(id: string)
    requires IsToken(id)
    ensures FirstToken(id) == Some(id)
  {
    FirstTokenOfPrefix(id, id);
  }

  lemma SequenceLineView(s: string)
    requires SequenceLine(s, '>')
    ensures Carries(View(s), s)
  {
    if s != "" {
      ViewOfStripped(s);
    }
  }

  /** The views of two lines and the rest. */
  lemma ViewsCons(lines: seq<string>)
    requires |lines| >= 2
    ensures Views(lines)[0] == View(lines[0]) && Views(lines)[1] == View(lines[1])
    ensures Views(lines)[2..] == Views(lines[2..])
  {
  }

  /** `Written` from its parts. */
  lemma WrittenCons(vs: seq<LineView>, recs: seq<FastaRec>, tokens: bool)
    requires |recs| > 0 && |vs| == 2 * |recs|
    requires IsHeaderView(vs[0]) && vs[0].wholeId == recs[0].id && (tokens ==> vs[0].firstId == Ok(recs[0].id))
    requires Carries(vs[1], recs[0].bases) && Written(vs[2..], recs[1..], tokens)
    ensures Written(vs, recs, tokens)
  {
  }

  /** The views of the first record's two lines, then the views of the rest. */
  lemma ViewsOfWritten(recs: seq<FastaRec>)
    requires |recs| > 0
    ensures Views(WriteFasta(recs))[0] == View(">" + recs[0].id)
    ensures Views(WriteFasta(recs))[1] == View(recs[0].bases)
    ensures Views(WriteFasta(recs))[2..] == Views(WriteFasta(recs[1..]))
  {
    WriteFastaCons(recs);
    ViewsCons(WriteFasta(recs));
  }

  lemma {:induction false} WrittenViews(recs: seq<FastaRec>)
    requires forall i :: 0 <= i < |recs| ==> Writable(recs[i])
    ensures Written(Views(WriteFasta(recs)), recs, true)
    decreases |recs|
  {
    if |recs| > 0 {
      WrittenViews(recs[1..]);
      WrittenViewsStep(recs);
    }
  }

  lemma WrittenViewsStep(recs: seq<FastaRec>)
    requires |recs| > 0 && Writable(recs[0])
    requires Written(Views(WriteFasta(recs[1..])), recs[1..], true)
    ensures Written(Views(WriteFasta(recs)), recs, true)
  {
    ViewsOfWritten(recs);
    HeaderViewOfToken(recs[0].id);
    SequenceLineView(recs[0].bases);
    WrittenCons(Views(WriteFasta(recs)), recs, true);
  }

  /** The two views of one written record, read from any buffer: the buffer's record is yielded
      and the new record is buffered. */
  lemma FeedRecord(b: Buffer, r: FastaRec, vs: seq<LineView>)
    requires |vs| >= 2 && IsHeaderView(vs[0]) && vs[0].firstId == Ok(r.id) && Carries(vs[1], r.bases)
    ensures Feed(b, vs) == Prepend(Flush(b), Feed(Open(r.id, r.bases), vs[2..]))
  {
    FeedOk(b, vs, Open(r.id, ""), Flush(b));
    assert vs[1..][0] == vs[1] && vs[1..][1..] == vs[2..];
    assert "" + r.bases == r.bases;
    FeedOk(Open(r.id, ""), vs[1..], Open(r.id, r.bases), []);
    var none: seq<FastaRec> := [];
    match Feed(Open(r.id, r.bases), vs[2..])
    case Ok(v) => assert none + v == v;
    case Err(_) =>
  }

  lemma {:induction false} FeedWritten(b: Buffer, vs: seq<LineView>, recs: seq<FastaRec>)
    requires Written(vs, recs, true)
    ensures Feed(b, vs) == Ok(Flush(b) + recs)
    decreases |recs|
  {
    if |recs| == 0 {
      assert Flush(b) + recs == Flush(b);
    } else {
      var r := recs[0];
      FeedWritten(Open(r.id, r.bases), vs[2..], recs[1..]);
      FeedRecord(b, r, vs);
      assert recs == [FastaRec(r.id, r.bases)] + recs[1..];
    }
  }

  /** Reading back what `WriteFasta` wrote gives the same records, empty sequences included. */
  lemma ReadFastaRoundTrip(recs: seq<FastaRec>)
    requires forall i :: 0 <= i < |recs| ==> Writable(recs[i])
    ensures ReadFasta(WriteFasta(recs)) == Ok(recs)
  {
    WrittenViews(recs);
    FeedWrittenFromEmpty(Views(WriteFasta(recs)), recs);
  }

  lemma FeedWrittenFromEmpty(vs: seq<LineView>, recs: seq<FastaRec>)
    requires Written(vs, recs, true)
    ensures Feed(Empty, vs) == Ok(recs)
  {
    FeedWritten(Empty, vs, recs);
    assert Flush(Empty) + recs == recs;
  }

  // ---------------------------------------------------------------------------------------------
  // lib/rm_repeat_barcode.py: read_fasta (whole header as the id)

  /** The list buffer `seq` of the loop, holding zero, one or two strings. A sequence line that
      arrives before any header lands in the id slot, as in the source. */
  datatype Pending = Nothing | IdOnly(id: string) | Filled(id: string, bases: string)

  function FlushFull(b: Pending): seq<FastaRec> {
    if b.Filled? then [FastaRec(b.id, b.bases)] else []
  }

  function StepFull(b: Pending, v: LineView): (Pending, seq<FastaRec>) {
    match v
    case Blank => (b, [])
    case NonBlank(text, header, _, whole) =>
      if header then (IdOnly(whole), FlushFull(b))
      else match b
        case Nothing => (IdOnly(text), [])
        case IdOnly(id) => (Filled(id, text), [])
        case Filled(id, s) => (Filled(id, s + text), [])
  }

  function FeedFull(b: Pending, vs: seq<LineView>): seq<FastaRec>
    decreases |vs|
  {
    if |vs| == 0 then FlushFull(b)
    else
      var st := StepFull(b, vs[0]);
      st.1 + FeedFull(st.0, vs[1..])
  }

  function ReadFastaFull(lines: seq<string>): seq<FastaRec> {
    FeedFull(Nothing, Views(lines))
  }

  /** A header text written after `>`: no newline, no `>` at either end, no trailing white space. */
  predicate HeaderText(id: string) {
    '\n' !in id && (|id| > 0 ==> id[0] != '>' && id[|id| - 1] != '>' && !IsSpace(id[|id| - 1]))
  }

  predicate WritableFull(r: FastaRec) {
    HeaderText(r.id) && SequenceLine(r.bases, '>')
  }

  predicate HasBases(r: FastaRec) {
    r.bases != ""
  }

  /** The buffer after reading a record's header and sequence line. */
  function PendingOf(r: FastaRec): Pending {
    if r.bases == "" then IdOnly(r.id) else Filled(r.id, r.bases)
  }

  lemma HeaderViewOfText(id: string)
    requires HeaderText(id)
    ensures IsHeaderView(View(">" + id)) && View(">" + id).wholeId == id
  {
    HeaderTextStripped(id);
    HeaderTextMarked(id);
    ViewOfStripped(">" + id);
  }

  lemma HeaderTextStripped(id: string)
    requires HeaderText(id)
    ensures Strip(">" + id) == ">" + id
  {
    StripStable(">" + id, IsSpace);
  }

  lemma HeaderTextMarked(id: string)
    requires HeaderText(id)
    ensures StripChar(">" + id, '>') == id
  {
    if |id| > 0 {
      StripCharAfterMark('>', id);
    }
  }

  /** The view of a line that stripping leaves alone. */
  lemma ViewOfStripped(line: string)
    requires Strip(line) == line && line != ""
    ensures View(line) == NonBlank(line, StartsWith(line, ">"), MarkedId(line, '>'), StripChar(line, '>'))
  {
  }

  lemma {:induction false} WrittenViewsFull(recs: seq<FastaRec>)
    requires forall i :: 0 <= i < |recs| ==> WritableFull(recs[i])
    ensures Written(Views(WriteFasta(recs)), recs, false)
    decreases |recs|
  {
    if |recs| > 0 {
      WrittenViewsFull(recs[1..]);
      WrittenViewsFullStep(recs);
    }
  }

  lemma WrittenViewsFullStep(recs: seq<FastaRec>)
    requires |recs| > 0 && WritableFull(recs[0])
    requires Written(Views(WriteFasta(recs[1..])), recs[1..], false)
    ensures Written(Views(WriteFasta(recs)), recs, false)
  {
    ViewsOfWritten(recs);
    HeaderViewOfText(recs[0].id);
    SequenceLineView(recs[0].bases);
    WrittenCons(Views(WriteFasta(recs)), recs, false);
  }

  lemma FullStep(b: Pending, vs: seq<LineView>)
    requires |vs| > 0
    ensures FeedFull(b, vs) == StepFull(b, vs[0]).1 + FeedFull(StepFull(b, vs[0]).0, vs[1..])
  {
  }

  lemma FullRecord(b: Pending, r: FastaRec, vs: seq<LineView>)
    requires |vs| >= 2 && IsHeaderView(vs[0]) && vs[0].wholeId == r.id && Carries(vs[1], r.bases)
    ensures FeedFull(b, vs) == FlushFull(b) + FeedFull(PendingOf(r), vs[2..])
  {
    assert StepFull(b, vs[0]) == (IdOnly(r.id), FlushFull(b));
    FullStep(b, vs);
    assert vs[1..][0] == vs[1] && vs[1..][1..] == vs[2..];
    assert StepFull(IdOnly(r.id), vs[1]) == (PendingOf(r), []);
    FullStep(IdOnly(r.id), vs[1..]);
    assert FeedFull(IdOnly(r.id), vs[1..]) == [] + FeedFull(PendingOf(r), vs[2..]);
  }

  lemma {:induction false} FeedFullWritten(b: Pending, vs: seq<LineView>, recs: seq<FastaRec>)
    requires Written(vs, recs, false)
    ensures FeedFull(b, vs) == FlushFull(b) + Seqs.Filter(recs, HasBases)
    decreases |recs|
  {
    if |recs| == 0 {
      assert FlushFull(b) + [] == FlushFull(b);
    } else {
      var r := recs[0];
      FeedFullWritten(PendingOf(r), vs[2..], recs[1..]);
      FullRecord(b, r, vs);
      assert recs == [r] + recs[1..];
      Seqs.FilterAppend([r], recs[1..], HasBases);
      assert FlushFull(PendingOf(r)) == Seqs.Filter([r], HasBases);
    }
  }

  /** Reading back written records gives exactly those that have a sequence, in order: a header
      followed directly by another header is dropped. */
  lemma ReadFastaFullRoundTrip(recs: seq<FastaRec>)
    requires forall i :: 0 <= i < |recs| ==> WritableFull(recs[i])
    ensures ReadFastaFull(WriteFasta(recs)) == Seqs.Filter(recs, HasBases)
  {
    WrittenViewsFull(recs);
    FeedFullWrittenFromNothing(Views(WriteFasta(recs)), recs);
  }

  lemma FeedFullWrittenFromNothing(vs: seq<LineView>, recs: seq<FastaRec>)
    requires Written(vs, recs, false)
    ensures FeedFull(Nothing, vs) == Seqs.Filter(recs, HasBases)
  {
    FeedFullWritten(Nothing, vs, recs);
    assert FlushFull(Nothing) + Seqs.Filter(recs, HasBases) == Seqs.Filter(recs, HasBases);
  }

  lemma {:induction false} FeedFullGlues(id: string, s: string, body: seq<LineView>, rest: seq<LineView>)
    requires forall i :: 0 <= i < |body| ==> !IsHeaderView(body[i])
    ensures FeedFull(Filled(id, s), body + rest) == FeedFull(Filled(id, s + Glue(body)), rest)
    decreases |body|
  {
    if |body| == 0 {
      assert body + rest == rest;
      assert s + Glue(body) == s;
    } else {
      var vs := body + rest;
      assert vs[0] == body[0] && vs[1..] == body[1..] + rest;
      var s' := s + (if body[0].Blank? then "" else body[0].text);
      assert s' + Glue(body[1..]) == s + Glue(body);
      FeedFullGlues(id, s', body[1..], rest);
      assert !IsHeaderView(body[0]);
      if body[0].Blank? {
        assert s' == s;
      }
      assert StepFull(Filled(id, s), vs[0]) == (Filled(id, s'), []);
      assert FeedFull(Filled(id, s), vs) == [] + FeedFull(Filled(id, s'), vs[1..]);
    }
  }

  /** Consecutive sequence lines are stripped and concatenated into one sequence. */
  lemma ReadFastaFullGlue(id: string, s: string, body: seq<string>, rest: seq<string>)
    requires forall i :: 0 <= i < |body| ==> !IsHeaderLine(body[i])
    ensures FeedFull(Filled(id, s), Views(body + rest)) == FeedFull(Filled(id, s + GlueLines(body)), Views(rest))
  {
    ViewsAppend(body, rest);
    GlueViews(body);
    FeedFullGlues(id, s, Views(body), Views(rest));
  }
}

=== FILE: fastq.dfy ===
/** `read_fastq` of lib/ccs2sub.py (the same code is in lib/filter_pbbarcode_old.py): a fold over
    the file's stripped lines with a list buffer. An `@` line starts a record only when the buffer
    is empty or holds exactly four lines; with one to three lines buffered it is data, so a quality
    line that happens to start with `@` is kept. */
module Fastq {
  import opened Results
  import opened PyStr
  import opened Records

  // ---------------------------------------------------------------------------------------------
  // a line as the loop sees it

  /** A line after `line.strip()`: blank, or its text, whether it starts with `@`, and the id it
      would give as a header line (`MarkedId`). */
  datatype LineView = Blank | NonBlank(text: string, at: bool, atId: Result<string>)

  function View(raw: string): (v: LineView)
    ensures v.Blank? <==> IsBlank(raw)
    ensures v.NonBlank? ==> v.text == Strip(raw) && v.atId == MarkedId(v.text, '@')
    ensures v.NonBlank? ==> v.at == IsAtLine(raw)
  {
    var line := Strip(raw);
    if line == "" then Blank else NonBlank(line, StartsWith(line, "@"), MarkedId(line, '@'))
  }

  /** A line whose stripped form starts with `@`. */
  predicate IsAtLine(line: string) {
    StartsWith(Strip(line), "@")
  }

  function Views(lines: seq<string>): (vs: seq<LineView>)
    ensures |vs| == |lines|
    ensures forall i :: 0 <= i < |lines| ==> vs[i] == View(lines[i])
  {
    seq(|lines|, i requires 0 <= i < |lines| => View(lines[i]))
  }

  // ---------------------------------------------------------------------------------------------
  // the loop

  /** The four buffered lines as a record. */
  function Record(buf: seq<string>): FastqRec
    requires |buf| == 4
  {
    FastqRec(buf[0], buf[1], buf[2], buf[3])
  }

  /** One turn of the loop over the list buffer `seq`: the new buffer and the records yielded. */
  function Step(buf: seq<string>, v: LineView): Result<(seq<string>, seq<FastqRec>)> {
    match v
    case Blank => Ok((buf, []))
    case NonBlank(text, at, atId) =>
      if at && (|buf| == 0 || |buf| >= 5) then
        var id :- atId;
        Ok((buf + [id], []))
      else if at && |buf| == 4 then
        var id :- atId;
        Ok(([id], [Record(buf)]))
      else
        Ok((buf + [text], []))
  }

  /** After the loop: the buffer is yielded only when it holds exactly four lines. */
  function Flush(buf: seq<string>): seq<FastqRec> {
    if |buf| == 4 then [Record(buf)] else []
  }

  function Feed(buf: seq<string>, vs: seq<LineView>): Result<seq<FastqRec>>
    decreases |vs|
  {
    if |vs| == 0 then Ok(Flush(buf))
    else
      var st :- Step(buf, vs[0]);
      var rest :- Feed(st.0, vs[1..]);
      Ok(st.1 + rest)
  }

  /** `list(read_fastq(file))` over the file's lines. */
  function ReadFastq(lines: seq<string>): Result<seq<FastqRec>> {
    Feed([], Views(lines))
  }

  /** The view of a line whose header id fails with IndexError, if it fails at all. */
  predicate IndexOnly(v: LineView) {
    v.NonBlank? && v.atId.Err? ==> v.atId.error == IndexError
  }

  /** The loop fails only on a header line that holds nothing but `@` and white space:
      the IndexError of `split()[0]`. */
  lemma {:induction false} FeedFailsIndex(buf: seq<string>, vs: seq<LineView>)
    requires forall i :: 0 <= i < |vs| ==> IndexOnly(vs[i])
    ensures Feed(buf, vs).Err? ==> Feed(buf, vs).error == IndexError
    decreases |vs|
  {
    if |vs| > 0 {
      match Step(buf, vs[0])
      case Err(_) =>
      case Ok(st) =>
        FeedFailsIndex(st.0, vs[1..]);
    }
  }

  /** How many lines the buffer holds after one more line (its view), starting from `n`: a blank line changes
      nothing, an `@` line met with exactly four lines buffered starts a fresh record, and any
      other non-blank line is appended. */
  function NextCount(n: nat, v: LineView): nat {
    if v.Blank? then n else if v.at && n == 4 then 1 else n + 1
  }

  /** How many lines are buffered before line `i` of the views `vs`, starting from `n`. */
  function Buffered(n: nat, vs: seq<LineView>, i: nat): nat
    requires i <= |vs|
    decreases i
  {
    if i == 0 then n else NextCount(Buffered(n, vs, i - 1), vs[i - 1])
  }

  /** The buffer sizes at which an `@` line is a header: empty, four lines, or more. */
  predicate HeaderSlot(n: nat) {
    n == 0 || n >= 4
  }

  /** Line `i` is an `@` line read as a header (the buffer empty or holding four lines or more)
      whose text is nothing but `@` and white space. */
  predicate NoIdAt(lines: seq<string>, i: int) {
    0 <= i < |lines| && !IsBlank(lines[i]) && IsAtLine(lines[i]) && HeaderSlot(Buffered(0, Views(lines), i))
    && MarkedId(Strip(lines[i]), '@').Err?
  }

  /** `read_fastq` fails only with IndexError, and exactly when some `@` line read as a header has
      no id. */
  lemma ReadFastqFails(lines: seq<string>)
    ensures ReadFastq(lines).Err? ==> ReadFastq(lines).error == IndexError
    ensures ReadFastq(lines).Err? <==> exists i :: NoIdAt(lines, i)
  {
    var vs := Views(lines);
    forall i | 0 <= i < |vs|
      ensures IndexOnly(vs[i])
    {
    }
    FeedFailsIndex([], vs);
    FeedFailsAt([], vs);
    if ReadFastq(lines).Err? {
      var i :| BadAt(0, vs, i);
      BadAtLine(lines, i);
    }
    if exists i :: NoIdAt(lines, i) {
      var i :| NoIdAt(lines, i);
      BadAtLine(lines, i);
    }
  }

  /** View `i`, read with `n` lines buffered before the first view, is a header with no id. */
  predicate BadAt(n: nat, vs: seq<LineView>, i: int) {
    0 <= i < |vs| && vs[i].NonBlank? && vs[i].at && HeaderSlot(Buffered(n, vs, i)) && vs[i].atId.Err?
  }

  /** The view-level and line-level descriptions of a missing id agree. */
  lemma BadAtLine(lines: seq<string>, i: int)
    requires 0 <= i < |lines|
    ensures BadAt(0, Views(lines), i) <==> NoIdAt(lines, i)
  {
    assert Views(lines)[i] == View(lines[i]);
  }

  /** Counting from the second view on, after the first has been counted. */
  lemma {:induction false} BufferedShift(n: nat, vs: seq<LineView>, i: nat)
    requires 1 <= i <= |vs|
    ensures Buffered(n, vs, i) == Buffered(NextCount(n, vs[0]), vs[1..], i - 1)
    decreases i
  {
    if i > 1 {
      BufferedShift(n, vs, i - 1);
      assert vs[i - 1] == vs[1..][i - 2];
    }
  }

  /** The loop, started on buffer `buf`, fails exactly when it meets an `@` header with no id. */
  lemma {:induction false} FeedFailsAt(buf: seq<string>, vs: seq<LineView>)
    ensures Feed(buf, vs).Err? <==> exists i :: BadAt(|buf|, vs, i)
    decreases |vs|
  {
    if |vs| > 0 {
      var tl := vs[1..];
      match Step(buf, vs[0])
      case Err(_) =>
        assert BadAt(|buf|, vs, 0);
      case Ok(st) =>
        FeedFailsAt(st.0, tl);
        var n' := NextCount(|buf|, vs[0]);
        assert |st.0| == n';
        assert !BadAt(|buf|, vs, 0);
        forall i | 0 <= i < |tl|
          ensures BadAt(|buf|, vs, i + 1) <==> BadAt(n', tl, i)
        {
          BufferedShift(|buf|, vs, i + 1);
          assert vs[i + 1] == tl[i];
        }
        if exists i :: BadAt(|buf|, vs, i) {
          var i :| BadAt(|buf|, vs, i);
          assert BadAt(n', tl, i - 1);
        }
        if exists i :: BadAt(n', tl, i) {
          var i :| BadAt(n', tl, i);
          assert BadAt(|buf|, vs, i + 1);
        }
    }
  }

  function Prepend(out: seq<FastqRec>, res: Result<seq<FastqRec>>): Result<seq<FastqRec>> {
    match res
    case Ok(rest) => Ok(out + rest)
    case Err(e) => Err(e)
  }

  lemma FeedOk(buf: seq<string>, vs: seq<LineView>, buf': seq<string>, out: seq<FastqRec>)
    requires |vs| > 0 && Step(buf, vs[0]) == Ok((buf', out))
    ensures Feed(buf, vs) == Prepend(out, Feed(buf', vs[1..]))
  {
  }

  // -- the buffer rules

  /** With one to three lines buffered, the next non-blank line is appended as data, whether or
      not it starts with `@`. */
  lemma FeedData(buf: seq<string>, vs: seq<LineView>)
    requires 1 <= |buf| <= 3 && |vs| > 0 && vs[0].NonBlank?
    ensures Feed(buf, vs) == Feed(buf + [vs[0].text], vs[1..])
  {
    FeedOk(buf, vs, buf + [vs[0].text], []);
    var none: seq<FastqRec> := [];
    match Feed(buf + [vs[0].text], vs[1..])
    case Ok(v) => assert none + v == v;
    case Err(_) =>
  }

  /** With an empty buffer or exactly four lines buffered, an `@` line yields the buffered record
      (if any) and starts a new buffer holding its id. */
  lemma FeedHeader(buf: seq<string>, vs: seq<LineView>, id: string)
    requires |buf| == 0 || |buf| == 4
    requires |vs| > 0 && vs[0].NonBlank? && vs[0].at && vs[0].atId == Ok(id)
    ensures Feed(buf, vs) == Prepend(Flush(buf), Feed([id], vs[1..]))
  {
    if |buf| == 0 {
      assert [] + [id] == [id];
    }
    FeedOk(buf, vs, [id], Flush(buf));
  }

  /** Once the buffer holds more than four lines it only grows, so nothing more is yielded. */
  lemma {:induction false} FeedOverfull(buf: seq<string>, vs: seq<LineView>)
    requires |buf| >= 5
    ensures Feed(buf, vs).Ok? ==> Feed(buf, vs).value == []
    decreases |vs|
  {
    if |vs| > 0 && Feed(buf, vs).Ok? {
      var st := Step(buf, vs[0]).value;
      assert |st.0| >= 5 && st.1 == [];
      FeedOverfull(st.0, vs[1..]);
      FeedOk(buf, vs, st.0, st.1);
    }
  }

  // -- how many records

  /** The number of non-blank lines. */
  function Filled(vs: seq<LineView>): nat {
    if |vs| == 0 then 0 else (if vs[0].Blank? then 0 else 1) + Filled(vs[1..])
  }

  lemma {:induction false} FeedBound(buf: seq<string>, vs: seq<LineView>)
    ensures Feed(buf, vs).Ok? ==> 4 * |Feed(buf, vs).value| <= |buf| + Filled(vs)
    decreases |vs|
  {
    if |vs| > 0 && Feed(buf, vs).Ok? {
      var st := Step(buf, vs[0]).value;
      FeedBound(st.0, vs[1..]);
      FeedOk(buf, vs, st.0, st.1);
    }
  }

  /** Every record is four buffered lines: a file yields at most one record per four non-blank
      lines. */
  lemma ReadFastqBound(lines: seq<string>)
    ensures ReadFastq(lines).Ok? ==> 4 * |ReadFastq(lines).value| <= Filled(Views(lines))
  {
    FeedBound([], Views(lines));
  }

  // -- writing and reading back

  /** A line that stays one non-blank line after `strip()`. */
  predicate DataLine(s: string) {
    s != "" && '\n' !in s && Strip(s) == s
  }

  /** The id is a token with `@` at neither end; sequence, separator and quality are one line each,
      and any of them may start with `@`. */
  predicate Writable(r: FastqRec) {
    IsToken(r.id) && r.id[0] != '@' && r.id[|r.id| - 1] != '@'
    && DataLine(r.bases) && DataLine(r.sep) && DataLine(r.qual)
  }

  /** `@id`, sequence, separator and quality, four lines per record. */
  function WriteFastq(recs: seq<FastqRec>): (lines: seq<string>)
    ensures |lines| == 4 * |recs|
  {
    if |recs| == 0 then []
    else ["@" + recs[0].id, recs[0].bases, recs[0].sep, recs[0].qual] + WriteFastq(recs[1..])
  }

  /** The views of written records, four per record. */
  predicate Written(vs: seq<LineView>, recs: seq<FastqRec>)
    decreases |recs|
  {
    |vs| == 4 * |recs| &&
    (|recs| > 0 ==>
      vs[0].NonBlank? && vs[0].at && vs[0].atId == Ok(recs[0].id) &&
      vs[1].NonBlank? && vs[1].text == recs[0].bases &&
      vs[2].NonBlank? && vs[2].text == recs[0].sep &&
      vs[3].NonBlank? && vs[3].text == recs[0].qual &&
      Written(vs[4..], recs[1..]))
  }

  lemma HeaderView(id: string)
    requires IsToken(id) && id[0] != '@' && id[|id| - 1] != '@'
    ensures View("@" + id).NonBlank? && View("@" + id).at && View("@" + id).atId == Ok(id)
  {
    assert !IsSpace(id[|id| - 1]);
    StripStable("@" + id, IsSpace);
    StripCharAfterMark('@', id);
    FirstTokenOfPrefix(id, id);
  }

  lemma DataView(s: string)
    requires DataLine(s)
    ensures View(s).NonBlank? && View(s).text == s
  {
  }

  lemma WriteFastqCons(recs: seq<FastqRec>)
    requires |recs| > 0
    ensures WriteFastq(recs)[0] == "@" + recs[0].id && WriteFastq(recs)[1] == recs[0].bases
    ensures WriteFastq(recs)[2] == recs[0].sep && WriteFastq(recs)[3] == recs[0].qual
    ensures WriteFastq(recs)[4..] == WriteFastq(recs[1..])
  {
    var head := ["@" + recs[0].id, recs[0].bases, recs[0].sep, recs[0].qual];
    assert WriteFastq(recs) == head + WriteFastq(recs[1..]);
    assert (head + WriteFastq(recs[1..]))[4..] == WriteFastq(recs[1..]);
  }

  lemma ViewsOfWritten(recs: seq<FastqRec>)
    requires |recs| > 0
    ensures Views(WriteFastq(recs))[0] == View("@" + recs[0].id)
    ensures Views(WriteFastq(recs))[1] == View(recs[0].bases)
    ensures Views(WriteFastq(recs))[2] == View(recs[0].sep)
    ensures Views(WriteFastq(recs))[3] == View(recs[0].qual)
    ensures Views(WriteFastq(recs))[4..] == Views(WriteFastq(recs[1..]))
  {
    WriteFastqCons(recs);
    ViewsCons(WriteFastq(recs));
  }

  /** The views of four lines and the rest. */
  lemma ViewsCons(lines: seq<string>)
    requires |lines| >= 4
    ensures Views(lines)[0] == View(lines[0]) && Views(lines)[1] == View(lines[1])
    ensures Views(lines)[2] == View(lines[2]) && Views(lines)[3] == View(lines[3])
    ensures Views(lines)[4..] == Views(lines[4..])
  {
  }

  lemma {:induction false} WrittenViews(recs: seq<FastqRec>)
    requires forall i :: 0 <= i < |recs| ==> Writable(recs[i])
    ensures Written(Views(WriteFastq(recs)), recs)
    decreases |recs|
  {
    if |recs| > 0 {
      WrittenViews(recs[1..]);
      WrittenViewsStep(recs);
    }
  }

  lemma WrittenViewsStep(recs: seq<FastqRec>)
    requires |recs| > 0 && Writable(recs[0])
    requires Written(Views(WriteFastq(recs[1..])), recs[1..])
    ensures Written(Views(WriteFastq(recs)), recs)
  {
    ViewsOfWritten(recs);
    HeaderView(recs[0].id);
    DataView(recs[0].bases);
    DataView(recs[0].sep);
    DataView(recs[0].qual);
  }

  /** The four views of one written record, read with an empty or a full buffer. */
  lemma FeedRecord(buf: seq<string>, vs: seq<LineView>, r: FastqRec)
    requires |buf| == 0 || |buf| == 4
    requires |vs| >= 4 && vs[0].NonBlank? && vs[0].at && vs[0].atId == Ok(r.id)
    requires vs[1].NonBlank? && vs[1].text == r.bases && vs[2].NonBlank? && vs[2].text == r.sep
    requires vs[3].NonBlank? && vs[3].text == r.qual
    ensures Feed(buf, vs) == Prepend(Flush(buf), Feed([r.id, r.bases, r.sep, r.qual], vs[4..]))
  {
    FeedHeader(buf, vs, r.id);
    FeedData([r.id], vs[1..]);
    FeedData([r.id, r.bases], vs[2..]);
    FeedData([r.id, r.bases, r.sep], vs[3..]);
    assert vs[1..][1..] == vs[2..] && vs[2..][1..] == vs[3..] && vs[3..][1..] == vs[4..];
    assert [r.id] + [r.bases] == [r.id, r.bases];
    assert [r.id, r.bases] + [r.sep] == [r.id, r.bases, r.sep];
    assert [r.id, r.bases, r.sep] + [r.qual] == [r.id, r.bases, r.sep, r.qual];
  }

  lemma {:induction false} FeedWritten(buf: seq<string>, vs: seq<LineView>, recs: seq<FastqRec>)
    requires |buf| == 0 || |buf| == 4
    requires Written(vs, recs)
    ensures Feed(buf, vs) == Ok(Flush(buf) + recs)
    decreases |recs|
  {
    if |recs| == 0 {
      assert Flush(buf) + recs == Flush(buf);
    } else {
      var r := recs[0];
      var full := [r.id, r.bases, r.sep, r.qual];
      FeedWritten(full, vs[4..], recs[1..]);
      FeedRecord(buf, vs, r);
      assert Flush(full) == [r];
      assert recs == [r] + recs[1..];
    }
  }

  /** Reading back what `WriteFastq` wrote gives the same records, also when a sequence, separator
      or quality line starts with `@`. */
  lemma ReadFastqRoundTrip(recs: seq<FastqRec>)
    requires forall i :: 0 <= i < |recs| ==> Writable(recs[i])
    ensures ReadFastq(WriteFastq(recs)) == Ok(recs)
  {
    WrittenViews(recs);
    FeedWrittenFromEmpty(Views(WriteFastq(recs)), recs);
  }

  lemma FeedWrittenFromEmpty(vs: seq<LineView>, recs: seq<FastqRec>)
    requires Written(vs, recs)
    ensures Feed([], vs) == Ok(recs)
  {
    FeedWritten([], vs, recs);
    assert Flush([]) + recs == recs;
  }
}

=== FILE: filter_bam2fq.dfy ===
/** lib/filter_bam2fq.py: the consensus reads of one BAM/SAM file that pass a quality and a length
    filter, printed as FASTQ with the `rq` value kept in the header line. */
module FilterBam2fq {
  import opened Results
  import opened PyStr
  import opened Records
  import opened OrderedMaps
  import Seqs
  import Fastq

  /** The thresholds `filter_bam2fq` takes. */
  datatype Limits = Limits(qvalue: real, minlen: int, maxlen: int)

  /** The defaults of both the function and the command line: `rq` at least 0.9, 500 to 10000
      bases. */
  const Defaults: Limits := Limits(0.9, 500, 10000)

  /** A record is printed unless its `rq` is below `qvalue` or its length lies outside
      `[minlen, maxlen]`. */
  predicate Keeps(lim: Limits, a: Alignment) {
    !(a.rq < lim.qvalue) && !(|a.bases| < lim.minlen || |a.bases| > lim.maxlen)
  }

  function Keeping(lim: Limits): Alignment -> bool {
    a => Keeps(lim, a)
  }

  /** The header line of a printed record: `@<qname> rq=<rq>`, with `show` rendering the float
      as `%s` does. */
  function Header(a: Alignment, show: real -> string): string {
    "@" + a.qname + " rq=" + show(a.rq)
  }

  /** The four lines one `print` call puts out. */
  function Block(a: Alignment, show: real -> string): seq<string> {
    [Header(a, show), a.bases, "+", a.qual]
  }

  /** The blocks of several records, in order. */
  function Blocks(als: seq<Alignment>, show: real -> string): (lines: seq<string>)
    ensures |lines| == 4 * |als|
  {
    if |als| == 0 then [] else Block(als[0], show) + Blocks(als[1..], show)
  }

  /** `filter_bam2fq(file, qvalue, minlen, maxlen)`: the lines printed. A name that ends in
      neither `.bam` nor `.sam` raises the format error at the first step of the reading
      generator, before anything is printed. */
  function FilterBam2Fq(file: SourceFile, lim: Limits, show: real -> string): (r: Result<seq<string>>)
    ensures r.Err? <==> !IsAlignmentPath(file.path)
    ensures r.Err? ==> r.error == UnsupportedFormat(file.path)
    ensures r.Ok? ==> |r.value| % 4 == 0 && |r.value| <= 4 * |file.alignments|
  {
    if !IsAlignmentPath(file.path) then Err(UnsupportedFormat(file.path))
    else Ok(Blocks(Seqs.Filter(file.alignments, Keeping(lim)), show))
  }

  /** A record is printed exactly when it passes both filters. */
  lemma PrintedExactly(als: seq<Alignment>, lim: Limits, a: Alignment)
    ensures a in Seqs.Filter(als, Keeping(lim)) <==> a in als && Keeps(lim, a)
  {
    Seqs.FilterMembers(als, Keeping(lim), a);
  }

  /** The defaults are inclusive at both ends: `rq` 0.9 and 500 or 10000 bases pass, while
      `rq` 0.89, 499 bases or 10001 bases do not. */
  lemma DefaultBounds(name: string, qual: string, b: string)
    requires |b| == 1
    ensures Keeps(Defaults, Alignment(name, Repeat(b, 500), qual, 0.9))
    ensures Keeps(Defaults, Alignment(name, Repeat(b, 10000), qual, 1.0))
    ensures !Keeps(Defaults, Alignment(name, Repeat(b, 500), qual, 0.89))
    ensures !Keeps(Defaults, Alignment(name, Repeat(b, 499), qual, 1.0))
    ensures !Keeps(Defaults, Alignment(name, Repeat(b, 10001), qual, 1.0))
  {
  }

  /** `n` copies of a one-character string. */
  function Repeat(b: string, n: nat): (r: string)
    requires |b| == 1
    ensures |r| == n
  {
    if n == 0 then [] else b + Repeat(b, n - 1)
  }

  /** The output cut into its four-line blocks. */
  function Chunks(lines: seq<string>): (cs: seq<seq<string>>)
    requires |lines| % 4 == 0
    ensures |cs| == |lines| / 4
    decreases |lines|
  {
    if |lines| == 0 then [] else [lines[..4]] + Chunks(lines[4..])
  }

  /** Cut into four-line blocks, the printed lines are the blocks of the records, one per record
      and in record order. */
  lemma {:induction false} BlocksChunks(als: seq<Alignment>, show: real -> string)
    ensures forall k :: 0 <= k < |als| ==> Chunks(Blocks(als, show))[k] == Block(als[k], show)
    decreases |als|
  {
    if |als| > 0 {
      var lines := Blocks(als, show);
      BlocksChunks(als[1..], show);
      assert lines[..4] == Block(als[0], show) && lines[4..] == Blocks(als[1..], show);
      var cs := Chunks(lines);
      assert cs == [Block(als[0], show)] + Chunks(Blocks(als[1..], show));
      forall k | 1 <= k < |als|
        ensures cs[k] == Block(als[k], show)
      {
        assert cs[k] == Chunks(Blocks(als[1..], show))[k - 1];
        assert als[1..][k - 1] == als[k];
      }
    }
  }

  // ---------------------------------------------------------------------------------------------
  // the output is FASTQ: reading it back

  /** The FASTQ record a printed block stands for: the header's id is the query name. */
  function AsFastq(a: Alignment): FastqRec {
    FastqRec(a.qname, a.bases, "+", a.qual)
  }

  /** The rendered `rq` keeps the header on one line and ends in neither white space nor `@`. */
  predicate GoodTag(t: string) {
    |t| > 0 && '\n' !in t && !IsSpace(t[|t| - 1]) && t[|t| - 1] != '@'
  }

  /** A record whose block reads back: the query name is a token that does not start with `@`,
      and bases and quality are one non-blank line each. */
  predicate Printable(a: Alignment, show: real -> string) {
    IsToken(a.qname) && a.qname[0] != '@' && GoodTag(show(a.rq))
    && Fastq.DataLine(a.bases) && Fastq.DataLine(a.qual)
  }

  /** The output of `filter_bam2fq`, read with `read_fastq`, gives the kept records in input
      order, each with its query name as id: the ` rq=` part of the header is dropped. */
  lemma FilterBam2FqReadsBack(file: SourceFile, lim: Limits, show: real -> string)
    requires IsAlignmentPath(file.path)
    requires forall i :: 0 <= i < |file.alignments| ==> Printable(file.alignments[i], show)
    ensures Fastq.ReadFastq(FilterBam2Fq(file, lim, show).value)
              == Ok(MapSeq(Seqs.Filter(file.alignments, Keeping(lim)), AsFastq))
  {
    var kept := Seqs.Filter(file.alignments, Keeping(lim));
    forall i | 0 <= i < |kept|
      ensures Printable(kept[i], show)
    {
      Seqs.FilterMembers(file.alignments, Keeping(lim), kept[i]);
    }
    BlocksWritten(kept, show);
    Fastq.FeedWrittenFromEmpty(Fastq.Views(Blocks(kept, show)), MapSeq(kept, AsFastq));
  }

  lemma {:induction false} BlocksWritten(als: seq<Alignment>, show: real -> string)
    requires forall i :: 0 <= i < |als| ==> Printable(als[i], show)
    ensures Fastq.Written(Fastq.Views(Blocks(als, show)), MapSeq(als, AsFastq))
    decreases |als|
  {
    if |als| > 0 {
      BlocksWritten(als[1..], show);
      BlockViews(als, show);
      WrittenCons(Fastq.Views(Blocks(als, show)), AsFastq(als[0]), MapSeq(als[1..], AsFastq));
      AsFastqCons(als);
    }
  }

  lemma AsFastqCons(als: seq<Alignment>)
    requires |als| > 0
    ensures MapSeq(als, AsFastq) == [AsFastq(als[0])] + MapSeq(als[1..], AsFastq)
  {
  }

  /** The views of the first printed block are those of a FASTQ record with the query name as
      id. */
  lemma BlockViews(als: seq<Alignment>, show: real -> string)
    requires |als| > 0 && Printable(als[0], show)
    ensures var vs := Fastq.Views(Blocks(als, show));
            var r := AsFastq(als[0]);
            |vs| >= 4 && vs[0].NonBlank? && vs[0].at && vs[0].atId == Ok(r.id)
            && vs[1].NonBlank? && vs[1].text == r.bases && vs[2].NonBlank? && vs[2].text == r.sep
            && vs[3].NonBlank? && vs[3].text == r.qual
            && vs[4..] == Fastq.Views(Blocks(als[1..], show))
  {
    BlockLines(als, show);
    LinesViews(Blocks(als, show), als[0], show, Blocks(als[1..], show));
  }

  lemma LinesViews(lines: seq<string>, a: Alignment, show: real -> string, rest: seq<string>)
    requires Printable(a, show)
    requires |lines| >= 4 && lines[0] == Header(a, show) && lines[1] == a.bases
    requires lines[2] == "+" && lines[3] == a.qual && lines[4..] == rest
    ensures var vs := Fastq.Views(lines);
            |vs| >= 4 && vs[0].NonBlank? && vs[0].at && vs[0].atId == Ok(a.qname)
            && vs[1].NonBlank? && vs[1].text == a.bases && vs[2].NonBlank? && vs[2].text == "+"
            && vs[3].NonBlank? && vs[3].text == a.qual
            && vs[4..] == Fastq.Views(rest)
  {
    Fastq.ViewsCons(lines);
    HeaderView(a.qname, show(a.rq));
    Fastq.DataView(a.bases);
    PlusLine();
    Fastq.DataView("+");
    Fastq.DataView(a.qual);
  }

  /** The separator line `+` is one non-blank line. */
  lemma PlusLine()
    ensures Fastq.DataLine("+")
  {
    OneCharLine('+');
    assert "+" == ['+'];
  }

  lemma OneCharLine(c: char)
    requires !IsSpace(c) && c != '\n'
    ensures Fastq.DataLine([c])
  {
    StripStable([c], IsSpace);
  }

  /** The first four printed lines are the first record's block. */
  lemma BlockLines(als: seq<Alignment>, show: real -> string)
    requires |als| > 0
    ensures var lines := Blocks(als, show);
            lines[0] == Header(als[0], show) && lines[1] == als[0].bases
            && lines[2] == "+" && lines[3] == als[0].qual && lines[4..] == Blocks(als[1..], show)
  {
    var b := Block(als[0], show);
    assert Blocks(als, show) == b + Blocks(als[1..], show);
    ConcatFour(b, Blocks(als[1..], show));
  }

  lemma ConcatFour(b: seq<string>, rest: seq<string>)
    requires |b| == 4
    ensures (b + rest)[0] == b[0] && (b + rest)[1] == b[1] && (b + rest)[2] == b[2]
    ensures (b + rest)[3] == b[3] && (b + rest)[4..] == rest
  {
  }

  /** Four views of one record put ahead of the views of others. */
  lemma WrittenCons(vs: seq<Fastq.LineView>, r: FastqRec, recs: seq<FastqRec>)
    requires |vs| >= 4 && vs[0].NonBlank? && vs[0].at && vs[0].atId == Ok(r.id)
    requires vs[1].NonBlank? && vs[1].text == r.bases && vs[2].NonBlank? && vs[2].text == r.sep
    requires vs[3].NonBlank? && vs[3].text == r.qual
    requires Fastq.Written(vs[4..], recs)
    ensures Fastq.Written(vs, [r] + recs)
  {
    assert ([r] + recs)[0] == r && ([r] + recs)[1..] == recs;
  }

  /** `@<id> rq=<tag>` is a non-blank `@` line whose id, as `read_fastq` takes it, is `id`. */
  lemma HeaderView(id: string, tag: string)
    requires IsToken(id) && id[0] != '@' && GoodTag(tag)
    ensures var v := Fastq.View("@" + id + " rq=" + tag);
            v.NonBlank? && v.at && v.atId == Ok(id)
  {
    var rest := " rq=" + tag;
    TagPart(tag);
    assert "@" + id + " rq=" + tag == ['@'] + (id + rest);
    MarkedHeader(id, rest);
  }

  lemma TagPart(tag: string)
    requires |tag| > 0
    ensures var rest := " rq=" + tag;
            |rest| > 0 && rest[0] == ' ' && rest[|rest| - 1] == tag[|tag| - 1]
  {
  }

  /** `@` followed by a token and a tail that starts with a space and ends in neither white space
      nor `@`. */
  lemma MarkedHeader(id: string, rest: string)
    requires IsToken(id) && id[0] != '@'
    requires |rest| > 0 && rest[0] == ' ' && !IsSpace(rest[|rest| - 1]) && rest[|rest| - 1] != '@'
    ensures var v := Fastq.View(['@'] + (id + rest));
            v.NonBlank? && v.at && v.atId == Ok(id)
  {
    var tail := id + rest;
    assert tail[|tail| - 1] == rest[|rest| - 1];
    MarkedStripped(tail);
    MarkedAt(tail);
    MarkedIdOf(id, rest);
  }

  lemma MarkedStripped(tail: string)
    requires |tail| > 0 && !IsSpace(tail[|tail| - 1])
    ensures Strip(['@'] + tail) == ['@'] + tail
  {
    var line := ['@'] + tail;
    assert line[|line| - 1] == tail[|tail| - 1];
    StripStable(line, IsSpace);
  }

  lemma MarkedAt(tail: string)
    ensures StartsWith(['@'] + tail, "@")
  {
    assert (['@'] + tail)[..1] == "@";
  }

  lemma MarkedIdOf(id: string, rest: string)
    requires IsToken(id) && id[0] != '@'
    requires |rest| > 0 && rest[0] == ' ' && rest[|rest| - 1] != '@'
    ensures MarkedId(['@'] + (id + rest), '@') == Ok(id)
  {
    var tail := id + rest;
    assert tail[|tail| - 1] == rest[|rest| - 1];
    StripCharAfterMark('@', tail);
    TokenPrefix(id, rest);
    FirstTokenOfPrefix(id, tail);
  }

  lemma TokenPrefix(id: string, rest: string)
    requires |rest| > 0 && rest[0] == ' '
    ensures id + " " <= id + rest
  {
    var c := rest[0];
    assert " " == [c];
    assert (id + rest)[..|id| + 1] == id + [c];
  }
}

=== FILE: filter_ccs.dfy ===
/** lib/filter_ccs.py: statistics and length/quality filtering of consensus reads from BAM or SAM
    files; the kept reads of each sample go to `<sample>.clean.fastq`. */
module FilterCcs {
  import opened Results
  import opened PyStr
  import opened Records
  import opened OrderedMaps
  import opened ReadStats
  import Fastq

  /** `read_bam(file)`: `[qname, seq, quality string, rq tag]` for every alignment; any name that
      does not end in `.bam` or `.sam` is a format error. */
  function ReadBam(file: SourceFile): (r: Result<seq<Read>>)
    ensures r.Err? <==> !IsAlignmentPath(file.path)
    ensures r.Err? ==> r.error == UnsupportedFormat(file.path)
    ensures r.Ok? ==> |r.value| == |file.alignments|
    ensures r.Ok? ==> forall i :: 0 <= i < |r.value| ==> r.value[i].id == file.alignments[i].qname
    ensures r.Ok? ==> forall i :: 0 <= i < |r.value| ==> r.value[i].rq == Num(file.alignments[i].rq)
  {
    if !IsAlignmentPath(file.path) then Err(UnsupportedFormat(file.path))
    else
      var als := file.alignments;
      Ok(seq(|als|, i requires 0 <= i < |als| => Read(als[i].qname, als[i].bases, als[i].qual, Num(als[i].rq))))
  }

  function Inputs(files: seq<SourceFile>): (ins: seq<Input>)
    ensures |ins| == |files|
    ensures forall i :: 0 <= i < |files| ==> ins[i] == (files[i].path, ReadBam(files[i]))
  {
    seq(|files|, i requires 0 <= i < |files| => (files[i].path, ReadBam(files[i])))
  }

  /** `stat_reads(files, out, about, qvalue, model)` of this script. */
  function FilterCcs(files: seq<SourceFile>, about: int, qvalue: real, model: string): (r: Result<Report>)
    ensures r.Ok? ==> |r.value.table| == |files|
    ensures r.Ok? ==> forall i :: 0 <= i < |files| ==> r.value.table[i].name == SampleOf(Inputs(files)[i])
    ensures r.Ok? ==> forall i :: 0 <= i < |files| ==> IsAlignmentPath(files[i].path)
  {
    var r := StatReads(Inputs(files), about, qvalue, model);
    if r.Ok? then
      assert |MapSeq(r.value.table, RowName)| == |files|;
      assert forall i :: 0 <= i < |files| ==> MapSeq(r.value.table, RowName)[i] == MapSeq(Inputs(files), SampleOf)[i];
      OnlyAlignments(files, about, qvalue, model);
      r
    else r
  }

  /** A run that gives a report read only BAM/SAM inputs. */
  lemma OnlyAlignments(files: seq<SourceFile>, about: int, qvalue: real, model: string)
    requires StatReads(Inputs(files), about, qvalue, model).Ok?
    ensures forall i :: 0 <= i < |files| ==> IsAlignmentPath(files[i].path)
  {
    var ins := Inputs(files);
    StatReadsFails(ins, about, qvalue, model);
    forall i | 0 <= i < |files|
      ensures IsAlignmentPath(files[i].path)
    {
      assert !FileFails(ins[i], about, qvalue, model);
    }
  }

  /** The run succeeds only when every input is a BAM or SAM file. */
  lemma FilterCcsNeedsAlignments(files: seq<SourceFile>, about: int, qvalue: real, model: string, i: nat)
    requires i < |files| && !IsAlignmentPath(files[i].path)
    ensures FilterCcs(files, about, qvalue, model).Err?
  {
    var ins := Inputs(files);
    StatReadsFails(ins, about, qvalue, model);
    assert FileFails(ins[i], about, qvalue, model);
  }

  // ---------------------------------------------------------------------------------------------
  // the clean FASTQ file

  /** `"@%s\n%s\n+\n%s\n" % (seqid, seq, qual)` for each kept item, as lines. */
  function CleanFastq(kept: seq<Item>, show: Rq -> string): (lines: seq<string>)
    ensures |lines| == 4 * |kept|
  {
    if |kept| == 0 then []
    else ["@" + KeyText(kept[0].0, show), kept[0].1.bases, "+", kept[0].1.qual] + CleanFastq(kept[1..], show)
  }

  /** The records `read_fastq` finds in a clean file: the read id (the key up to its first space),
      the bases, `+` and the qualities. */
  function AsFastq(kept: seq<Item>): (recs: seq<FastqRec>)
    ensures |recs| == |kept|
    ensures forall i :: 0 <= i < |kept| ==> recs[i] == FastqRec(kept[i].0.0, kept[i].1.bases, "+", kept[i].1.qual)
  {
    seq(|kept|, i requires 0 <= i < |kept| => FastqRec(kept[i].0.0, kept[i].1.bases, "+", kept[i].1.qual))
  }

  /** An item whose clean-file block reads back: the id is a token not starting with `@`, and the
      bases and qualities are single stripped lines. */
  predicate Printable(it: Item) {
    IsToken(it.0.0) && it.0.0[0] != '@' && Fastq.DataLine(it.1.bases) && Fastq.DataLine(it.1.qual)
  }

  /** Reading a clean file back with the FASTQ reader of lib/ccs2sub.py gives one record per kept
      item, in order, under its read id. */
  lemma CleanFastqReadBack(kept: seq<Item>, show: Rq -> string)
    requires forall i :: 0 <= i < |kept| ==> Printable(kept[i])
    ensures Fastq.ReadFastq(CleanFastq(kept, show)) == Ok(AsFastq(kept))
  {
    var none: seq<string> := [];
    CleanFeed(none, kept, show);
    assert Fastq.Flush(none) + AsFastq(kept) == AsFastq(kept);
  }

  lemma {:induction false} CleanFeed(buf: seq<string>, kept: seq<Item>, show: Rq -> string)
    requires |buf| == 0 || |buf| == 4
    requires forall i :: 0 <= i < |kept| ==> Printable(kept[i])
    ensures Fastq.Feed(buf, Fastq.Views(CleanFastq(kept, show))) == Ok(Fastq.Flush(buf) + AsFastq(kept))
    decreases |kept|
  {
    if |kept| == 0 {
      assert Fastq.Flush(buf) + AsFastq(kept) == Fastq.Flush(buf);
    } else {
      var r := AsFastq(kept)[0];
      var full := [r.id, r.bases, r.sep, r.qual];
      CleanFeed(full, kept[1..], show);
      CleanViews(kept, show);
      Fastq.FeedRecord(buf, Fastq.Views(CleanFastq(kept, show)), r);
      assert Fastq.Flush(full) == [r];
      AsFastqCons(kept);
    }
  }

  lemma AsFastqCons(kept: seq<Item>)
    requires |kept| > 0
    ensures AsFastq(kept) == [AsFastq(kept)[0]] + AsFastq(kept[1..])
  {
    var a, b := AsFastq(kept), [AsFastq(kept)[0]] + AsFastq(kept[1..]);
    forall i | 0 <= i < |a|
      ensures a[i] == b[i]
    {
      if i > 0 {
        assert b[i] == AsFastq(kept[1..])[i - 1];
      }
    }
  }

  /** The separator line `+` stays one non-blank line. */
  lemma PlusLine()
    ensures Fastq.DataLine("+")
  {
    CharLine('+');
    assert "+" == ['+'];
  }

  lemma CharLine(c: char)
    requires !IsSpace(c)
    ensures Fastq.DataLine([c])
  {
    StripStable([c], IsSpace);
  }

  /** The four views of the first kept item's block, and the views of the rest. */
  lemma CleanViews(kept: seq<Item>, show: Rq -> string)
    requires |kept| > 0 && Printable(kept[0])
    ensures var vs := Fastq.Views(CleanFastq(kept, show));
            var r := AsFastq(kept)[0];
            |vs| >= 4 && vs[0].NonBlank? && vs[0].at && vs[0].atId == Ok(r.id)
            && vs[1].NonBlank? && vs[1].text == r.bases && vs[2].NonBlank? && vs[2].text == r.sep
            && vs[3].NonBlank? && vs[3].text == r.qual
            && vs[4..] == Fastq.Views(CleanFastq(kept[1..], show))
  {
    var lines := CleanFastq(kept, show);
    var header := "@" + KeyText(kept[0].0, show);
    assert lines[..4] == [header, kept[0].1.bases, "+", kept[0].1.qual];
    assert lines[4..] == CleanFastq(kept[1..], show);
    Fastq.ViewsCons(lines);
    KeyLine('@', kept[0].0, show);
    Fastq.DataView(kept[0].1.bases);
    PlusLine();
    Fastq.DataView("+");
    Fastq.DataView(kept[0].1.qual);
  }
}

=== FILE: filter_ccs_bam.dfy ===
/** lib/filter_ccs_bam.py: each consensus BAM/SAM file is copied, record by record, into
    `<sample>.clean.bam`, keeping the records whose `rq` tag reaches a threshold. */
module FilterCcsBam {
  import opened Results
  import opened PyStr
  import opened Records
  import opened OrderedMaps
  import opened SampleName
  import Seqs

  /** The default threshold of both the function and the command line. */
  const DefaultQvalue: real := 0.9

  /** A file `filter_bam` writes: its name and the records written to it, in order. */
  datatype Output = Output(path: string, records: seq<Alignment>)

  /** A record is written unless its `rq` is below `qvalue`. */
  predicate Passes(qvalue: real, a: Alignment) {
    !(a.rq < qvalue)
  }

  function Passing(qvalue: real): Alignment -> bool {
    a => Passes(qvalue, a)
  }

  /** The name of the cleaned file: the sample name of the input with `.clean.bam` appended. */
  function CleanName(path: string): (r: string)
    ensures EndsWith(r, ".clean.bam")
  {
    var r := GetSample(path) + ".clean.bam";
    assert r[|r| - |".clean.bam"|..] == ".clean.bam";
    r
  }

  /** `filter_bam(file, qvalue)`: the format is checked before the output is opened, so a file
      that is neither `.bam` nor `.sam` writes nothing. */
  function FilterBam(file: SourceFile, qvalue: real): (r: Result<Output>)
    ensures r.Err? <==> !IsAlignmentPath(file.path)
    ensures r.Err? ==> r.error == UnsupportedFormat(file.path)
    ensures r.Ok? ==> r.value.path == CleanName(file.path) && |r.value.records| <= |file.alignments|
  {
    if !IsAlignmentPath(file.path) then Err(UnsupportedFormat(file.path))
    else Ok(Output(CleanName(file.path), Seqs.Filter(file.alignments, Passing(qvalue))))
  }

  /** A record is written exactly when it is in the input and passes the threshold; the records
      written keep their input order, and every copy of a passing record is written. */
  lemma FilterBamKeeps(file: SourceFile, qvalue: real, a: Alignment)
    requires IsAlignmentPath(file.path)
    ensures var out := FilterBam(file, qvalue).value.records;
            (a in out <==> a in file.alignments && Passes(qvalue, a))
            && multiset(out)[a] == if Passes(qvalue, a) then multiset(file.alignments)[a] else 0
  {
    Seqs.FilterMembers(file.alignments, Passing(qvalue), a);
    Seqs.FilterCount(file.alignments, Passing(qvalue));
  }

  /** Filtering an already cleaned file again with a threshold no higher changes nothing, and with
      any other threshold gives what one pass with the higher threshold gives. */
  lemma {:induction false} FilterAgain(als: seq<Alignment>, q1: real, q2: real)
    ensures Seqs.Filter(Seqs.Filter(als, Passing(q1)), Passing(q2))
              == Seqs.Filter(als, Passing(if q1 < q2 then q2 else q1))
    decreases |als|
  {
    if |als| > 0 {
      var x, tl := als[0], als[1..];
      var q := if q1 < q2 then q2 else q1;
      FilterAgain(tl, q1, q2);
      assert Passing(q)(x) <==> Passing(q1)(x) && Passing(q2)(x);
      Seqs.FilterUnfold(als, Passing(q1));
      Seqs.FilterUnfold(als, Passing(q));
      var once := Seqs.Filter(als, Passing(q1));
      if Passing(q1)(x) {
        assert once == [x] + Seqs.Filter(tl, Passing(q1));
        Seqs.FilterAppend([x], Seqs.Filter(tl, Passing(q1)), Passing(q2));
        Seqs.FilterUnfold([x], Passing(q2));
        assert [x][1..] == [];
      } else {
        assert once == Seqs.Filter(tl, Passing(q1));
        assert Seqs.Filter(als, Passing(q)) == Seqs.Filter(tl, Passing(q));
      }
    }
  }

  /** A cleaned file `S.clean.bam` named from the working directory is its own output: the name
      `filter_bam` opens for writing, and so truncates before reading, is the input's. */
  lemma CleanedIsOwnOutput(sample: string)
    requires '/' !in sample && '.' !in sample && !Contains(sample + ".clean.bam", "--")
    ensures CleanName(sample + ".clean.bam") == sample + ".clean.bam"
  {
    assert sample + "." + "clean.bam" == sample + ".clean.bam";
    GetSamplePlain(sample, "clean.bam");
  }

  /** A higher threshold writes no more records. */
  lemma FilterBamMonotone(file: SourceFile, q1: real, q2: real)
    requires IsAlignmentPath(file.path) && q1 <= q2
    ensures |FilterBam(file, q2).value.records| <= |FilterBam(file, q1).value.records|
  {
    Seqs.FilterMonotone(file.alignments, Passing(q2), Passing(q1));
  }

  // ---------------------------------------------------------------------------------------------
  // several files: `filter_bams`

  /** The files written, in the order they were written, and the exception that ended the loop,
      if any. */
  datatype Batch = Batch(written: seq<Output>, failure: Option<Error>)

  /** `filter_bams(files, qvalue)`: the files in order; the first one with an unsupported name
      ends the loop, after the earlier ones have been written. */
  function FilterBams(files: seq<SourceFile>, qvalue: real): (r: Batch)
    ensures |r.written| <= |files|
    ensures r.failure.Some? ==> r.failure.value.UnsupportedFormat?
    decreases |files|
  {
    if |files| == 0 then Batch([], None)
    else
      match FilterBam(files[0], qvalue)
      case Err(e) => Batch([], Some(e))
      case Ok(out) =>
        var rest := FilterBams(files[1..], qvalue);
        Batch([out] + rest.written, rest.failure)
  }

  /** The position of the first file with an unsupported name, or `|files|`. */
  function FirstBad(files: seq<SourceFile>): (n: nat)
    ensures n <= |files|
    ensures forall j :: 0 <= j < n ==> IsAlignmentPath(files[j].path)
    ensures n < |files| ==> !IsAlignmentPath(files[n].path)
    decreases |files|
  {
    if |files| == 0 then 0
    else if !IsAlignmentPath(files[0].path) then 0
    else
      var m := FirstBad(files[1..]);
      assert forall j :: 1 <= j < m + 1 ==> files[j] == files[1..][j - 1];
      m + 1
  }

  /** What `filter_bam` writes for one file whose name is supported. */
  function Cleaned(qvalue: real): SourceFile -> Output {
    (f: SourceFile) => Output(CleanName(f.path), Seqs.Filter(f.alignments, Passing(qvalue)))
  }

  /** The loop writes the cleaned file of every input before the first unsupported one, in input
      order, and then raises that file's format error; with no such file it writes them all. */
  lemma {:induction false} FilterBamsWrites(files: seq<SourceFile>, qvalue: real)
    ensures var n := FirstBad(files);
            FilterBams(files, qvalue)
              == Batch(MapSeq(files[..n], Cleaned(qvalue)),
                       if n < |files| then Some(UnsupportedFormat(files[n].path)) else None)
    decreases |files|
  {
    if |files| > 0 && IsAlignmentPath(files[0].path) {
      var tl := files[1..];
      FilterBamsWrites(tl, qvalue);
      var m := FirstBad(tl);
      assert FirstBad(files) == m + 1;
      MapSeqCons(files, Cleaned(qvalue), m);
      if m < |tl| {
        assert tl[m] == files[m + 1];
      }
    }
  }

  lemma MapSeqCons(files: seq<SourceFile>, f: SourceFile -> Output, m: nat)
    requires m < |files|
    ensures MapSeq(files[..m + 1], f) == [f(files[0])] + MapSeq(files[1..][..m], f)
  {
    assert files[..m + 1][1..] == files[1..][..m];
  }

  // ---------------------------------------------------------------------------------------------
  // the files left behind

  function PathOf(o: Output): string {
    o.path
  }

  function RecordsOf(o: Output): seq<Alignment> {
    o.records
  }

  /** The files on disk after the loop, by name: a later input whose sample name repeats an
      earlier one's overwrites its cleaned file. */
  function Disk(written: seq<Output>): (d: OMap<string, seq<Alignment>>)
    ensures DistinctKeys(d)
  {
    Collect(written, PathOf, RecordsOf)
  }

  /** Each cleaned file holds what the last input of its name wrote. */
  lemma DiskLastWins(written: seq<Output>, path: string)
    ensures Get(Disk(written), path) == LastValue(written, PathOf, RecordsOf, path)
  {
    CollectLastWins(written, PathOf, RecordsOf, path);
  }

  /** Two runs of the same sample from different directories: only the second run's records
      survive in `<sample>.clean.bam`. */
  lemma SameSampleOverwrites(d1: string, d2: string, name: string, als1: seq<Alignment>, als2: seq<Alignment>, qvalue: real)
    requires '/' !in name && IsAlignmentPath(name)
    ensures var f1 := SourceFile(d1 + "/" + name, [], als1);
            var f2 := SourceFile(d2 + "/" + name, [], als2);
            Get(Disk(FilterBams([f1, f2], qvalue).written), CleanName(name))
              == Some(Seqs.Filter(als2, Passing(qvalue)))
  {
    var f1 := SourceFile(d1 + "/" + name, [], als1);
    var f2 := SourceFile(d2 + "/" + name, [], als2);
    SameSuffix(d1, name);
    SameSuffix(d2, name);
    GetSampleOfDir(d1, name);
    GetSampleOfDir(d2, name);
    TwoGood(f1, f2, qvalue);
    TwoWrites(Cleaned(qvalue)(f1), Cleaned(qvalue)(f2));
  }

  /** Two supported files are both written, in order. */
  lemma TwoGood(f1: SourceFile, f2: SourceFile, qvalue: real)
    requires IsAlignmentPath(f1.path) && IsAlignmentPath(f2.path)
    ensures FilterBams([f1, f2], qvalue).written == [Cleaned(qvalue)(f1), Cleaned(qvalue)(f2)]
  {
    var c1, c2 := Cleaned(qvalue)(f1), Cleaned(qvalue)(f2);
    var none: seq<SourceFile> := [];
    assert FilterBams(none, qvalue).written == [];
    assert [f2][1..] == none;
    FilterBamsCons([f2], qvalue);
    assert FilterBams([f2], qvalue).written == [c2];
    assert [f1, f2][1..] == [f2];
    FilterBamsCons([f1, f2], qvalue);
    assert [c1] + [c2] == [c1, c2];
  }

  /** A supported first file is written, then the loop goes on with the rest. */
  lemma FilterBamsCons(files: seq<SourceFile>, qvalue: real)
    requires |files| > 0 && IsAlignmentPath(files[0].path)
    ensures FilterBams(files, qvalue).written
              == [Cleaned(qvalue)(files[0])] + FilterBams(files[1..], qvalue).written
  {
  }

  /** A directory prefix does not change the suffix of a file name. */
  lemma SameSuffix(dir: string, name: string)
    requires IsAlignmentPath(name)
    ensures IsAlignmentPath(dir + "/" + name)
  {
    var p := dir + "/" + name;
    assert p[|p| - 4..] == name[|name| - 4..];
  }

  lemma TwoWrites(o1: Output, o2: Output)
    requires o1.path == o2.path
    ensures Get(Disk([o1, o2]), o2.path) == Some(o2.records)
  {
    DiskLastWins([o1, o2], o2.path);
    assert [o1, o2][..1] == [o1];
  }
}

=== FILE: filter_pbbarcode.dfy ===
/** lib/filter_pbbarcode_old.py: the same statistics and filter as lib/filter_ccs.py, over FASTA,
    FASTQ (plain or gzip-compressed) and BAM/SAM inputs; the kept reads of each sample go to
    `<sample>.clean.fasta`. */
module FilterPbbarcode {
  import opened Results
  import opened PyStr
  import opened Records
  import opened Seqs
  import opened OrderedMaps
  import opened ReadStats
  import Fasta
  import Fastq

  // ---------------------------------------------------------------------------------------------
  // read_file

  /** A FASTA record gets the default `rq = 1` appended. */
  function FastaRead(rec: FastaRec): Read {
    Read(rec.id, rec.bases, "", Num(1.0))
  }

  /** A FASTQ record already has three fields, so nothing is appended: its third field, the `+`
      separator line, lands in the `rq` slot. */
  function FastqRead(rec: FastqRec): Read {
    Read(rec.id, rec.bases, rec.qual, Text(rec.sep))
  }

  /** `read_bam` of this script yields `[qname, seq, rq]`: three fields, no quality string. */
  function BamRead(a: Alignment): Read {
    Read(a.qname, a.bases, "", Num(a.rq))
  }

  /** A gzip-compressed input is read as bytes and never decoded: `bytes.strip()` works, but the
      first line that is not blank under it meets `strip(">")` or `startswith('@')` with a text
      argument, a TypeError. A file of blank lines yields nothing. */
  function GzipLines(lines: seq<string>): (r: Result<seq<Read>>)
    ensures r.Err? <==> exists i :: 0 <= i < |lines| && StripBy(lines[i], IsAsciiSpace) != ""
    ensures r.Err? ==> r.error == TypeError
    ensures r.Ok? ==> r.value == []
  {
    if |lines| == 0 then Ok([])
    else if StripBy(lines[0], IsAsciiSpace) != "" then Err(TypeError)
    else
      var r := GzipLines(lines[1..]);
      assert r.Err? ==> exists i :: 1 <= i < |lines| && StripBy(lines[i], IsAsciiSpace) != "" by {
        if r.Err? {
          var i :| 0 <= i < |lines[1..]| && StripBy(lines[1..][i], IsAsciiSpace) != "";
          assert lines[i + 1] == lines[1..][i];
        }
      }
      assert (exists i :: 0 <= i < |lines| && StripBy(lines[i], IsAsciiSpace) != "") ==> r.Err? by {
        forall i | 1 <= i < |lines|
          ensures lines[i] == lines[1..][i - 1]
        {
        }
      }
      r
  }

  /** `read_fasta(file)` followed by the `rq = 1` default of `read_file`. */
  function FastaFile(file: SourceFile): (r: Result<seq<Read>>)
    ensures r.Err? ==> r.error == TypeError || r.error == IndexError
    ensures !EndsWith(file.path, ".gz") && r.Ok? ==> forall i :: 0 <= i < |r.value| ==> r.value[i].rq == Num(1.0)
    ensures EndsWith(file.path, ".gz") ==> r == GzipLines(file.lines)
  {
    if EndsWith(file.path, ".gz") then GzipLines(file.lines)
    else
      Fasta.ReadFastaFails(file.lines);
      var recs :- Fasta.ReadFasta(file.lines);
      Ok(MapSeq(recs, FastaRead))
  }

  /** `read_fastq(file)` as `read_file` passes it on. */
  function FastqFile(file: SourceFile): (r: Result<seq<Read>>)
    ensures r.Err? ==> r.error == TypeError || r.error == IndexError
    ensures r.Ok? ==> forall i :: 0 <= i < |r.value| ==> r.value[i].rq.Text?
    ensures EndsWith(file.path, ".gz") ==> r == GzipLines(file.lines)
  {
    if EndsWith(file.path, ".gz") then GzipLines(file.lines)
    else
      Fastq.ReadFastqFails(file.lines);
      var recs :- Fastq.ReadFastq(file.lines);
      Ok(MapSeq(recs, FastqRead))
  }

  /** `read_file(file)`: the reader chosen by suffix, with `rq = 1` appended to two-field records.
      Only an unrecognised suffix raises the format error. */
  function ReadFile(file: SourceFile): (r: Result<seq<Read>>)
    ensures FormatOf(file.path).None? ==> r == Err(UnsupportedFormat(file.path))
    ensures FormatOf(file.path).Some? && r.Err? ==> r.error == TypeError || r.error == IndexError
    ensures FormatOf(file.path) == Some(FastaFormat) ==> r == FastaFile(file)
    ensures FormatOf(file.path) == Some(FastqFormat) ==> r == FastqFile(file)
    ensures FormatOf(file.path) == Some(AlignmentFormat) ==> r == Ok(MapSeq(file.alignments, BamRead))
  {
    match FormatOf(file.path)
    case None => Err(UnsupportedFormat(file.path))
    case Some(FastaFormat) => FastaFile(file)
    case Some(FastqFormat) => FastqFile(file)
    case Some(AlignmentFormat) => Ok(MapSeq(file.alignments, BamRead))
  }

  /** What `read_file` yields for each kind of input: `rq = 1` on every FASTA record, the text of
      the `+` line on every FASTQ record, nothing from a compressed file. */
  lemma ReadFileRq(file: SourceFile)
    requires ReadFile(file).Ok?
    ensures FormatOf(file.path) == Some(FastaFormat) && !EndsWith(file.path, ".gz") ==>
              forall i :: 0 <= i < |ReadFile(file).value| ==> ReadFile(file).value[i].rq == Num(1.0)
    ensures FormatOf(file.path) == Some(FastqFormat) ==>
              forall i :: 0 <= i < |ReadFile(file).value| ==> ReadFile(file).value[i].rq.Text?
    ensures EndsWith(file.path, ".gz") ==> ReadFile(file).value == []
  {
    if EndsWith(file.path, ".gz") && FormatOf(file.path) == Some(AlignmentFormat) {
      GzSuffixNotAlignment(file.path);
    }
  }

  /** A name ending in `.gz` ends in neither `.bam` nor `.sam`. */
  lemma GzSuffixNotAlignment(path: string)
    requires IsAlignmentPath(path)
    ensures !EndsWith(path, ".gz")
  {
    var n := |path|;
    assert path[n - 1] == 'm';
  }

  function Inputs(files: seq<SourceFile>): (ins: seq<Input>)
    ensures |ins| == |files|
    ensures forall i :: 0 <= i < |files| ==> ins[i] == (files[i].path, ReadFile(files[i]))
  {
    seq(|files|, i requires 0 <= i < |files| => (files[i].path, ReadFile(files[i])))
  }

  /** `stat_reads(files, out, about, qvalue, model)` of this script. */
  function FilterPbbarcode(files: seq<SourceFile>, about: int, qvalue: real, model: string): (r: Result<Report>)
    ensures r.Ok? ==> |r.value.table| == |files|
    ensures r.Ok? ==> forall i :: 0 <= i < |files| ==> r.value.table[i].name == SampleOf(Inputs(files)[i])
    ensures r.Ok? ==> forall i :: 0 <= i < |files| ==> Countable(files[i].path)
  {
    var r := StatReads(Inputs(files), about, qvalue, model);
    if r.Ok? then
      assert |MapSeq(r.value.table, RowName)| == |files|;
      assert forall i :: 0 <= i < |files| ==> MapSeq(r.value.table, RowName)[i] == MapSeq(Inputs(files), SampleOf)[i];
      OnlyCountable(files, about, qvalue, model);
      r
    else r
  }

  /** The inputs a run can succeed on: plain (uncompressed) FASTA files and BAM/SAM files. */
  predicate Countable(path: string) {
    (FormatOf(path) == Some(FastaFormat) && !EndsWith(path, ".gz")) || FormatOf(path) == Some(AlignmentFormat)
  }

  /** A run that gives a report read only plain FASTA and BAM/SAM inputs. */
  lemma OnlyCountable(files: seq<SourceFile>, about: int, qvalue: real, model: string)
    requires StatReads(Inputs(files), about, qvalue, model).Ok?
    ensures forall i :: 0 <= i < |files| ==> Countable(files[i].path)
  {
    var ins := Inputs(files);
    StatReadsFails(ins, about, qvalue, model);
    forall i | 0 <= i < |files|
      ensures Countable(files[i].path)
    {
      assert !FileFails(ins[i], about, qvalue, model);
      if FormatOf(files[i].path) == Some(FastqFormat) {
        FastqFails(files[i], about, qvalue, model);
      } else if FormatOf(files[i].path).Some? && EndsWith(files[i].path, ".gz") {
        GzipFails(files[i], about, qvalue, model);
      }
    }
  }

  // ---------------------------------------------------------------------------------------------
  // which inputs can succeed

  /** A FASTQ input never yields a row: an entry whose length passes the window compares its `+`
      line with `qvalue` (TypeError), and when none passes nothing is kept (ZeroDivision). */
  lemma FastqFails(file: SourceFile, about: int, qvalue: real, model: string)
    requires FormatOf(file.path) == Some(FastqFormat)
    ensures FileFails((file.path, ReadFile(file)), about, qvalue, model)
  {
    var input := (file.path, ReadFile(file));
    if input.1.Ok? {
      var recs := input.1.value;
      if StatQuality(recs, model).Ok? {
        TextRqKeepsNothing(SampleOf(input), recs, about, qvalue, model);
      }
    }
  }

  /** Reads whose `rq` slot is text make the per-file step fail. */
  lemma TextRqKeepsNothing(name: string, recs: seq<Read>, about: int, qvalue: real, model: string)
    requires StatQuality(recs, model).Ok?
    requires forall i :: 0 <= i < |recs| ==> recs[i].rq.Text?
    ensures StatFile(name, recs, about, qvalue, model).Err?
  {
    var q := StatQuality(recs, model).value;
    var text := (e: Entry) => e.rq.Text?;
    CollectValues(recs, KeyOf, EntryOf, text);
    FilterNone(q.data, Passing(q.reference, about, qvalue));
    StatFileErrors(name, recs, about, qvalue, model);
  }

  /** A gzip-compressed input never yields a row: its reader fails or yields nothing, and an empty
      file fails `argmax` (ValueError) or the average (ZeroDivision). */
  lemma GzipFails(file: SourceFile, about: int, qvalue: real, model: string)
    requires FormatOf(file.path).Some? && EndsWith(file.path, ".gz")
    ensures FileFails((file.path, ReadFile(file)), about, qvalue, model)
  {
    var input := (file.path, ReadFile(file));
    if input.1.Ok? {
      ReadFileRq(file);
      EmptyFails(SampleOf(input), about, qvalue, model);
    }
  }

  /** A file without records fails under every reference. */
  lemma EmptyFails(name: string, about: int, qvalue: real, model: string)
    ensures StatFile(name, [], about, qvalue, model).Err?
  {
    var none: seq<Read> := [];
    if StatQuality(none, model).Ok? {
      StatFileErrors(name, none, about, qvalue, model);
    }
  }

  /** A run with a FASTQ or a gzip-compressed input among its files fails. */
  lemma FilterPbbarcodeFails(files: seq<SourceFile>, about: int, qvalue: real, model: string, i: nat)
    requires i < |files|
    requires FormatOf(files[i].path) == Some(FastqFormat)
             || (FormatOf(files[i].path).Some? && EndsWith(files[i].path, ".gz"))
    ensures FilterPbbarcode(files, about, qvalue, model).Err?
  {
    var ins := Inputs(files);
    if FormatOf(files[i].path) == Some(FastqFormat) {
      FastqFails(files[i], about, qvalue, model);
    } else {
      GzipFails(files[i], about, qvalue, model);
    }
    StatReadsFails(ins, about, qvalue, model);
    assert FileFails(ins[i], about, qvalue, model);
  }

  /** A plain FASTA input that yields a row counts every kept read in all three tiers. */
  lemma FastaTiers(file: SourceFile, about: int, qvalue: real, model: string)
    requires FormatOf(file.path) == Some(FastaFormat) && !EndsWith(file.path, ".gz") && ReadFile(file).Ok?
    requires StatFile(GetSampleOf(file), ReadFile(file).value, about, qvalue, model).Ok?
    ensures var row := StatFile(GetSampleOf(file), ReadFile(file).value, about, qvalue, model).value.0;
            row.q40 == row.q30 == row.q20
  {
    TiersOfPerfectReads(GetSampleOf(file), ReadFile(file).value, about, qvalue, model);
  }

  function GetSampleOf(file: SourceFile): string {
    SampleOf((file.path, ReadFile(file)))
  }

  // ---------------------------------------------------------------------------------------------
  // the clean FASTA file

  /** `">%s\n%s\n" % (seqid, seq)` for each kept item, as lines. */
  function CleanFasta(kept: seq<Item>, show: Rq -> string): (lines: seq<string>)
    ensures |lines| == 2 * |kept|
  {
    if |kept| == 0 then []
    else [">" + KeyText(kept[0].0, show), kept[0].1.bases] + CleanFasta(kept[1..], show)
  }

  /** The records the FASTA reader finds in a clean file: the read id (the key up to its first
      space) and the bases. */
  function AsFasta(kept: seq<Item>): (recs: seq<FastaRec>)
    ensures |recs| == |kept|
    ensures forall i :: 0 <= i < |kept| ==> recs[i] == FastaRec(kept[i].0.0, kept[i].1.bases)
  {
    seq(|kept|, i requires 0 <= i < |kept| => FastaRec(kept[i].0.0, kept[i].1.bases))
  }

  /** An item whose clean-file block reads back: the id is a token not starting with `>`, and the
      bases are one stripped line. */
  predicate Printable(it: Item) {
    IsToken(it.0.0) && it.0.0[0] != '>' && Fasta.SequenceLine(it.1.bases, '>')
  }

  /** Reading a clean file back with the FASTA reader gives one record per kept item, in order,
      under its read id, empty sequences included. */
  lemma CleanFastaReadBack(kept: seq<Item>, show: Rq -> string)
    requires forall i :: 0 <= i < |kept| ==> Printable(kept[i])
    ensures Fasta.ReadFasta(CleanFasta(kept, show)) == Ok(AsFasta(kept))
  {
    CleanFeed(Fasta.Empty, kept, show);
    assert Fasta.Flush(Fasta.Empty) + AsFasta(kept) == AsFasta(kept);
  }

  lemma {:induction false} CleanFeed(b: Fasta.Buffer, kept: seq<Item>, show: Rq -> string)
    requires forall i :: 0 <= i < |kept| ==> Printable(kept[i])
    ensures Fasta.Feed(b, Fasta.Views(CleanFasta(kept, show))) == Ok(Fasta.Flush(b) + AsFasta(kept))
    decreases |kept|
  {
    if |kept| == 0 {
      assert Fasta.Flush(b) + AsFasta(kept) == Fasta.Flush(b);
    } else {
      var r := AsFasta(kept)[0];
      CleanFeed(Fasta.Open(r.id, r.bases), kept[1..], show);
      CleanViews(kept, show);
      Fasta.FeedRecord(b, r, Fasta.Views(CleanFasta(kept, show)));
      AsFastaCons(kept);
    }
  }

  lemma AsFastaCons(kept: seq<Item>)
    requires |kept| > 0
    ensures AsFasta(kept) == [AsFasta(kept)[0]] + AsFasta(kept[1..])
  {
    var a, b := AsFasta(kept), [AsFasta(kept)[0]] + AsFasta(kept[1..]);
    forall i | 0 <= i < |a|
      ensures a[i] == b[i]
    {
      if i > 0 {
        assert b[i] == AsFasta(kept[1..])[i - 1];
      }
    }
  }

  /** The two views of the first kept item's block, and the views of the rest. */
  lemma CleanViews(kept: seq<Item>, show: Rq -> string)
    requires |kept| > 0 && Printable(kept[0])
    ensures var vs := Fasta.Views(CleanFasta(kept, show));
            var r := AsFasta(kept)[0];
            |vs| >= 2 && Fasta.IsHeaderView(vs[0]) && vs[0].firstId == Ok(r.id) && Fasta.Carries(vs[1], r.bases)
            && vs[2..] == Fasta.Views(CleanFasta(kept[1..], show))
  {
    var lines := CleanFasta(kept, show);
    var header := ">" + KeyText(kept[0].0, show);
    assert lines[..2] == [header, kept[0].1.bases];
    assert lines[2..] == CleanFasta(kept[1..], show);
    Fasta.ViewsCons(lines);
    KeyLine('>', kept[0].0, show);
    Fasta.ViewOfStripped(header);
    Fasta.SequenceLineView(kept[0].1.bases);
  }
}

=== FILE: ordered_maps.dfy ===
/** Python `dict` / `OrderedDict` semantics: keys kept in first-insertion order, `d[k] = v` on an
    existing key replaces the value in place. */
module OrderedMaps {
  import opened Results

  /** A dictionary as its items, in iteration order. */
  type OMap<K, V> = seq<(K, V)>

  function Keys<K, V>(m: OMap<K, V>): (ks: seq<K>)
    ensures |ks| == |m|
    ensures forall i :: 0 <= i < |m| ==> ks[i] == m[i].0
  {
    seq(|m|, i requires 0 <= i < |m| => m[i].0)
  }

  predicate DistinctKeys<K(==), V>(m: OMap<K, V>) {
    forall i, j :: 0 <= i < j < |m| ==> m[i].0 != m[j].0
  }

  /** The position of `k` among the items. */
  function IndexOf<K(==), V>(m: OMap<K, V>, k: K): (r: Option<nat>)
    ensures r.Some? ==> r.value < |m| && m[r.value].0 == k
    ensures r.Some? ==> forall i :: 0 <= i < r.value ==> m[i].0 != k
    ensures r.None? ==> forall i :: 0 <= i < |m| ==> m[i].0 != k
  {
    if |m| == 0 then None
    else if m[0].0 == k then Some(0)
    else match IndexOf(m[1..], k)
      case None => None
      case Some(i) => Some(i + 1)
  }

  /** `d.get(k)`. */
  function Get<K(==), V>(m: OMap<K, V>, k: K): (r: Option<V>)
    ensures r.Some? <==> k in Keys(m)
  {
    match IndexOf(m, k)
    case None => None
    case Some(i) => Some(m[i].1)
  }

  /** `d[k] = v`. */
  function Put<K(==), V>(m: OMap<K, V>, k: K, v: V): (r: OMap<K, V>)
    ensures DistinctKeys(m) ==> DistinctKeys(r)
    ensures k in Keys(m) ==> Keys(r) == Keys(m)
    ensures k !in Keys(m) ==> r == m + [(k, v)]
  {
    match IndexOf(m, k)
    case Some(i) =>
      var r := m[i := (k, v)];
      assert Keys(r) == Keys(m);
      r
    case None => m + [(k, v)]
  }

  /** After `d[k] = v`, `k` maps to `v` and every other key keeps its value. */
  lemma PutGet<K, V>(m: OMap<K, V>, k: K, v: V, k': K)
    requires DistinctKeys(m)
    ensures Get(Put(m, k, v), k') == if k' == k then Some(v) else Get(m, k')
  {
    var r := Put(m, k, v);
    match IndexOf(m, k)
    case Some(i) =>
      assert r == m[i := (k, v)];
      if k' == k {
        assert IndexOf(r, k') == Some(i);
      } else {
        assert IndexOf(r, k') == IndexOf(m, k') by {
          IndexOfUpdate(m, i, (k, v), k');
        }
      }
    case None =>
      assert r == m + [(k, v)];
      IndexOfAppend(m, (k, v), k');
  }

  /** Maps with the same keys still have the same keys after storing under the same key. */
  lemma PutKeys<K, V, W>(m: OMap<K, V>, n: OMap<K, W>, k: K, v: V, w: W)
    requires Keys(m) == Keys(n)
    ensures Keys(Put(m, k, v)) == Keys(Put(n, k, w))
  {
    if k !in Keys(m) {
      assert Keys(m + [(k, v)]) == Keys(m) + [k];
      assert Keys(n + [(k, w)]) == Keys(n) + [k];
    }
  }

  lemma {:induction false} IndexOfUpdate<K, V>(m: OMap<K, V>, i: nat, item: (K, V), k': K)
    requires i < |m| && m[i].0 == item.0 && k' != item.0
    ensures IndexOf(m[i := item], k') == IndexOf(m, k')
    decreases |m|
  {
    if i > 0 && m[0].0 != k' {
      assert m[i := item][1..] == m[1..][i - 1 := item];
      IndexOfUpdate(m[1..], i - 1, item, k');
    }
  }

  lemma {:induction false} IndexOfAppend<K, V>(m: OMap<K, V>, item: (K, V), k': K)
    ensures IndexOf(m + [item], k') ==
      if IndexOf(m, k').Some? then IndexOf(m, k')
      else if item.0 == k' then Some(|m|) else None
    decreases |m|
  {
    if |m| > 0 && m[0].0 != k' {
      assert (m + [item])[1..] == m[1..] + [item];
      IndexOfAppend(m[1..], item, k');
    }
  }

  // ---------------------------------------------------------------------------------------------
  // building a dictionary in a loop: `for x in xs: d[key(x)] = val(x)`

  function MapSeq<T, U>(xs: seq<T>, f: T -> U): (r: seq<U>)
    ensures |r| == |xs|
    ensures forall i :: 0 <= i < |xs| ==> r[i] == f(xs[i])
  {
    seq(|xs|, i requires 0 <= i < |xs| => f(xs[i]))
  }

  lemma MapSeqSnoc<T, U>(xs: seq<T>, f: T -> U)
    requires |xs| > 0
    ensures MapSeq(xs, f) == MapSeq(xs[..|xs| - 1], f) + [f(xs[|xs| - 1])]
  {
  }

  /** The distinct elements of `ks`, each at its first occurrence. */
  function FirstOccurrences<K(==)>(ks: seq<K>): (r: seq<K>)
    ensures forall i :: 0 <= i < |r| ==> r[i] in ks
    ensures forall i :: 0 <= i < |ks| ==> ks[i] in r
    ensures forall i, j :: 0 <= i < j < |r| ==> r[i] != r[j]
    ensures |r| <= |ks|
  {
    if |ks| == 0 then []
    else
      var init := ks[..|ks| - 1];
      assert ks == init + [ks[|ks| - 1]];
      if ks[|ks| - 1] in init then FirstOccurrences(init) else FirstOccurrences(init) + [ks[|ks| - 1]]
  }

  /** The value the last element of `xs` with key `k` carries: last write wins. */
  function LastValue<T, K(==), V>(xs: seq<T>, key: T -> K, val: T -> V, k: K): Option<V> {
    if |xs| == 0 then None
    else if key(xs[|xs| - 1]) == k then Some(val(xs[|xs| - 1]))
    else LastValue(xs[..|xs| - 1], key, val, k)
  }

  /** The dictionary a loop `for x in xs: d[key(x)] = val(x)` builds from `{}`. */
  function Collect<T, K(==), V>(xs: seq<T>, key: T -> K, val: T -> V): (m: OMap<K, V>)
    ensures DistinctKeys(m)
    ensures |m| <= |xs|
    ensures Keys(m) == FirstOccurrences(MapSeq(xs, key))
  {
    if |xs| == 0 then []
    else
      var init := xs[..|xs| - 1];
      var x := xs[|xs| - 1];
      assert MapSeq(xs, key)[..|xs| - 1] == MapSeq(init, key);
      Put(Collect(init, key, val), key(x), val(x))
  }

  /** Each key of the collected dictionary holds the value of the last element with that key. */
  lemma {:induction false} CollectLastWins<T, K, V>(xs: seq<T>, key: T -> K, val: T -> V, k: K)
    ensures Get(Collect(xs, key, val), k) == LastValue(xs, key, val, k)
    decreases |xs|
  {
    if |xs| > 0 {
      var init := xs[..|xs| - 1];
      var x := xs[|xs| - 1];
      CollectLastWins(init, key, val, k);
      PutGet(Collect(init, key, val), key(x), val(x), k);
    }
  }

  /** A property every stored value has holds for every value of the dictionary. */
  lemma {:induction false} CollectValues<T, K, V>(xs: seq<T>, key: T -> K, val: T -> V, p: V -> bool)
    requires forall i :: 0 <= i < |xs| ==> p(val(xs[i]))
    ensures forall i :: 0 <= i < |Collect(xs, key, val)| ==> p(Collect(xs, key, val)[i].1)
    decreases |xs|
  {
    if |xs| > 0 {
      var init := xs[..|xs| - 1];
      var x := xs[|xs| - 1];
      assert forall i :: 0 <= i < |init| ==> init[i] == xs[i];
      CollectValues(init, key, val, p);
      PutValues(Collect(init, key, val), key(x), val(x), p);
    }
  }

  lemma PutValues<K, V>(m: OMap<K, V>, k: K, v: V, p: V -> bool)
    requires p(v) && forall i :: 0 <= i < |m| ==> p(m[i].1)
    ensures forall i :: 0 <= i < |Put(m, k, v)| ==> p(Put(m, k, v)[i].1)
  {
  }
}

=== FILE: pystr.dfy ===
/** The Python `str` operations the scripts rely on: strip, split, join, startswith/endswith,
    `in`, upper-casing, `int()` and `"%02d"`, stated over `seq<char>`. */
module PyStr {
  import opened Results

  /** `str.isspace()`: the characters that `str.strip()` and `str.split()` treat as white space. */
  predicate IsSpace(c: char) {
    var n := c as int;
    n == 0x20 || 0x09 <= n <= 0x0D || 0x1C <= n <= 0x1F || n == 0x85 || n == 0xA0
    || n == 0x1680 || 0x2000 <= n <= 0x200A || n == 0x2028 || n == 0x2029
    || n == 0x202F || n == 0x205F || n == 0x3000
  }

  /** `bytes.isspace()`: white space for `bytes.strip()`. */
  predicate IsAsciiSpace(c: char) {
    c == ' ' || '\t' <= c <= '\r'
  }

  predicate StartsWith(s: string, prefix: string) {
    prefix <= s
  }

  predicate EndsWith(s: string, suffix: string) {
    |suffix| <= |s| && s[|s| - |suffix|..] == suffix
  }

  // ---------------------------------------------------------------------------------------------
  // strip

  /** Drops the leading characters that satisfy `p`. */
  function LStrip(s: string, p: char -> bool): (r: string)
    ensures |r| <= |s| && r == s[|s| - |r|..]
    ensures |r| > 0 ==> !p(r[0])
    ensures forall i :: 0 <= i < |s| - |r| ==> p(s[i])
    decreases |s|
  {
    if |s| > 0 && p(s[0]) then LStrip(s[1..], p) else s
  }

  /** Drops the trailing characters that satisfy `p`. */
  function RStrip(s: string, p: char -> bool): (r: string)
    ensures r <= s
    ensures |r| > 0 ==> !p(r[|r| - 1])
    ensures forall i :: |r| <= i < |s| ==> p(s[i])
    decreases |s|
  {
    if |s| > 0 && p(s[|s| - 1]) then RStrip(s[..|s| - 1], p) else s
  }

  /** `s.strip(chars)` for the character class `p`. */
  function StripBy(s: string, p: char -> bool): (r: string)
    ensures |r| <= |s|
    ensures |r| > 0 ==> !p(r[0]) && !p(r[|r| - 1])
  {
    RStrip(LStrip(s, p), p)
  }

  /** `s.strip()`. */
  function Strip(s: string): string {
    StripBy(s, IsSpace)
  }

  /** `s.strip(c)` for a one-character argument. */
  function StripChar(s: string, c: char): string {
    StripBy(s, x => x == c)
  }

  /** A line is blank when `line.strip()` is empty. */
  predicate IsBlank(s: string) {
    Strip(s) == []
  }

  /** A string whose ends `p` does not touch is left unchanged by stripping. */
  lemma StripStable(s: string, p: char -> bool)
    requires |s| > 0 ==> !p(s[0]) && !p(s[|s| - 1])
    ensures StripBy(s, p) == s
  {
  }

  /** Stripping is idempotent. */
  lemma StripIdempotent(s: string, p: char -> bool)
    ensures StripBy(StripBy(s, p), p) == StripBy(s, p)
  {
    StripStable(StripBy(s, p), p);
  }

  /** Right-stripping never removes a prefix whose last character survives. */
  lemma {:induction false} RStripKeepsPrefix(a: string, b: string, p: char -> bool)
    requires |a| > 0 && !p(a[|a| - 1])
    ensures a <= RStrip(a + b, p)
    decreases |b|
  {
    if |b| == 0 {
      assert a + b == a;
    } else if p(b[|b| - 1]) {
      assert (a + b)[..|a + b| - 1] == a + b[..|b| - 1];
      RStripKeepsPrefix(a, b[..|b| - 1], p);
    }
  }

  /** Stripping `c` from `[c] + s` when `s` does not start or end with `c` gives `s`. */
  lemma StripCharAfterMark(c: char, s: string)
    requires |s| > 0 && s[0] != c && s[|s| - 1] != c
    ensures StripChar([c] + s, c) == s
  {
    var p := x => x == c;
    assert ([c] + s)[1..] == s;
    assert LStrip([c] + s, p) == LStrip(s, p);
  }

  // ---------------------------------------------------------------------------------------------
  // search: `sub in s` and `s.find(sub)`

  /** `sub` occurs in `s` at index `j`. */
  predicate Occurs(s: string, sub: string, j: int) {
    0 <= j && j + |sub| <= |s| && s[j..j + |sub|] == sub
  }

  /** The first occurrence of `sub` in `s` at or after `i`. */
  function FindFrom(s: string, sub: string, i: nat): (r: Option<nat>)
    ensures r.Some? ==> i <= r.value && Occurs(s, sub, r.value)
    ensures r.Some? ==> forall j :: i <= j < r.value ==> !Occurs(s, sub, j)
    ensures r.None? ==> forall j :: i <= j ==> !Occurs(s, sub, j)
    decreases |s| - i
  {
    if i + |sub| > |s| then None
    else if s[i..i + |sub|] == sub then Some(i)
    else FindFrom(s, sub, i + 1)
  }

  /** `s.find(sub)`, with `None` for -1. */
  function Find(s: string, sub: string): Option<nat> {
    FindFrom(s, sub, 0)
  }

  /** `sub in s`. */
  function Contains(s: string, sub: string): (b: bool)
    ensures b <==> exists j :: Occurs(s, sub, j)
  {
    Find(s, sub).Some?
  }

  /** An occurrence inside a prefix is an occurrence in the whole string. */
  lemma OccursInPrefix(s: string, sub: string, k: nat, j: int)
    requires k <= |s| && Occurs(s[..k], sub, j)
    ensures Occurs(s, sub, j) && j + |sub| <= k
  {
    assert s[..k][j..j + |sub|] == s[j..j + |sub|];
  }

  /** The text before the first occurrence of `sep` does not contain `sep`. */
  lemma BeforeFirstIsFree(s: string, sep: string, i: nat)
    requires |sep| > 0 && Find(s, sep) == Some(i)
    ensures !Contains(s[..i], sep)
  {
    if Contains(s[..i], sep) {
      var j :| Occurs(s[..i], sep, j);
      OccursInPrefix(s, sep, i, j);
    }
  }

  /** A prefix of a string that does not contain `sub` does not contain it either. */
  lemma PrefixFree(s: string, sub: string, k: nat)
    requires k <= |s| && !Contains(s, sub)
    ensures !Contains(s[..k], sub)
  {
    if Contains(s[..k], sub) {
      var j :| Occurs(s[..k], sub, j);
      OccursInPrefix(s, sub, k, j);
    }
  }

  // ---------------------------------------------------------------------------------------------
  // split and join

  /** `s.split(sep)` for a non-empty separator (Python raises on an empty one). */
  function Split(s: string, sep: string): (parts: seq<string>)
    requires |sep| > 0
    ensures |parts| >= 1
    ensures forall k :: 0 <= k < |parts| ==> !Contains(parts[k], sep)
    decreases |s|
  {
    match Find(s, sep)
    case None => [s]
    case Some(i) =>
      BeforeFirstIsFree(s, sep, i);
      [s[..i]] + Split(s[i + |sep|..], sep)
  }

  /** `sep.join(parts)`. */
  function Join(parts: seq<string>, sep: string): string {
    if |parts| == 0 then ""
    else if |parts| == 1 then parts[0]
    else parts[0] + sep + Join(parts[1..], sep)
  }

  /** Splitting and joining again gives back the original string. */
  lemma {:induction false} JoinSplit(s: string, sep: string)
    requires |sep| > 0
    ensures Join(Split(s, sep), sep) == s
    decreases |s|
  {
    SplitHead(s, sep);
    var f := Find(s, sep);
    if f.Some? {
      var i := f.value;
      var rest := s[i + |sep|..];
      JoinSplit(rest, sep);
      var parts := Split(s, sep);
      assert parts == [parts[0]] + parts[1..];
      JoinCons(s[..i], Split(rest, sep), sep);
      assert Occurs(s, sep, i);
      assert s == s[..i] + s[i..i + |sep|] + rest;
    }
  }

  lemma JoinCons(a: string, rest: seq<string>, sep: string)
    requires |rest| >= 1
    ensures Join([a] + rest, sep) == a + sep + Join(rest, sep)
  {
    assert ([a] + rest)[1..] == rest;
  }

  /** The first field of a split is the text before the first separator. */
  lemma SplitHead(s: string, sep: string)
    requires |sep| > 0
    ensures Split(s, sep)[0] <= s
    ensures Find(s, sep).None? ==> Split(s, sep) == [s]
    ensures Find(s, sep).Some? ==> var i := Find(s, sep).value;
      Split(s, sep)[0] == s[..i] && |Split(s, sep)| >= 2
      && Split(s, sep)[1..] == Split(s[i + |sep|..], sep)
  {
  }

  /** The last part of a join is preceded by the separator. */
  lemma {:induction false} JoinLast(parts: seq<string>, sep: string)
    requires |parts| >= 2
    ensures Join(parts, sep) == Join(parts[..|parts| - 1], sep) + sep + parts[|parts| - 1]
    decreases |parts|
  {
    if |parts| > 2 {
      JoinLast(parts[1..], sep);
      assert parts[1..][..|parts| - 2] == parts[..|parts| - 1][1..];
    }
  }

  /** Splitting a join on a one-character separator that no part contains gives back the parts. */
  lemma {:induction false} SplitJoin(parts: seq<string>, c: char)
    requires |parts| >= 1
    requires forall k :: 0 <= k < |parts| ==> c !in parts[k]
    ensures Split(Join(parts, [c]), [c]) == parts
    decreases |parts|
  {
    if |parts| == 1 {
      NoCharNoOccur(parts[0], c);
    } else {
      SplitJoin(parts[1..], c);
      SplitAtFirst(parts[0], c, Join(parts[1..], [c]));
      assert parts == [parts[0]] + parts[1..];
    }
  }

  /** Splitting at the first separator: the text before it, then the split of the rest. */
  lemma SplitAtFirst(p: string, c: char, t: string)
    requires c !in p
    ensures Split(p + [c] + t, [c]) == [p] + Split(t, [c])
  {
    var s := p + [c] + t;
    FirstOccurrenceAfter(p, c, t);
    SplitHead(s, [c]);
    assert s[..|p|] == p;
    assert s[|p| + 1..] == t;
  }

  lemma FirstOccurrenceAfter(p: string, c: char, t: string)
    requires c !in p
    ensures Find(p + [c] + t, [c]) == Some(|p|)
  {
    var s := p + [c] + t;
    assert s[|p|..|p| + 1] == [c];
    assert Occurs(s, [c], |p|);
    forall j | 0 <= j < |p|
      ensures !Occurs(s, [c], j)
    {
      assert s[j] == p[j];
      assert s[j..j + 1] == [p[j]];
    }
  }

  /** A string without the character `c` has no occurrence of `[c]`. */
  lemma NoCharNoOccur(s: string, c: char)
    requires c !in s
    ensures !Contains(s, [c])
  {
    forall j
      ensures !Occurs(s, [c], j)
    {
      if 0 <= j && j + 1 <= |s| {
        assert s[j..j + 1] == [s[j]];
      }
    }
  }

  /** `path.split('/')[-1]`: the base name of a path. */
  function BaseName(path: string): (r: string)
    ensures !Contains(r, "/")
    ensures EndsWith(path, r)
    ensures r == path || path[|path| - |r| - 1] == '/'
  {
    var parts := Split(path, "/");
    LastPartFacts(path, parts);
    parts[|parts| - 1]
  }

  lemma LastPartFacts(path: string, parts: seq<string>)
    requires parts == Split(path, "/")
    ensures EndsWith(path, parts[|parts| - 1])
    ensures parts[|parts| - 1] == path || path[|path| - |parts[|parts| - 1]| - 1] == '/'
  {
    JoinSplit(path, "/");
    if |parts| >= 2 {
      JoinLast(parts, "/");
    }
  }

  // ---------------------------------------------------------------------------------------------
  // tokens: `s.split()[0]`

  /** A non-empty string without white space: what `str.split()` returns as fields. */
  predicate IsToken(t: string) {
    |t| > 0 && forall i :: 0 <= i < |t| ==> !IsSpace(t[i])
  }

  /** The longest prefix without white space. */
  function TakeToken(t: string): (r: string)
    ensures r <= t
    ensures forall i :: 0 <= i < |r| ==> !IsSpace(t[i])
    ensures |r| < |t| ==> IsSpace(t[|r|])
  {
    if |t| == 0 || IsSpace(t[0]) then "" else [t[0]] + TakeToken(t[1..])
  }

  /** `s.split()[0]`, with `None` where Python raises IndexError (an all-white-space string). */
  function FirstToken(s: string): (r: Option<string>)
    ensures r.None? <==> forall i :: 0 <= i < |s| ==> IsSpace(s[i])
    ensures r.Some? ==> IsToken(r.value)
  {
    var t := LStrip(s, IsSpace);
    if t == [] then None else Some(TakeToken(t))
  }

  /** A token followed by white space (or by nothing) is the first token. */
  lemma FirstTokenOfPrefix(t: string, s: string)
    requires IsToken(t)
    requires t == s || (t + " " <= s)
    ensures FirstToken(s) == Some(t)
  {
    assert LStrip(s, IsSpace) == s;
    TakeTokenOfPrefix(t, s);
  }

  lemma {:induction false} TakeTokenOfPrefix(t: string, s: string)
    requires forall i :: 0 <= i < |t| ==> !IsSpace(t[i])
    requires t == s || (t + " " <= s)
    ensures TakeToken(s) == t
    decreases |t|
  {
    if |t| > 0 {
      if t == s {
        TakeTokenOfPrefix(t[1..], s[1..]);
      } else {
        assert (t + " ")[1..] == t[1..] + " ";
        TakeTokenOfPrefix(t[1..], s[1..]);
      }
      assert t == [t[0]] + t[1..];
    } else if t != s {
      assert s[0] == ' ';
    }
  }

  // ---------------------------------------------------------------------------------------------
  // case and numbers

  /** `str.upper()` restricted to ASCII letters. */
  function UpperChar(c: char): (r: char)
    ensures 'a' <= c <= 'z' ==> r as int == c as int - 32
    ensures !('a' <= c <= 'z') ==> r == c
  {
    if 'a' <= c <= 'z' then (c as int - 32) as char else c
  }

  function Upper(s: string): (r: string)
    ensures |r| == |s|
    ensures forall i :: 0 <= i < |s| ==> r[i] == UpperChar(s[i])
  {
    seq(|s|, i requires 0 <= i < |s| => UpperChar(s[i]))
  }

  predicate IsDigit(c: char) {
    '0' <= c <= '9'
  }

  predicate AllDigits(s: string) {
    forall i :: 0 <= i < |s| ==> IsDigit(s[i])
  }

  function DigitChar(d: nat): (c: char)
    requires d < 10
    ensures IsDigit(c) && c as int - '0' as int == d
  {
    ('0' as int + d) as char
  }

  /** The value of a decimal digit string (empty reads as 0). */
  function ParseDigits(s: string): nat
    requires AllDigits(s)
  {
    if |s| == 0 then 0
    else 10 * ParseDigits(s[..|s| - 1]) + (s[|s| - 1] as int - '0' as int)
  }

  /** The decimal rendering of a natural number: `"%d" % n`. */
  function NatToString(n: nat): (r: string)
    ensures |r| >= 1 && AllDigits(r)
    ensures n >= 10 <==> |r| >= 2
    decreases n
  {
    if n < 10 then [DigitChar(n)] else NatToString(n / 10) + [DigitChar(n % 10)]
  }

  /** A positive number is rendered without a leading zero. */
  lemma {:induction false} NatToStringLeading(n: nat)
    requires n > 0
    ensures NatToString(n)[0] != '0'
    decreases n
  {
    if n >= 10 {
      NatToStringLeading(n / 10);
      assert NatToString(n)[0] == NatToString(n / 10)[0];
    }
  }

  /** Rendering a number and reading it back gives the number. */
  lemma {:induction false} ParseNatToString(n: nat)
    ensures ParseDigits(NatToString(n)) == n
    decreases n
  {
    if n >= 10 {
      ParseNatToString(n / 10);
      var r := NatToString(n);
      assert r[..|r| - 1] == NatToString(n / 10);
    }
  }

  /** Leading zeros do not change the value. */
  lemma {:induction false} ParseLeadingZero(s: string)
    requires AllDigits(s)
    ensures AllDigits("0" + s) && ParseDigits("0" + s) == ParseDigits(s)
    decreases |s|
  {
    if |s| > 0 {
      var t := "0" + s;
      assert t[..|t| - 1] == "0" + s[..|s| - 1];
      ParseLeadingZero(s[..|s| - 1]);
    }
  }

  /** The text after a leading `+` or `-`, or all of it. */
  function Unsigned(t: string): (u: string)
    ensures u == t || (|t| > 0 && (t[0] == '+' || t[0] == '-') && u == t[1..])
  {
    if |t| > 0 && (t[0] == '+' || t[0] == '-') then t[1..] else t
  }

  /** Python's `int(text)` on ASCII decimal text: surrounding white space, an optional sign, then
      at least one digit; the value is that of the digits, negated after a `-`. */
  function ParseInt(text: string): (r: Result<int>)
    ensures r.Ok? <==> |Unsigned(Strip(text))| > 0 && AllDigits(Unsigned(Strip(text)))
    ensures r.Ok? && Strip(text)[0] == '-' ==> r.value == -(ParseDigits(Unsigned(Strip(text))) as int)
    ensures r.Ok? && Strip(text)[0] != '-' ==> r.value == ParseDigits(Unsigned(Strip(text)))
    ensures r.Err? ==> r.error == ValueError
  {
    var t := Strip(text);
    var digits := Unsigned(t);
    if |digits| == 0 || !AllDigits(digits) then Err(ValueError)
    else
      var v: int := ParseDigits(digits);
      Ok(if t[0] == '-' then -v else v)
  }

  /** The text `str(n)` gives for an integer. */
  function IntToString(n: int): (r: string)
    ensures |r| > 0 && !IsSpace(r[0]) && !IsSpace(r[|r| - 1])
  {
    var d := NatToString(if n < 0 then -n else n);
    DigitNotSpace(d[0]);
    DigitNotSpace(d[|d| - 1]);
    if n < 0 then "-" + d else d
  }

  lemma DigitNotSpace(c: char)
    requires IsDigit(c)
    ensures !IsSpace(c)
  {
  }

  /** `int(str(n)) == n`: reading back the rendering of any integer gives the integer. */
  lemma ParseIntToString(n: int)
    ensures ParseInt(IntToString(n)) == Ok(n)
  {
    var r := IntToString(n);
    StripStable(r, IsSpace);
    if n < 0 {
      assert Unsigned(r) == NatToString(-n);
      ParseNatToString(-n);
    } else {
      ParseNatToString(n);
    }
  }

  /** `"%02d" % n`: at least two characters, zero-padded after any sign. */
  function PadTwo(n: int): (r: string)
    ensures |r| >= 2
    ensures 0 <= n < 10 ==> |r| == 2
    ensures n >= 10 ==> r[0] != '0'
    ensures n < 0 ==> r[1] != '0'
    ensures n >= 0 ==> AllDigits(r) && ParseDigits(r) == n
    ensures n < 0 ==> r[0] == '-' && AllDigits(r[1..]) && ParseDigits(r[1..]) == -n
  {
    if n < 0 then
      ParseNatToString(-n);
      NatToStringLeading(-n);
      assert ("-" + NatToString(-n))[1..] == NatToString(-n);
      "-" + NatToString(-n)
    else if n < 10 then
      ParseNatToString(n);
      ParseLeadingZero(NatToString(n));
      "0" + NatToString(n)
    else
      ParseNatToString(n);
      NatToStringLeading(n);
      NatToString(n)
  }
}

=== FILE: read_stats.dfy ===
/** The statistics and filtering engine shared by lib/filter_ccs.py and
    lib/filter_pbbarcode_old.py: `stat_quality` collects the reads of one file into a dictionary
    keyed by `"<id> [rq=<rq>]"` and picks a reference length; `stat_reads` keeps the reads whose
    length lies within `about` of the reference and whose `rq` reaches `qvalue`, counts them in
    three quality tiers and writes one summary row per input file. */
module ReadStats {
  import opened Results
  import opened PyStr
  import opened Records
  import opened Seqs
  import opened OrderedMaps
  import opened Estimators
  import SampleName

  // ---------------------------------------------------------------------------------------------
  // reads and the dictionary of `stat_quality`

  /** The `rq` slot of a record: a number (the `rq` tag of an alignment, `1` for FASTA), or text
      (the `+` line a FASTQ record carries in that slot). */
  datatype Rq = Num(x: real) | Text(t: string)

  /** One record as the readers yield it. */
  datatype Read = Read(id: string, bases: string, qual: string, rq: Rq)

  /** The dictionary key `"%s [rq=%s]" % (id, rq)`, kept as the pair it is printed from: ids hold
      no white space, so the printed key determines the pair. */
  type Key = (string, Rq)

  /** The dictionary value: the bases, the quality string and the `rq` value. */
  datatype Entry = Entry(bases: string, qual: string, rq: Rq)

  type Item = (Key, Entry)

  function KeyOf(r: Read): Key {
    (r.id, r.rq)
  }

  function EntryOf(r: Read): Entry {
    Entry(r.bases, r.qual, r.rq)
  }

  function Lengths(recs: seq<Read>): (ls: seq<nat>)
    ensures |ls| == |recs|
    ensures forall i :: 0 <= i < |recs| ==> ls[i] == |recs[i].bases|
  {
    seq(|recs|, i requires 0 <= i < |recs| => |recs[i].bases|)
  }

  /** What `stat_quality` returns: the dictionary, the number of records read and the reference
      length. */
  datatype Quality = Quality(data: OMap<Key, Entry>, total: nat, reference: Estimate)

  /** `stat_quality(file, model)` on the records the reader yielded. */
  function StatQuality(recs: seq<Read>, model: string): (r: Result<Quality>)
    ensures r.Err? <==> model == "model" && |recs| == 0
    ensures r.Err? ==> r.error == ValueError
    ensures r.Ok? ==> r.value.total == |recs| && |r.value.data| <= |recs| && DistinctKeys(r.value.data)
    ensures r.Ok? ==> Keys(r.value.data) == FirstOccurrences(MapSeq(recs, KeyOf))
    ensures r.Ok? ==> r.value.reference == Reference(model, Lengths(recs)).value
  {
    var reference :- Reference(model, Lengths(recs));
    Ok(Quality(Collect(recs, KeyOf, EntryOf), |recs|, reference))
  }

  /** A key repeated in the input keeps the value of its last record. */
  lemma StatQualityLastWins(recs: seq<Read>, model: string, k: Key)
    requires StatQuality(recs, model).Ok?
    ensures Get(StatQuality(recs, model).value.data, k) == LastValue(recs, KeyOf, EntryOf, k)
  {
    CollectLastWins(recs, KeyOf, EntryOf, k);
  }

  // ---------------------------------------------------------------------------------------------
  // the filter of `stat_reads`

  /** The length test: a read is skipped when `mean_len + about < len` or `mean_len - about > len`.
      Every comparison with `nan` is false, so nothing is skipped against a `nan` reference. */
  predicate InWindow(reference: Estimate, about: int, n: nat) {
    match reference
    case NaN => true
    case Value(m) => !(m + about as real < n as real || m - about as real > n as real)
  }

  /** A kept item: within the window, with a numeric `rq` not below `qvalue`. */
  predicate Passes(it: Item, reference: Estimate, about: int, qvalue: real) {
    InWindow(reference, about, |it.1.bases|) && it.1.rq.Num? && !(it.1.rq.x < qvalue)
  }

  /** An item whose `rq < qvalue` comparison raises: text compared with a number. */
  predicate Blocks(it: Item, reference: Estimate, about: int) {
    InWindow(reference, about, |it.1.bases|) && it.1.rq.Text?
  }

  function Passing(reference: Estimate, about: int, qvalue: real): Item -> bool {
    it => Passes(it, reference, about, qvalue)
  }

  /** The loop over the dictionary: the items kept, in dictionary order, or the TypeError of the
      first item whose `rq` is text and whose length passes the window. */
  function Select(items: seq<Item>, reference: Estimate, about: int, qvalue: real): (r: Result<seq<Item>>)
    ensures r.Err? ==> r.error == TypeError
    ensures r.Ok? ==> |r.value| <= |items|
    ensures r.Ok? ==> forall i :: 0 <= i < |r.value| ==> Passes(r.value[i], reference, about, qvalue)
  {
    if |items| == 0 then Ok([])
    else
      var it := items[0];
      if !InWindow(reference, about, |it.1.bases|) then Select(items[1..], reference, about, qvalue)
      else match it.1.rq
        case Text(_) => Err(TypeError)
        case Num(x) =>
          var rest :- Select(items[1..], reference, about, qvalue);
          Ok(if x < qvalue then rest else [it] + rest)
  }

  /** The loop fails exactly when some item blocks it; otherwise it keeps exactly the passing
      items, in order. */
  lemma {:induction false} SelectFilters(items: seq<Item>, reference: Estimate, about: int, qvalue: real)
    ensures Select(items, reference, about, qvalue).Err? <==> exists i :: 0 <= i < |items| && Blocks(items[i], reference, about)
    ensures Select(items, reference, about, qvalue).Ok? ==>
              Select(items, reference, about, qvalue).value == Filter(items, Passing(reference, about, qvalue))
    decreases |items|
  {
    if |items| > 0 {
      SelectFilters(items[1..], reference, about, qvalue);
      FilterUnfold(items, Passing(reference, about, qvalue));
      BlocksCons(items, reference, about);
    }
  }

  lemma BlocksCons(items: seq<Item>, reference: Estimate, about: int)
    requires |items| > 0
    ensures (exists i :: 0 <= i < |items| && Blocks(items[i], reference, about)) <==>
            Blocks(items[0], reference, about) || exists i :: 0 <= i < |items[1..]| && Blocks(items[1..][i], reference, about)
  {
    if exists i :: 0 <= i < |items| && Blocks(items[i], reference, about) {
      var i :| 0 <= i < |items| && Blocks(items[i], reference, about);
      if i > 0 {
        assert items[1..][i - 1] == items[i];
      }
    }
    if exists i :: 0 <= i < |items[1..]| && Blocks(items[1..][i], reference, about) {
      var i :| 0 <= i < |items[1..]| && Blocks(items[1..][i], reference, about);
      assert items[i + 1] == items[1..][i];
    }
  }

  // ---------------------------------------------------------------------------------------------
  // quality tiers

  /** The kept items whose `rq` reaches `t`: `q30` counts `rq >= 0.999`, `q40` counts `rq >= 0.9999`. */
  function CountAtLeast(kept: seq<Item>, t: real): (n: nat)
    ensures n <= |kept|
  {
    if |kept| == 0 then 0
    else (if kept[0].1.rq.Num? && kept[0].1.rq.x >= t then 1 else 0) + CountAtLeast(kept[1..], t)
  }

  /** A higher threshold counts no more items. */
  lemma {:induction false} CountAtLeastMonotone(kept: seq<Item>, s: real, t: real)
    requires s <= t
    ensures CountAtLeast(kept, t) <= CountAtLeast(kept, s)
    decreases |kept|
  {
    if |kept| > 0 {
      CountAtLeastMonotone(kept[1..], s, t);
    }
  }

  /** Every item counts when all of them reach the threshold. */
  lemma {:induction false} CountAtLeastAll(kept: seq<Item>, t: real)
    requires forall i :: 0 <= i < |kept| ==> kept[i].1.rq.Num? && kept[i].1.rq.x >= t
    ensures CountAtLeast(kept, t) == |kept|
    decreases |kept|
  {
    if |kept| > 0 {
      CountAtLeastAll(kept[1..], t);
    }
  }

  function KeptLengths(kept: seq<Item>): (ls: seq<int>)
    ensures |ls| == |kept|
    ensures forall i :: 0 <= i < |kept| ==> ls[i] == |kept[i].1.bases|
  {
    seq(|kept|, i requires 0 <= i < |kept| => |kept[i].1.bases|)
  }

  /** A row of the summary table, before number formatting: `Sample`, `Total_CCS`, `Q20_CCS`,
      `Q30_CCS`, `Q40_CCS`, `Average_length(bp)`, `Effective_Rate(%)`. */
  datatype Row = Row(name: string, total: nat, q20: nat, q30: nat, q40: nat, average: real, rate: real)

  /** The column titles; the summary dictionary of a sample uses all but the first. */
  const Title: seq<string> := ["Sample", "Total_CCS", "Q20_CCS", "Q30_CCS", "Q40_CCS", "Average_length(bp)", "Effective_Rate(%)"]

  /** The body of the per-file loop of `stat_reads`: the kept items and the row. The average length
      is computed first, so a file with nothing kept fails with ZeroDivision before the rate is. */
  function FileRow(name: string, quality: Quality, about: int, qvalue: real): (r: Result<(Row, seq<Item>)>)
    ensures r.Err? ==> r.error == TypeError || r.error == ZeroDivision
    ensures Select(quality.data, quality.reference, about, qvalue).Err? ==> r == Err(TypeError)
    ensures Select(quality.data, quality.reference, about, qvalue).Ok? ==>
              (r.Err? <==> |Select(quality.data, quality.reference, about, qvalue).value| == 0 || quality.total == 0)
              && (r.Err? ==> r.error == ZeroDivision)
    ensures r.Ok? ==> var (row, kept) := r.value;
              row.name == name && row.total == quality.total && row.q20 == |kept| > 0
              && row.q40 <= row.q30 <= row.q20
  {
    var kept :- Select(quality.data, quality.reference, about, qvalue);
    if |kept| == 0 || quality.total == 0 then Err(ZeroDivision)
    else
      CountAtLeastMonotone(kept, 0.999, 0.9999);
      var average := Sum(KeptLengths(kept)) as real / |kept| as real;
      var rate := (|kept| * 100) as real / quality.total as real;
      Ok((Row(name, quality.total, |kept|, CountAtLeast(kept, 0.999), CountAtLeast(kept, 0.9999), average, rate), kept))
  }

  /** One input file: `stat_quality` followed by the loop of `stat_reads`. */
  function StatFile(name: string, recs: seq<Read>, about: int, qvalue: real, model: string): (r: Result<(Row, seq<Item>)>)
    ensures r.Ok? ==> var (row, kept) := r.value;
              row.name == name && row.total == |recs| && 0 < row.q20 == |kept| <= |recs|
              && row.q40 <= row.q30 <= row.q20
  {
    var quality :- StatQuality(recs, model);
    var out :- FileRow(name, quality, about, qvalue);
    assert |out.1| <= |quality.data| <= |recs| by {
      SelectFilters(quality.data, quality.reference, about, qvalue);
    }
    Ok(out)
  }

  /** How a file fails: ValueError for an empty file under the "model" reference; TypeError when
      some collected item with a text `rq` passes the window; ZeroDivision when nothing is kept. */
  lemma StatFileErrors(name: string, recs: seq<Read>, about: int, qvalue: real, model: string)
    requires StatQuality(recs, model).Ok?
    ensures var q := StatQuality(recs, model).value;
            var r := StatFile(name, recs, about, qvalue, model);
            (r.Err? && r.error == TypeError <==> exists i :: 0 <= i < |q.data| && Blocks(q.data[i], q.reference, about))
            && (r.Err? && r.error == ZeroDivision <==>
                  (forall i :: 0 <= i < |q.data| ==> !Blocks(q.data[i], q.reference, about))
                  && Filter(q.data, Passing(q.reference, about, qvalue)) == [])
  {
    var q := StatQuality(recs, model).value;
    SelectFilters(q.data, q.reference, about, qvalue);
    if |recs| > 0 {
      FirstOccurrencesNonEmpty(MapSeq(recs, KeyOf));
    }
  }

  lemma FirstOccurrencesNonEmpty(ks: seq<Key>)
    requires |ks| > 0
    ensures |FirstOccurrences(ks)| > 0
  {
    assert ks[0] in FirstOccurrences(ks);
  }

  /** A file's kept items are the collected items that pass both tests, in dictionary order. */
  lemma StatFileKeeps(name: string, recs: seq<Read>, about: int, qvalue: real, model: string)
    requires StatFile(name, recs, about, qvalue, model).Ok?
    ensures var q := StatQuality(recs, model).value;
            StatFile(name, recs, about, qvalue, model).value.1 == Filter(q.data, Passing(q.reference, about, qvalue))
  {
    var q := StatQuality(recs, model).value;
    SelectFilters(q.data, q.reference, about, qvalue);
  }

  /** The average kept length lies within `about` of the reference, and the rate is a percentage. */
  lemma StatFileBounds(name: string, recs: seq<Read>, about: int, qvalue: real, model: string)
    requires StatFile(name, recs, about, qvalue, model).Ok?
    requires StatQuality(recs, model).value.reference.Value?
    ensures var m := StatQuality(recs, model).value.reference.v;
            var row := StatFile(name, recs, about, qvalue, model).value.0;
            m - about as real <= row.average <= m + about as real
    ensures 0.0 < StatFile(name, recs, about, qvalue, model).value.0.rate <= 100.0
  {
    var q := StatQuality(recs, model).value;
    var out := StatFile(name, recs, about, qvalue, model).value;
    var kept := out.1;
    var m := q.reference.v;
    var ls := KeptLengths(kept);
    forall i | 0 <= i < |ls|
      ensures m - about as real <= ls[i] as real <= m + about as real
    {
      assert Passes(kept[i], q.reference, about, qvalue);
    }
    MeanBounds(ls, m - about as real, m + about as real);
    RateBounds(|kept|, |recs|);
  }

  lemma RateBounds(q20: nat, total: nat)
    requires 0 < q20 <= total
    ensures 0.0 < (q20 * 100) as real / total as real <= 100.0
  {
    UpperQuotient((q20 * 100) as real, total as real, 100.0);
  }

  /** When every read has `rq = 1` (as FASTA records do), all three tiers count every kept read. */
  lemma TiersOfPerfectReads(name: string, recs: seq<Read>, about: int, qvalue: real, model: string)
    requires StatFile(name, recs, about, qvalue, model).Ok?
    requires forall i :: 0 <= i < |recs| ==> recs[i].rq == Num(1.0)
    ensures var row := StatFile(name, recs, about, qvalue, model).value.0;
            row.q40 == row.q30 == row.q20
  {
    var q := StatQuality(recs, model).value;
    var kept := StatFile(name, recs, about, qvalue, model).value.1;
    StatFileKeeps(name, recs, about, qvalue, model);
    var perfect := (e: Entry) => e.rq == Num(1.0);
    CollectValues(recs, KeyOf, EntryOf, perfect);
    forall i | 0 <= i < |kept|
      ensures kept[i].1.rq == Num(1.0)
    {
      FilterMembers(q.data, Passing(q.reference, about, qvalue), kept[i]);
    }
    CountAtLeastAll(kept, 0.999);
    CountAtLeastAll(kept, 0.9999);
  }

  // ---------------------------------------------------------------------------------------------
  // what is written

  /** The printed key `"%s [rq=%s]" % (id, rq)`; `show` stands for Python's `str()` of the `rq`
      value, which is not modelled. */
  function KeyText(k: Key, show: Rq -> string): string {
    k.0 + " [rq=" + show(k.1) + "]"
  }

  /** A header line `<mark><key>` written for a read whose id is a token not starting with the mark
      reads back, through `strip()` and `strip(mark).split()[0]`, as that id. */
  lemma KeyLine(mark: char, k: Key, show: Rq -> string)
    requires mark == '@' || mark == '>'
    requires IsToken(k.0) && k.0[0] != mark
    ensures var line := [mark] + KeyText(k, show);
            Strip(line) == line && StartsWith(line, [mark]) && MarkedId(line, mark) == Ok(k.0)
  {
    var rest := " [rq=" + show(k.1) + "]";
    assert KeyText(k, show) == k.0 + rest;
    MarkedLine(mark, k.0, rest);
  }

  lemma MarkedLine(mark: char, id: string, rest: string)
    requires mark == '@' || mark == '>'
    requires IsToken(id) && id[0] != mark && |rest| > 0 && rest[0] == ' ' && rest[|rest| - 1] == ']'
    ensures var line := [mark] + (id + rest);
            Strip(line) == line && StartsWith(line, [mark]) && MarkedId(line, mark) == Ok(id)
  {
    var line := [mark] + (id + rest);
    assert line[..1] == [mark];
    MarkedLineStripped(mark, id + rest);
    MarkedLineId(mark, id, rest);
  }

  lemma MarkedLineStripped(mark: char, tail: string)
    requires mark == '@' || mark == '>'
    requires |tail| > 0 && tail[|tail| - 1] == ']'
    ensures Strip([mark] + tail) == [mark] + tail
  {
    StripStable([mark] + tail, IsSpace);
  }

  lemma MarkedLineId(mark: char, id: string, rest: string)
    requires mark == '@' || mark == '>'
    requires IsToken(id) && id[0] != mark && |rest| > 0 && rest[0] == ' ' && rest[|rest| - 1] == ']'
    ensures MarkedId([mark] + (id + rest), mark) == Ok(id)
  {
    MarkedTail(mark, id + rest);
    TokenThenSpace(id, rest);
  }

  lemma MarkedTail(mark: char, tail: string)
    requires mark == '@' || mark == '>'
    requires |tail| > 0 && tail[0] != mark && tail[|tail| - 1] == ']'
    ensures StripChar([mark] + tail, mark) == tail
  {
    StripCharAfterMark(mark, tail);
  }

  lemma TokenThenSpace(id: string, rest: string)
    requires IsToken(id) && |rest| > 0 && rest[0] == ' '
    ensures FirstToken(id + rest) == Some(id)
  {
    assert (id + rest)[..|id| + 1] == id + " ";
    FirstTokenOfPrefix(id, id + rest);
  }

  // ---------------------------------------------------------------------------------------------
  // all input files

  /** What `stat_reads` produces: the rows of the summary table in input order, the `summary`
      and `sample_lib_lane` dictionaries printed as JSON, and the kept items of each sample's clean
      file, keyed by sample name. A sample name met twice overwrites the earlier entries. */
  datatype Report = Report(table: seq<Row>, summary: OMap<string, Row>, samples: OMap<string, seq<string>>,
                           clean: OMap<string, seq<Item>>)

  /** An input file's path and what its reader yields. */
  type Input = (string, Result<seq<Read>>)

  /** `stat_reads(files, out, about, qvalue, model)`: the files in order; the first failure ends
      the run. */
  function StatReads(inputs: seq<Input>, about: int, qvalue: real, model: string): (r: Result<Report>)
    ensures r.Ok? ==> MapSeq(r.value.table, RowName) == MapSeq(inputs, SampleOf)
    ensures r.Ok? ==> Consistent(r.value)
  {
    if |inputs| == 0 then Ok(Report([], [], [], []))
    else
      var before :- StatReads(inputs[..|inputs| - 1], about, qvalue, model);
      var (path, read) := inputs[|inputs| - 1];
      var recs :- read;
      var out :- StatFile(SampleName.GetSample(path), recs, about, qvalue, model);
      var after := AddFile(before, out.0, out.1);
      MapSeqSnoc(inputs, SampleOf);
      MapSeqSnoc(after.table, RowName);
      assert after.table[..|after.table| - 1] == before.table;
      Ok(after)
  }

  function RowName(row: Row): string {
    row.name
  }

  function RowItself(row: Row): Row {
    row
  }

  /** The sample name of an input's path. */
  function SampleOf(input: Input): string {
    SampleName.GetSample(input.0)
  }

  /** The three dictionaries hold one entry per sample name, the same names in the same order. */
  predicate Consistent(rep: Report) {
    DistinctKeys(rep.summary) && DistinctKeys(rep.samples) && DistinctKeys(rep.clean)
    && Keys(rep.summary) == Keys(rep.samples) == Keys(rep.clean)
  }

  /** One more file's row and kept items. */
  function AddFile(rep: Report, row: Row, kept: seq<Item>): (r: Report)
    requires Consistent(rep)
    ensures Consistent(r)
    ensures r.table == rep.table + [row]
  {
    var name := row.name;
    PutKeys(rep.summary, rep.samples, name, row, [name, "", ""]);
    PutKeys(rep.samples, rep.clean, name, [name, "", ""], kept);
    Report(rep.table + [row], Put(rep.summary, name, row), Put(rep.samples, name, [name, "", ""]), Put(rep.clean, name, kept))
  }

  /** The run fails exactly when some file fails. */
  lemma {:induction false} StatReadsFails(inputs: seq<Input>, about: int, qvalue: real, model: string)
    ensures StatReads(inputs, about, qvalue, model).Err? <==> Any(inputs, Failing(about, qvalue, model))
    decreases |inputs|
  {
    if |inputs| > 0 {
      StatReadsFails(inputs[..|inputs| - 1], about, qvalue, model);
      AnySnoc(inputs, Failing(about, qvalue, model));
    }
  }

  /** An input whose reader fails or whose statistics fail. */
  predicate FileFails(input: Input, about: int, qvalue: real, model: string) {
    input.1.Err? || StatFile(SampleOf(input), input.1.value, about, qvalue, model).Err?
  }

  function Failing(about: int, qvalue: real, model: string): Input -> bool {
    input => FileFails(input, about, qvalue, model)
  }

  /** The rows that reach the output table, which is opened and given its title line before the
      first file is read, and the exception that ends the run, if any: a failing file writes no
      row, but the rows of the files before it stay in the table. */
  function TableWritten(inputs: seq<Input>, about: int, qvalue: real, model: string): (r: (seq<Row>, Option<Error>))
    ensures |r.0| <= |inputs|
    decreases |inputs|
  {
    if |inputs| == 0 then ([], None)
    else
      var before := TableWritten(inputs[..|inputs| - 1], about, qvalue, model);
      if before.1.Some? then before
      else
        var (path, read) := inputs[|inputs| - 1];
        match read
        case Err(e) => (before.0, Some(e))
        case Ok(recs) =>
          match StatFile(SampleName.GetSample(path), recs, about, qvalue, model)
          case Err(e) => (before.0, Some(e))
          case Ok(out) => (before.0 + [out.0], None)
  }

  /** Without a failure the table holds the rows of the report; with one, the run raised the
      report's error. */
  lemma {:induction false} TableWrittenAgrees(inputs: seq<Input>, about: int, qvalue: real, model: string)
    ensures var w := TableWritten(inputs, about, qvalue, model);
            var s := StatReads(inputs, about, qvalue, model);
            (w.1.None? <==> s.Ok?) && (s.Ok? ==> w.0 == s.value.table) && (s.Err? ==> w.1 == Some(s.error))
    decreases |inputs|
  {
    if |inputs| > 0 {
      var init, last := inputs[..|inputs| - 1], inputs[|inputs| - 1];
      TableWrittenAgrees(init, about, qvalue, model);
      var s0 := StatReads(init, about, qvalue, model);
      if s0.Err? {
        assert StatReads(inputs, about, qvalue, model) == Err(s0.error);
      } else if last.1.Err? {
        assert StatReads(inputs, about, qvalue, model) == Err(last.1.error);
      } else {
        var f := StatFile(SampleOf(last), last.1.value, about, qvalue, model);
        if f.Err? {
          assert StatReads(inputs, about, qvalue, model) == Err(f.error);
        } else {
          assert StatReads(inputs, about, qvalue, model) == Ok(AddFile(s0.value, f.value.0, f.value.1));
        }
      }
    }
  }

  /** When file `k` is the first that fails, the table keeps exactly the rows of the files before
      it, as a run on those files alone would have written them. */
  lemma {:induction false} TableBeforeFailure(inputs: seq<Input>, about: int, qvalue: real, model: string, k: nat)
    requires k < |inputs| && FileFails(inputs[k], about, qvalue, model)
    requires forall j :: 0 <= j < k ==> !FileFails(inputs[j], about, qvalue, model)
    ensures var w := TableWritten(inputs, about, qvalue, model);
            var s := StatReads(inputs[..k], about, qvalue, model);
            w.1.Some? && s.Ok? && w.0 == s.value.table
    decreases |inputs|
  {
    var init := inputs[..|inputs| - 1];
    assert init[..k] == inputs[..k];
    if k == |inputs| - 1 {
      NoneFailing(init, about, qvalue, model);
      TableWrittenAgrees(init, about, qvalue, model);
    } else {
      TableBeforeFailure(init, about, qvalue, model, k);
    }
  }

  /** Files none of which fails give a report. */
  lemma NoneFailing(inputs: seq<Input>, about: int, qvalue: real, model: string)
    requires forall j :: 0 <= j < |inputs| ==> !FileFails(inputs[j], about, qvalue, model)
    ensures StatReads(inputs, about, qvalue, model).Ok?
  {
    StatReadsFails(inputs, about, qvalue, model);
  }

  /** The summary entry of a sample is the row of the last file with that sample name. */
  lemma {:induction false} SummaryLastWins(inputs: seq<Input>, about: int, qvalue: real, model: string, name: string)
    requires StatReads(inputs, about, qvalue, model).Ok?
    ensures var rep := StatReads(inputs, about, qvalue, model).value;
            Get(rep.summary, name) == LastValue(rep.table, RowName, RowItself, name)
    decreases |inputs|
  {
    if |inputs| > 0 {
      var init := inputs[..|inputs| - 1];
      var before := StatReads(init, about, qvalue, model).value;
      SummaryLastWins(init, about, qvalue, model, name);
      var recs := inputs[|inputs| - 1].1.value;
      var out := StatFile(SampleOf(inputs[|inputs| - 1]), recs, about, qvalue, model).value;
      SummaryStep(before, out.0, out.1, name);
    }
  }

  lemma SummaryStep(rep: Report, row: Row, kept: seq<Item>, name: string)
    requires Consistent(rep)
    requires Get(rep.summary, name) == LastValue(rep.table, RowName, RowItself, name)
    ensures var after := AddFile(rep, row, kept);
            Get(after.summary, name) == LastValue(after.table, RowName, RowItself, name)
  {
    var table := rep.table + [row];
    assert table[..|table| - 1] == rep.table;
    PutGet(rep.summary, row.name, row, name);
  }
}

=== FILE: records.dfy ===
/** The records the readers produce and the input files they read, plus the choice of reader by
    file-name suffix (`read_ccs` in lib/ccs2sub.py, `read_file` in lib/filter_pbbarcode_old.py). */
module Records {
  import opened Results
  import opened PyStr

  /** A FASTA record as `read_fasta` yields it: `[id, seq]`. */
  datatype FastaRec = FastaRec(id: string, bases: string)

  /** A FASTQ record as `read_fastq` yields it: the four buffered lines, the first cut to its id. */
  datatype FastqRec = FastqRec(id: string, bases: string, sep: string, qual: string)

  /** An alignment (BAM/SAM) record after decoding: query name, bases, quality string, `rq` tag. */
  datatype Alignment = Alignment(qname: string, bases: string, qual: string, rq: real)

  /** An input file: its name, its text lines once decompressed, and its decoded alignment
      records when it is a BAM/SAM container. Each reader looks only at the part its format uses. */
  datatype SourceFile = SourceFile(path: string, lines: seq<string>, alignments: seq<Alignment>)

  /** `line.strip(mark).split()[0]`: the first white-space token once `mark` characters are
      stripped from both ends; an IndexError when nothing but marks and white space remains. */
  function MarkedId(line: string, mark: char): (r: Result<string>)
    ensures r.Ok? ==> IsToken(r.value)
    ensures r.Err? ==> r.error == IndexError
    ensures r.Err? <==> forall i :: 0 <= i < |StripChar(line, mark)| ==> IsSpace(StripChar(line, mark)[i])
  {
    match FirstToken(StripChar(line, mark))
    case None => Err(IndexError)
    case Some(t) => Ok(t)
  }

  /** What a printing script leaves behind: the FASTA records it printed, in order, and the
      exception that ended it, if any. Printing happens record by record, so a failure keeps what
      was printed before it. */
  datatype Run = Run(printed: seq<FastaRec>, failure: Option<Error>)

  /** One printing loop followed by another: the second runs only if the first ended normally. */
  function Then(first: Run, next: Run): (r: Run)
    ensures first.failure.Some? ==> r == first
    ensures first.failure.None? ==> r.failure == next.failure && first.printed <= r.printed
  {
    if first.failure.Some? then first else Run(first.printed + next.printed, next.failure)
  }

  datatype Format = FastaFormat | FastqFormat | AlignmentFormat

  predicate IsAlignmentPath(path: string) {
    EndsWith(path, ".bam") || EndsWith(path, ".sam")
  }

  /** A name `read_fasta`/`read_file` takes as FASTA, compressed or not. */
  predicate FastaName(path: string) {
    EndsWith(path, ".fasta") || EndsWith(path, ".fa") || EndsWith(path, ".fa.gz") || EndsWith(path, ".fasta.gz")
  }

  /** A name `read_fastq`/`read_file` takes as FASTQ, compressed or not. */
  predicate FastqName(path: string) {
    EndsWith(path, ".fastq") || EndsWith(path, ".fq") || EndsWith(path, ".fq.gz") || EndsWith(path, ".fastq.gz")
  }

  /** The reader chosen by suffix, FASTA tested first, then FASTQ, then BAM/SAM; `None` where the
      scripts raise "file format error". */
  function FormatOf(path: string): (r: Option<Format>)
    ensures r == Some(AlignmentFormat) ==> IsAlignmentPath(path)
    ensures r.None? ==> !IsAlignmentPath(path) && !EndsWith(path, ".fa") && !EndsWith(path, ".fq")
    ensures r.None? ==> !EndsWith(path, ".fasta") && !EndsWith(path, ".fastq")
    ensures r == Some(FastaFormat) <==> FastaName(path)
    ensures r == Some(FastqFormat) <==> !FastaName(path) && FastqName(path)
    ensures r == Some(AlignmentFormat) <==> !FastaName(path) && !FastqName(path) && IsAlignmentPath(path)
  {
    if FastaName(path) then Some(FastaFormat)
    else if FastqName(path) then Some(FastqFormat)
    else if IsAlignmentPath(path) then Some(AlignmentFormat)
    else None
  }

  /** The character `k` places before the end of a string is that of any suffix it ends with. */
  lemma EndsWithChar(s: string, suffix: string, k: nat)
    requires EndsWith(s, suffix) && k < |suffix|
    ensures s[|s| - 1 - k] == suffix[|suffix| - 1 - k]
  {
    assert s[|s| - |suffix|..][|suffix| - 1 - k] == s[|s| - 1 - k];
  }

  /** `stem + ext` ends with `ext`. */
  lemma EndsWithAppended(stem: string, ext: string)
    ensures EndsWith(stem + ext, ext)
  {
    assert (stem + ext)[|stem + ext| - |ext|..] == ext;
  }

  /** Whatever the stem, each of the four FASTA suffixes selects the FASTA reader. */
  lemma FastaSuffixes(stem: string)
    ensures FormatOf(stem + ".fasta") == Some(FastaFormat) && FormatOf(stem + ".fa") == Some(FastaFormat)
    ensures FormatOf(stem + ".fasta.gz") == Some(FastaFormat) && FormatOf(stem + ".fa.gz") == Some(FastaFormat)
  {
    EndsWithAppended(stem, ".fasta");
    EndsWithAppended(stem, ".fa");
    EndsWithAppended(stem, ".fasta.gz");
    EndsWithAppended(stem, ".fa.gz");
  }

  /** A FASTA name ends in `a`, or in `a.gz`. */
  lemma FastaNameEnd(path: string)
    requires FastaName(path)
    ensures path[|path| - 1] == 'a' || (path[|path| - 1] == 'z' && path[|path| - 4] == 'a')
  {
    if EndsWith(path, ".fasta") { EndsWithChar(path, ".fasta", 0); }
    else if EndsWith(path, ".fa") { EndsWithChar(path, ".fa", 0); }
    else if EndsWith(path, ".fa.gz") { EndsWithChar(path, ".fa.gz", 0); EndsWithChar(path, ".fa.gz", 3); }
    else { EndsWithChar(path, ".fasta.gz", 0); EndsWithChar(path, ".fasta.gz", 3); }
  }

  /** A FASTQ name ends in `q`, or in `q.gz`. */
  lemma FastqNameEnd(path: string)
    requires FastqName(path)
    ensures path[|path| - 1] == 'q' || (path[|path| - 1] == 'z' && path[|path| - 4] == 'q')
  {
    if EndsWith(path, ".fastq") { EndsWithChar(path, ".fastq", 0); }
    else if EndsWith(path, ".fq") { EndsWithChar(path, ".fq", 0); }
    else if EndsWith(path, ".fq.gz") { EndsWithChar(path, ".fq.gz", 0); EndsWithChar(path, ".fq.gz", 3); }
    else { EndsWithChar(path, ".fastq.gz", 0); EndsWithChar(path, ".fastq.gz", 3); }
  }

  /** A name ending in one FASTQ suffix is not a FASTA name, so it selects the FASTQ reader. */
  lemma FastqSuffix(stem: string, ext: string)
    requires ext == ".fastq" || ext == ".fq" || ext == ".fastq.gz" || ext == ".fq.gz"
    ensures FormatOf(stem + ext) == Some(FastqFormat)
  {
    var p := stem + ext;
    EndsWithAppended(stem, ext);
    EndsWithChar(p, ext, 0);
    if |ext| > 4 { EndsWithChar(p, ext, 3); }
    if FastaName(p) { FastaNameEnd(p); }
  }

  /** Whatever the stem, each of the four FASTQ suffixes selects the FASTQ reader. */
  lemma FastqSuffixes(stem: string)
    ensures FormatOf(stem + ".fastq") == Some(FastqFormat) && FormatOf(stem + ".fq") == Some(FastqFormat)
    ensures FormatOf(stem + ".fastq.gz") == Some(FastqFormat) && FormatOf(stem + ".fq.gz") == Some(FastqFormat)
  {
    FastqSuffix(stem, ".fastq");
    FastqSuffix(stem, ".fq");
    FastqSuffix(stem, ".fastq.gz");
    FastqSuffix(stem, ".fq.gz");
  }

  /** Whatever the stem, `.bam` and `.sam` select the alignment reader. */
  lemma AlignmentSuffixes(stem: string)
    ensures FormatOf(stem + ".bam") == Some(AlignmentFormat) && FormatOf(stem + ".sam") == Some(AlignmentFormat)
  {
    forall ext | ext == ".bam" || ext == ".sam"
      ensures FormatOf(stem + ext) == Some(AlignmentFormat)
    {
      var p := stem + ext;
      EndsWithAppended(stem, ext);
      EndsWithChar(p, ext, 0);
      if FastaName(p) { FastaNameEnd(p); }
      if FastqName(p) { FastqNameEnd(p); }
    }
  }
}

=== FILE: rename_lima.dfy ===
/** lib/rename_lima_file.py: demultiplexed files, named after the barcode pair they carry, copied
    under the name of the sample that a barcode table gives that pair. */
module RenameLima {
  import opened Results
  import opened PyStr
  import opened OrderedMaps
  import opened Tsv
  import SampleName

  // ---------------------------------------------------------------------------------------------
  // the barcode pair of a file: `find_file_name`

  /** `find_file_name(file)`: the second `.`-field of the base name must split on `--` into
      exactly two barcodes (IndexError when there is no second field, ValueError when the
      unpacking fails); they are returned as a set, so their order is lost. */
  function PrimerPair(file: string): (r: Result<set<string>>)
    ensures r.Err? ==> r.error == IndexError || r.error == ValueError
    ensures r.Err? && r.error == IndexError <==> '.' !in BaseName(file)
    ensures r.Ok? ==> 1 <= |r.value| <= 2
  {
    var fields := Split(BaseName(file), ".");
    DotFields(BaseName(file));
    if |fields| < 2 then Err(IndexError)
    else
      var primers := Split(fields[1], "--");
      if |primers| != 2 then Err(ValueError)
      else
        assert |{primers[0], primers[1]}| <= 2;
        Ok({primers[0], primers[1]})
  }

  /** A name splits on `.` into two or more fields exactly when it holds a `.`. */
  lemma DotFields(name: string)
    ensures |Split(name, ".")| >= 2 <==> '.' in name
  {
    SplitHead(name, ".");
    if '.' in name {
      var k :| 0 <= k < |name| && name[k] == '.';
      SampleName.CharContains(name, '.', k);
      assert "." == ['.'];
    } else {
      NoCharNoOccur(name, '.');
      assert "." == ['.'];
    }
  }

  /** A lima file name `<stem>.<fwd>--<rev>.<more fields>` carries the pair `{fwd, rev}`. */
  lemma PrimerPairOfName(stem: string, fwd: string, rev: string, more: seq<string>)
    requires NameParts(stem, fwd, rev, more)
    ensures PrimerPair(LimaName(stem, fwd, rev, more)) == Ok({fwd, rev})
  {
    var fields := [stem, fwd + "--" + rev] + more;
    LimaFields(stem, fwd, rev, more);
    var name := LimaName(stem, fwd, rev, more);
    DotFields(name);
    PairSplit(fwd, rev);
  }

  /** The parts of a lima file name: no part holds `/` or `.`, and the barcodes hold no `-`. */
  predicate NameParts(stem: string, fwd: string, rev: string, more: seq<string>) {
    '/' !in stem && '.' !in stem
    && '/' !in fwd && '.' !in fwd && '-' !in fwd
    && '/' !in rev && '.' !in rev && '-' !in rev
    && forall k :: 0 <= k < |more| ==> '/' !in more[k] && '.' !in more[k]
  }

  /** `<stem>.<fwd>--<rev>.<more fields>`. */
  function LimaName(stem: string, fwd: string, rev: string, more: seq<string>): string {
    Join([stem, fwd + "--" + rev] + more, ".")
  }

  lemma LimaFields(stem: string, fwd: string, rev: string, more: seq<string>)
    requires NameParts(stem, fwd, rev, more)
    ensures BaseName(LimaName(stem, fwd, rev, more)) == LimaName(stem, fwd, rev, more)
    ensures Split(LimaName(stem, fwd, rev, more), ".") == [stem, fwd + "--" + rev] + more
  {
    var fields := [stem, fwd + "--" + rev] + more;
    assert forall k :: 0 <= k < |fields| ==> '.' !in fields[k] && '/' !in fields[k];
    SplitJoin(fields, '.');
    assert "." == ['.'];
    JoinFree(fields, '.', '/');
    SampleName.BaseNameOfPlain(LimaName(stem, fwd, rev, more));
  }

  /** Joining parts that do not hold `c` with a separator other than `c` gives a string without `c`. */
  lemma {:induction false} JoinFree(parts: seq<string>, sep: char, c: char)
    requires sep != c && forall k :: 0 <= k < |parts| ==> c !in parts[k]
    ensures c !in Join(parts, [sep])
    decreases |parts|
  {
    if |parts| > 1 {
      JoinFree(parts[1..], sep, c);
    }
  }

  /** `fwd--rev` splits on `--` into the two barcodes. */
  lemma PairSplit(fwd: string, rev: string)
    requires '-' !in fwd && '-' !in rev
    ensures Split(fwd + "--" + rev, "--") == [fwd, rev]
  {
    NoDoubleDash(fwd);
    NoDoubleDash(rev);
    SampleName.FirstDoubleDash(fwd, rev);
    var s := fwd + "--" + rev;
    SplitHead(s, "--");
    assert s[..|fwd|] == fwd && s[|fwd| + 2..] == rev;
    SplitHead(rev, "--");
  }

  lemma NoDoubleDash(s: string)
    requires '-' !in s
    ensures !Contains(s, "--") && (|s| > 0 ==> s[|s| - 1] != '-')
  {
    forall j
      ensures !Occurs(s, "--", j)
    {
      if 0 <= j && j + 2 <= |s| {
        assert s[j..j + 2][0] == s[j];
      }
    }
  }

  /** The pair forgets the order of the barcodes: `fwd--rev` and `rev--fwd` name the same
      sample. */
  lemma PrimerPairSymmetric(stem: string, fwd: string, rev: string, more: seq<string>)
    requires NameParts(stem, fwd, rev, more)
    ensures PrimerPair(LimaName(stem, fwd, rev, more)) == PrimerPair(LimaName(stem, rev, fwd, more))
  {
    PrimerPairOfName(stem, fwd, rev, more);
    PrimerPairOfName(stem, rev, fwd, more);
    assert {fwd, rev} == {rev, fwd};
  }

  // ---------------------------------------------------------------------------------------------
  // the barcode table: `read_barcode_name`

  function FirstCell(row: Row): string {
    if |row| == 0 then "" else row[0]
  }

  /** The pair a table row names: `{col1, col2}` with three or more cells, `{col1}` with two. */
  function PairOf(row: Row): (pair: set<string>)
    ensures |row| >= 2 ==> row[1] in pair && 1 <= |pair| <= 2
    ensures |row| >= 3 ==> row[2] in pair
  {
    if |row| >= 3 then
      assert |{row[1], row[2]}| <= 2;
      {row[1], row[2]}
    else if |row| == 2 then {row[1]}
    else {}
  }

  /** `read_barcode_name(file)`: sample to barcode pair, in first-insertion order, a later row
      of the same sample replacing the pair of an earlier one. A row with one cell raises
      IndexError (the loop ends before the dictionary is returned). */
  function ReadBarcodeName(table: seq<string>): (r: Result<OMap<string, set<string>>>)
    ensures r.Ok? <==> AllPaired(ReadTsv(table))
    ensures r.Err? ==> r.error == IndexError
    ensures r.Ok? ==> DistinctKeys(r.value)
  {
    var rows := ReadTsv(table);
    if !AllPaired(rows) then Err(IndexError)
    else Ok(Collect(rows, FirstCell, PairOf))
  }

  /** Every row has a second cell. */
  predicate AllPaired(rows: seq<Row>) {
    forall k :: 0 <= k < |rows| ==> |rows[k]| >= 2
  }

  /** Each sample of the table holds the pair of its last row. */
  lemma ReadBarcodeNameLastWins(table: seq<string>, sample: string)
    requires ReadBarcodeName(table).Ok?
    ensures Get(ReadBarcodeName(table).value, sample) == LastValue(ReadTsv(table), FirstCell, PairOf, sample)
  {
    CollectLastWins(ReadTsv(table), FirstCell, PairOf, sample);
  }

  /** No sample of the table is empty, since a stripped line never starts with a tab. */
  lemma SamplesNonEmpty(table: seq<string>)
    requires ReadBarcodeName(table).Ok?
    ensures forall i :: 0 <= i < |ReadBarcodeName(table).value| ==> ReadBarcodeName(table).value[i].0 != ""
  {
    var rows := ReadTsv(table);
    var m := ReadBarcodeName(table).value;
    forall i | 0 <= i < |m|
      ensures m[i].0 != ""
    {
      assert m[i].0 in Keys(m);
      assert m[i].0 in FirstOccurrences(MapSeq(rows, FirstCell));
      var k :| 0 <= k < |rows| && MapSeq(rows, FirstCell)[k] == m[i].0;
    }
  }

  // ---------------------------------------------------------------------------------------------
  // matching a file to a sample: `judge_primer`

  /** The position of the first sample, in table order, whose pair equals `pair`. */
  function FirstMatch(pair: set<string>, data: OMap<string, set<string>>): (r: Option<nat>)
    ensures r.Some? ==> r.value < |data| && data[r.value].1 == pair
    ensures r.Some? ==> forall j :: 0 <= j < r.value ==> data[j].1 != pair
    ensures r.None? ==> forall j :: 0 <= j < |data| ==> data[j].1 != pair
  {
    if |data| == 0 then None
    else if data[0].1 == pair then Some(0)
    else match FirstMatch(pair, data[1..])
      case None => None
      case Some(i) => Some(i + 1)
  }

  /** `judge_primer(rfp, data)`: the first sample whose pair equals the file's pair, or none (the
      script's `0`). */
  function JudgePrimer(pair: set<string>, data: OMap<string, set<string>>): (r: Option<string>)
    ensures r.None? <==> forall j :: 0 <= j < |data| ==> data[j].1 != pair
    ensures r.Some? ==> exists j :: 0 <= j < |data| && data[j] == (r.value, pair)
  {
    match FirstMatch(pair, data)
    case None => None
    case Some(i) => Some(data[i].0)
  }

  // ---------------------------------------------------------------------------------------------
  // the copies: `rename_lima_file`

  /** `os.path.join(dir, name)`. */
  function JoinPath(dir: string, name: string): (path: string)
    ensures EndsWith(path, name)
  {
    if StartsWith(name, "/") then name
    else if dir == [] || EndsWith(dir, "/") then dir + name
    else dir + "/" + name
  }

  /** The new base name: the sample, `.`, and the fields of the old base name from the third on,
      joined by `.` (empty when there are only two). */
  function NewName(sample: string, file: string): string
    requires '.' in BaseName(file)
  {
    DotFields(BaseName(file));
    sample + "." + Join(Split(BaseName(file), ".")[2..], ".")
  }

  /** What the loop does with one file. */
  datatype Outcome =
    | BadName(e: Error)      // `find_file_name` raised
    | Unmatched              // no sample has the file's pair: skipped
    | Matched(sample: string, target: string)  // the sample and the path of the copy

  /** The outcome for one file, with `dir` the absolute form of the target directory. */
  function OutcomeOf(data: OMap<string, set<string>>, dir: string, file: string): (o: Outcome)
    ensures o.BadName? <==> PrimerPair(file).Err?
    ensures o.BadName? ==> o.e == PrimerPair(file).error
    ensures o.Matched? ==> PrimerPair(file).Ok? && (o.sample, PrimerPair(file).value) in data
    ensures o.Matched? ==> '.' in BaseName(file) && o.target == JoinPath(dir, NewName(o.sample, file))
  {
    match PrimerPair(file)
    case Err(e) => BadName(e)
    case Ok(pair) =>
      match JudgePrimer(pair, data)
      case None => Unmatched
      case Some(s) =>
        var j :| 0 <= j < |data| && data[j] == (s, pair);
        Matched(s, JoinPath(dir, NewName(s, file)))
  }

  function Outcomes(data: OMap<string, set<string>>, dir: string, files: seq<string>): (os: seq<Outcome>)
    ensures |os| == |files| && forall k :: 0 <= k < |files| ==> os[k] == OutcomeOf(data, dir, files[k])
  {
    seq(|files|, k requires 0 <= k < |files| => OutcomeOf(data, dir, files[k]))
  }

  /** A copy of `source` to `target`. */
  datatype Copy = Copy(source: string, target: string)

  /** The copies made, in order, and the exception that ended the loop, if any. */
  datatype Renaming = Renaming(copies: seq<Copy>, failure: Option<Error>)

  /** A file that ends the loop: its name has no barcode pair, or it matches a sample while the
      target directory is missing (`check_path` is only reached for a matched file). */
  predicate Breaks(o: Outcome, dirExists: bool) {
    o.BadName? || (o.Matched? && o.sample != "" && !dirExists)
  }

  /** The loop over the files, with `dir` the absolute form of the target path and `dirExists`
      whether it exists. A file whose sample is empty is skipped like an unmatched one (the
      script's `if not name`). */
  function CopyAll(files: seq<string>, os: seq<Outcome>, dir: string, dirExists: bool): (r: Renaming)
    requires |os| == |files|
    ensures r.failure.Some? ==> r.failure.value == PathNotFound(dir) || BadName(r.failure.value) in os
    ensures |r.copies| <= |files|
    decreases |files|
  {
    if |files| == 0 then Renaming([], None)
    else
      match os[0]
      case BadName(e) => Renaming([], Some(e))
      case Unmatched => CopyAll(files[1..], os[1..], dir, dirExists)
      case Matched(sample, target) =>
        if sample == "" then CopyAll(files[1..], os[1..], dir, dirExists)
        else if !dirExists then Renaming([], Some(PathNotFound(dir)))
        else
          var rest := CopyAll(files[1..], os[1..], dir, dirExists);
          Renaming([Copy(files[0], target)] + rest.copies, rest.failure)
  }

  /** The position of the first file that ends the loop, or `|os|` when none does. */
  function FirstBreak(os: seq<Outcome>, dirExists: bool): (n: nat)
    ensures n <= |os|
    ensures forall j :: 0 <= j < n ==> !Breaks(os[j], dirExists)
    ensures n < |os| ==> Breaks(os[n], dirExists)
    decreases |os|
  {
    if |os| == 0 then 0
    else if Breaks(os[0], dirExists) then 0
    else
      var m := FirstBreak(os[1..], dirExists);
      assert forall j :: 1 <= j < m + 1 ==> os[j] == os[1..][j - 1];
      m + 1
  }

  /** The exception a breaking file raises. */
  function Halt(o: Outcome, dir: string): Error {
    if o.BadName? then o.e else PathNotFound(dir)
  }

  /** The copy planned for each file, in file order: one for every file that matches a sample
      whose name is not empty, into `dir` under the file's new name. */
  function Planned(files: seq<string>, os: seq<Outcome>, dir: string): (cs: seq<Copy>)
    requires |os| == |files|
    ensures |cs| <= |files|
    decreases |files|
  {
    if |files| == 0 then []
    else
      var here := if os[0].Matched? && os[0].sample != "" then [Copy(files[0], os[0].target)] else [];
      here + Planned(files[1..], os[1..], dir)
  }

  /** The loop makes exactly the planned copies of the files before the first one that ends it,
      in order, and raises that file's exception; with no such file it copies all it planned. */
  lemma {:induction false} CopyAllPlanned(files: seq<string>, os: seq<Outcome>, dir: string, dirExists: bool)
    requires |os| == |files|
    ensures var n := FirstBreak(os, dirExists);
            CopyAll(files, os, dir, dirExists)
              == Renaming(Planned(files[..n], os[..n], dir), if n < |os| then Some(Halt(os[n], dir)) else None)
    decreases |files|
  {
    if |files| > 0 && !Breaks(os[0], dirExists) {
      var tl, ol := files[1..], os[1..];
      CopyAllPlanned(tl, ol, dir, dirExists);
      CopyAllStep(files, os, dir, dirExists);
      var m := FirstBreak(ol, dirExists);
      assert FirstBreak(os, dirExists) == m + 1;
      PlannedStep(files, os, dir, m);
      if m < |ol| {
        assert ol[m] == os[m + 1];
      }
    }
  }

  /** A file that does not end the loop contributes its planned copy ahead of the rest. */
  lemma CopyAllStep(files: seq<string>, os: seq<Outcome>, dir: string, dirExists: bool)
    requires |os| == |files| > 0 && !Breaks(os[0], dirExists)
    ensures var rest := CopyAll(files[1..], os[1..], dir, dirExists);
            CopyAll(files, os, dir, dirExists)
              == Renaming(Planned(files[..1], os[..1], dir) + rest.copies, rest.failure)
  {
    assert files[..1][1..] == [] && os[..1][1..] == [];
  }

  /** Planning a prefix of `m + 1` files plans the first, then the next `m`. */
  lemma PlannedStep(files: seq<string>, os: seq<Outcome>, dir: string, m: nat)
    requires |os| == |files| && m < |files|
    ensures Planned(files[..m + 1], os[..m + 1], dir)
              == (if os[0].Matched? && os[0].sample != "" then [Copy(files[0], os[0].target)] else [])
                 + Planned(files[1..][..m], os[1..][..m], dir)
  {
    var fs, ps := files[..m + 1], os[..m + 1];
    assert fs[0] == files[0] && ps[0] == os[0];
    assert fs[1..] == files[1..][..m] && ps[1..] == os[1..][..m];
  }

  /** `rename_lima_file(files, bname, path)`: the table is read first, then the files in order. */
  function RenameLimaFile(files: seq<string>, table: seq<string>, dir: string, dirExists: bool): (r: Renaming)
    ensures ReadBarcodeName(table).Err? ==> r == Renaming([], Some(IndexError))
    ensures r.failure.Some? ==> r.failure.value in {IndexError, ValueError, PathNotFound(dir)}
  {
    match ReadBarcodeName(table)
    case Err(e) => Renaming([], Some(e))
    case Ok(data) =>
      var os := Outcomes(data, dir, files);
      var r := CopyAll(files, os, dir, dirExists);
      assert r.failure.Some? && r.failure.value != PathNotFound(dir) ==>
        exists k :: 0 <= k < |os| && os[k] == BadName(r.failure.value);
      r
  }

  /** The loop raises exactly when some file breaks it. */
  lemma {:induction false} CopyAllFails(files: seq<string>, os: seq<Outcome>, dir: string, dirExists: bool)
    requires |os| == |files|
    ensures CopyAll(files, os, dir, dirExists).failure.Some? <==> exists j :: 0 <= j < |os| && Breaks(os[j], dirExists)
    decreases |files|
  {
    if |files| > 0 {
      assert forall k :: 0 <= k < |files| - 1 ==> files[1..][k] == files[k + 1] && os[1..][k] == os[k + 1];
      CopyAllFails(files[1..], os[1..], dir, dirExists);
      if !Breaks(os[0], dirExists) {
        if exists j :: 0 <= j < |os| && Breaks(os[j], dirExists) {
          var j :| 0 <= j < |os| && Breaks(os[j], dirExists);
          assert os[1..][j - 1] == os[j];
        }
      }
    }
  }

  /** A missing target directory goes unnoticed when no file matches a sample. */
  lemma MissingDirUnnoticed(files: seq<string>, os: seq<Outcome>, dir: string)
    requires |os| == |files|
    requires forall k :: 0 <= k < |files| ==> os[k].Unmatched?
    ensures CopyAll(files, os, dir, false) == Renaming([], None)
  {
    CopyAllFails(files, os, dir, false);
    CopyAllNone(files, os, dir, false);
  }

  lemma {:induction false} CopyAllNone(files: seq<string>, os: seq<Outcome>, dir: string, dirExists: bool)
    requires |os| == |files|
    requires forall k :: 0 <= k < |files| ==> os[k].Unmatched?
    ensures CopyAll(files, os, dir, dirExists).copies == []
    decreases |files|
  {
    if |files| > 0 {
      assert forall k :: 0 <= k < |files| - 1 ==> os[1..][k] == os[k + 1];
      CopyAllNone(files[1..], os[1..], dir, dirExists);
    }
  }

  /** A lima file whose pair a table row names, with the target directory present, is copied to
      `<dir>/<sample>.<more fields>`, whichever order the row and the name give the barcodes. */
  lemma CopiedUnderSample(sample: string, stem: string, fwd: string, rev: string, more: seq<string>, dir: string)
    requires NameParts(stem, fwd, rev, more) && sample != ""
    ensures var file := LimaName(stem, fwd, rev, more);
            var data := [(sample, {rev, fwd})];
            CopyAll([file], Outcomes(data, dir, [file]), dir, true)
              == Renaming([Copy(file, JoinPath(dir, sample + "." + Join(more, ".")))], None)
  {
    var file := LimaName(stem, fwd, rev, more);
    var data := [(sample, {rev, fwd})];
    LimaOutcome(sample, stem, fwd, rev, more, dir);
    var os := Outcomes(data, dir, [file]);
    assert os == [Matched(sample, JoinPath(dir, sample + "." + Join(more, ".")))];
    CopyOne(file, os[0], dir);
  }

  /** The table row `(sample, {rev, fwd})` matches the lima file of that pair. */
  lemma LimaOutcome(sample: string, stem: string, fwd: string, rev: string, more: seq<string>, dir: string)
    requires NameParts(stem, fwd, rev, more)
    ensures OutcomeOf([(sample, {rev, fwd})], dir, LimaName(stem, fwd, rev, more))
              == Matched(sample, JoinPath(dir, sample + "." + Join(more, ".")))
  {
    var file := LimaName(stem, fwd, rev, more);
    var data := [(sample, {rev, fwd})];
    PrimerPairOfName(stem, fwd, rev, more);
    assert {fwd, rev} == {rev, fwd};
    assert FirstMatch({fwd, rev}, data) == Some(0);
    LimaFields(stem, fwd, rev, more);
    var fields := [stem, fwd + "--" + rev] + more;
    assert fields[2..] == more;
  }

  /** One matched file with the directory present is copied under its new name. */
  lemma CopyOne(file: string, o: Outcome, dir: string)
    requires o.Matched? && o.sample != ""
    ensures CopyAll([file], [o], dir, true) == Renaming([Copy(file, o.target)], None)
  {
    assert [file][1..] == [] && [o][1..] == [];
  }
}

=== FILE: results.dfy ===
/** Outcomes of the scripts' operations: a value, or the Python exception that ends the run. */
module Results {

  datatype Option<+T> = None | Some(value: T)

  /** The exceptions the scripts raise, or let escape, on bad input. */
  datatype Error =
    | UnsupportedFormat(path: string)  // `raise Exception("%r file format error")`
    | IndexError                       // a list index out of range (`split()[0]`, `line[1]`)
    | ValueError                       // bad tuple unpacking, bad `int()`, argmax of an empty histogram
    | KeyError                         // a base outside ACGT looked up in the complement table
    | TypeError                        // text compared with a float; bytes used as text
    | NameError                        // a module used without being imported
    | ZeroDivision                     // an average over an empty list
    | PathNotFound(path: string)       // `check_path` on a missing directory

  datatype Result<+T> = Ok(value: T) | Err(error: Error) {

    predicate IsFailure() {
      Err?
    }

    function PropagateFailure<U>(): Result<U>
      requires Err?
    {
      Err(error)
    }

    function Extract(): T
      requires Ok?
    {
      value
    }
  }
}

=== FILE: rm_repeat.dfy ===
/** lib/rm_repeat_barcode.py: print each barcode of a FASTA file unless its sequence, or its
    reverse complement, was already seen as the sequence or reverse complement of an earlier one. */
module RmRepeat {
  import opened Results
  import opened PyStr
  import opened Records
  import Fasta

  // ---------------------------------------------------------------------------------------------
  // complement and reverse_complement

  predicate IsBase(c: char) {
    c == 'A' || c == 'C' || c == 'G' || c == 'T'
  }

  /** Every character is one of `ACGT`. */
  predicate Bases(s: string) {
    forall i :: 0 <= i < |s| ==> IsBase(s[i])
  }

  /** The table `cdict`: the base each base pairs with (other characters are not in it). */
  function Pair(c: char): (p: char)
    ensures IsBase(c) <==> IsBase(p)
  {
    match c
    case 'A' => 'T'
    case 'T' => 'A'
    case 'G' => 'C'
    case 'C' => 'G'
    case _ => c
  }

  /** `complement(seq)`: upper-case, then look every character up in the table; the first one
      that is not there raises KeyError. */
  function Complement(s: string): (r: Result<string>)
    ensures r.Ok? <==> Bases(Upper(s))
    ensures r.Err? ==> r.error == KeyError
    ensures r.Ok? ==> |r.value| == |s| && forall i :: 0 <= i < |s| ==> r.value[i] == Pair(UpperChar(s[i]))
  {
    if |s| == 0 then Ok("")
    else
      var c := UpperChar(s[0]);
      assert Upper(s)[0] == c && Upper(s)[1..] == Upper(s[1..]);
      if !IsBase(c) then Err(KeyError)
      else
        var rest :- Complement(s[1..]);
        Ok([Pair(c)] + rest)
  }

  /** `seq[::-1]`. */
  function Reverse(s: string): (r: string)
    ensures |r| == |s| && forall i :: 0 <= i < |s| ==> r[i] == s[|s| - 1 - i]
  {
    seq(|s|, i requires 0 <= i < |s| => s[|s| - 1 - i])
  }

  /** The reverse complement of the upper-cased text, character by character. */
  function Rc(s: string): (r: string)
    ensures |r| == |s|
  {
    seq(|s|, i requires 0 <= i < |s| => Pair(UpperChar(s[|s| - 1 - i])))
  }

  /** `reverse_complement(seq)`: the complement of the reversed text. It fails exactly when some
      character is not a base after upper-casing; otherwise it is `Rc`. */
  function ReverseComplement(s: string): (r: Result<string>)
    ensures r.Ok? <==> Bases(Upper(s))
    ensures r.Err? ==> r.error == KeyError
    ensures r.Ok? ==> r.value == Rc(s)
  {
    var t := Reverse(s);
    BasesReversed(s);
    Complement(t)
  }

  lemma BasesReversed(s: string)
    ensures Bases(Upper(Reverse(s))) <==> Bases(Upper(s))
  {
    var u, v := Upper(s), Upper(Reverse(s));
    if Bases(u) {
      forall i | 0 <= i < |v|
        ensures IsBase(v[i])
      {
        assert v[i] == u[|s| - 1 - i];
      }
    }
    if Bases(v) {
      forall i | 0 <= i < |u|
        ensures IsBase(u[i])
      {
        assert u[i] == v[|s| - 1 - i];
      }
    }
  }

  /** On upper-case `ACGT` text the reverse complement keeps the length, stays `ACGT`, and taking
      it twice gives the text back. */
  lemma ReverseComplementInvolution(s: string)
    requires Bases(s)
    ensures ReverseComplement(s) == Ok(Rc(s))
    ensures |Rc(s)| == |s| && Bases(Rc(s))
    ensures ReverseComplement(Rc(s)) == Ok(s)
  {
    UpperOfBases(s);
    RcOfBases(s);
    UpperOfBases(Rc(s));
  }

  lemma UpperOfBases(s: string)
    requires Bases(s)
    ensures Upper(s) == s
  {
  }

  /** Pairing twice gives the base back. */
  lemma PairTwice(c: char)
    requires IsBase(c)
    ensures Pair(Pair(c)) == c
  {
  }

  lemma RcOfBases(s: string)
    requires Bases(s)
    ensures Bases(Rc(s)) && Rc(Rc(s)) == s
  {
    var r := Rc(s);
    forall i | 0 <= i < |s|
      ensures r[i] == Pair(s[|s| - 1 - i]) && IsBase(r[i])
    {
      assert UpperChar(s[|s| - 1 - i]) == s[|s| - 1 - i];
    }
    forall i | 0 <= i < |s|
      ensures Rc(r)[i] == s[i]
    {
      var j := |s| - 1 - i;
      assert UpperChar(r[j]) == r[j];
      assert r[j] == Pair(s[i]);
      PairTwice(s[i]);
    }
  }

  // ---------------------------------------------------------------------------------------------
  // rm_repeat_barcode

  /** The loop over the records with `seen` the keys of the dictionary `seqs` so far (its values,
      the ids, only feed the log line). Each record records its sequence and its reverse
      complement, printed or not. */
  function Dedup(recs: seq<FastaRec>, seen: set<string>): (r: Run)
    ensures r.failure.Some? ==> r.failure.value == KeyError
    ensures forall i :: 0 <= i < |r.printed| ==> r.printed[i] in recs
    decreases |recs|
  {
    if |recs| == 0 then Run([], None)
    else
      var b := recs[0].bases;
      match ReverseComplement(b)
      case Err(e) => Run([], Some(e))
      case Ok(rc) =>
        var rest := Dedup(recs[1..], seen + {b, rc});
        if b !in seen && rc !in seen then Run([recs[0]] + rest.printed, rest.failure) else rest
  }

  /** A record whose reverse complement can be taken. */
  predicate Valid(r: FastaRec) {
    Bases(Upper(r.bases))
  }

  /** `rm_repeat_barcode(file)`: `.gz` names the module `gzip`, which the script never imports
      (NameError); `.fasta` and `.fa` files are read with the whole-header reader; any other name
      is a format error. */
  function RmRepeatBarcode(file: SourceFile): (r: Run)
    ensures r.failure.None? ==> EndsWith(file.path, ".fasta") || EndsWith(file.path, ".fa")
    ensures EndsWith(file.path, ".gz") ==> r == Run([], Some(NameError))
    ensures !EndsWith(file.path, ".gz") && !EndsWith(file.path, ".fasta") && !EndsWith(file.path, ".fa") ==>
              r == Run([], Some(UnsupportedFormat(file.path)))
  {
    if EndsWith(file.path, ".gz") then Run([], Some(NameError))
    else if EndsWith(file.path, ".fasta") || EndsWith(file.path, ".fa") then
      Dedup(Fasta.ReadFastaFull(file.lines), {})
    else Run([], Some(UnsupportedFormat(file.path)))
  }

  // ---------------------------------------------------------------------------------------------
  // properties of the loop

  /** The loop fails exactly when some record holds a character outside `ACGT` (after
      upper-casing); what it printed before is what the records before the first such one print. */
  lemma {:induction false} DedupFails(recs: seq<FastaRec>, seen: set<string>)
    ensures Dedup(recs, seen).failure.Some? <==> exists i :: 0 <= i < |recs| && !Valid(recs[i])
    decreases |recs|
  {
    if |recs| > 0 {
      var b := recs[0].bases;
      if Valid(recs[0]) {
        var rc := ReverseComplement(b).value;
        DedupFails(recs[1..], seen + {b, rc});
        ValidTail(recs);
      }
    }
  }

  lemma ValidTail(recs: seq<FastaRec>)
    requires |recs| > 0 && Valid(recs[0])
    ensures (exists i :: 0 <= i < |recs| && !Valid(recs[i])) <==> (exists i :: 0 <= i < |recs[1..]| && !Valid(recs[1..][i]))
  {
    if exists i :: 0 <= i < |recs| && !Valid(recs[i]) {
      var i :| 0 <= i < |recs| && !Valid(recs[i]);
      assert recs[1..][i - 1] == recs[i];
    }
  }

  /** Output before a failure: the records up to the first one with a non-base character print
      what they would print on their own. */
  lemma {:induction false} DedupPrefix(recs: seq<FastaRec>, seen: set<string>, k: nat)
    requires k < |recs| && !Valid(recs[k])
    requires forall i :: 0 <= i < k ==> Valid(recs[i])
    ensures Dedup(recs, seen).printed == Dedup(recs[..k], seen).printed
    decreases k
  {
    if k > 0 {
      var b := recs[0].bases;
      var rc := ReverseComplement(b).value;
      DedupPrefix(recs[1..], seen + {b, rc}, k - 1);
      assert recs[..k][1..] == recs[1..][..k - 1];
      assert recs[..k][0] == recs[0];
    }
  }

  /** Nothing printed was seen before the loop started, neither as itself nor as its reverse
      complement. */
  lemma {:induction false} DedupFresh(recs: seq<FastaRec>, seen: set<string>)
    requires forall i :: 0 <= i < |recs| ==> Valid(recs[i])
    ensures var p := Dedup(recs, seen).printed;
            forall i :: 0 <= i < |p| ==> p[i].bases !in seen && Rc(p[i].bases) !in seen
    decreases |recs|
  {
    if |recs| > 0 {
      var b := recs[0].bases;
      var seen' := seen + {b, Rc(b)};
      DedupFresh(recs[1..], seen');
      DedupCons(recs, seen);
      var rest := Dedup(recs[1..], seen').printed;
      var p := Dedup(recs, seen).printed;
      forall i | 0 <= i < |p|
        ensures p[i].bases !in seen && Rc(p[i].bases) !in seen
      {
        if b !in seen && Rc(b) !in seen && i > 0 {
          assert p[i] == rest[i - 1];
        }
      }
    }
  }

  /** One turn of the loop on a record whose reverse complement can be taken. */
  lemma DedupCons(recs: seq<FastaRec>, seen: set<string>)
    requires |recs| > 0 && Valid(recs[0])
    ensures var b := recs[0].bases;
            var rest := Dedup(recs[1..], seen + {b, Rc(b)});
            Dedup(recs, seen) == if b !in seen && Rc(b) !in seen then Run([recs[0]] + rest.printed, rest.failure) else rest
  {
  }

  /** The keys of `seqs` when the loop reaches record `k`: what was there before the loop, and
      the sequence and reverse complement of every earlier record. */
  function SeenBefore(recs: seq<FastaRec>, k: nat, seen: set<string>): set<string>
    requires k <= |recs|
  {
    seen + (set j | 0 <= j < k :: recs[j].bases) + (set j | 0 <= j < k :: Rc(recs[j].bases))
  }

  /** Record `i` is printed when neither its sequence nor its reverse complement is a key yet. */
  predicate FreshAt(recs: seq<FastaRec>, i: nat, seen: set<string>)
    requires i < |recs|
  {
    recs[i].bases !in SeenBefore(recs, i, seen) && Rc(recs[i].bases) !in SeenBefore(recs, i, seen)
  }

  /** For each record, whether it is fresh when reached. */
  function FreshFlags(recs: seq<FastaRec>, seen: set<string>): (f: seq<bool>)
    ensures |f| == |recs|
  {
    seq(|recs|, k requires 0 <= k < |recs| => FreshAt(recs, k, seen))
  }

  /** The elements from position `i` on whose flag is set, in order. */
  function Pick<T>(xs: seq<T>, keep: seq<bool>, i: nat): (r: seq<T>)
    requires |keep| == |xs| && i <= |xs|
    ensures |r| <= |xs| - i
    decreases |xs| - i
  {
    if i == |xs| then []
    else (if keep[i] then [xs[i]] else []) + Pick(xs, keep, i + 1)
  }

  /** An element is picked exactly when it stands at a flagged position from `i` on. */
  lemma {:induction false} PickMembers<T>(xs: seq<T>, keep: seq<bool>, i: nat, x: T)
    requires |keep| == |xs| && i <= |xs|
    ensures x in Pick(xs, keep, i) <==> exists k :: i <= k < |xs| && xs[k] == x && keep[k]
    decreases |xs| - i
  {
    if i < |xs| {
      PickMembers(xs, keep, i + 1, x);
      assert Pick(xs, keep, i) == (if keep[i] then [xs[i]] else []) + Pick(xs, keep, i + 1);
      if x in Pick(xs, keep, i + 1) {
        var k :| i + 1 <= k < |xs| && xs[k] == x && keep[k];
        assert i <= k;
      }
      if exists k :: i <= k < |xs| && xs[k] == x && keep[k] {
        var k :| i <= k < |xs| && xs[k] == x && keep[k];
        if k > i {
          assert x in Pick(xs, keep, i + 1);
        }
      }
    }
  }

  /** The records that are fresh when reached, in input order: a reference for what the loop
      prints, stated record by record rather than as a running set. */
  function Selected(recs: seq<FastaRec>, seen: set<string>): seq<FastaRec> {
    Pick(recs, FreshFlags(recs, seen), 0)
  }

  lemma SeenStep(recs: seq<FastaRec>, i: nat, seen: set<string>)
    requires i < |recs|
    ensures SeenBefore(recs, i + 1, seen) == SeenBefore(recs, i, seen) + {recs[i].bases, Rc(recs[i].bases)}
  {
    var a := set j | 0 <= j < i + 1 :: recs[j].bases;
    var b := set j | 0 <= j < i :: recs[j].bases;
    var c := set j | 0 <= j < i + 1 :: Rc(recs[j].bases);
    var d := set j | 0 <= j < i :: Rc(recs[j].bases);
    assert a == b + {recs[i].bases};
    assert c == d + {Rc(recs[i].bases)};
  }

  /** On records whose reverse complements can all be taken, the loop prints exactly the records
      that are fresh when reached, in input order, and does not fail. */
  lemma {:induction false} DedupSelects(recs: seq<FastaRec>, seen: set<string>, i: nat)
    requires i <= |recs|
    requires forall k :: 0 <= k < |recs| ==> Valid(recs[k])
    ensures Dedup(recs[i..], SeenBefore(recs, i, seen)) == Run(Pick(recs, FreshFlags(recs, seen), i), None)
    decreases |recs| - i
  {
    if i < |recs| {
      DedupSelects(recs, seen, i + 1);
      SeenStep(recs, i, seen);
      var t := recs[i..];
      assert t[0] == recs[i] && t[1..] == recs[i + 1..];
      DedupCons(t, SeenBefore(recs, i, seen));
    }
  }

  /** The whole loop, from the keys `seen`: it prints `Selected` from the first record on. */
  lemma DedupIsSelected(recs: seq<FastaRec>, seen: set<string>)
    requires forall k :: 0 <= k < |recs| ==> Valid(recs[k])
    ensures Dedup(recs, seen) == Run(Selected(recs, seen), None)
  {
    DedupSelects(recs, seen, 0);
    assert recs[0..] == recs;
    assert SeenBefore(recs, 0, seen) == seen;
  }

  /** With a record holding a character outside `ACGT`, the loop prints the selection of the
      records before the first such one and then fails with KeyError. */
  lemma DedupBeforeFailure(recs: seq<FastaRec>, seen: set<string>, k: nat)
    requires k < |recs| && !Valid(recs[k])
    requires forall i :: 0 <= i < k ==> Valid(recs[i])
    ensures Dedup(recs, seen) == Run(Selected(recs[..k], seen), Some(KeyError))
  {
    DedupFails(recs, seen);
    DedupPrefix(recs, seen, k);
    DedupIsSelected(recs[..k], seen);
  }

  /** A record is selected exactly when it stands at a position where it was fresh. */
  lemma SelectedMembers(recs: seq<FastaRec>, seen: set<string>, x: FastaRec)
    ensures x in Selected(recs, seen) <==> exists k :: 0 <= k < |recs| && recs[k] == x && FreshFlags(recs, seen)[k]
  {
    PickMembers(recs, FreshFlags(recs, seen), 0, x);
  }

  /** Two sequences that are neither equal nor each other's reverse complement. */
  predicate Unrelated(a: string, b: string) {
    a != b && a != Rc(b) && Rc(a) != b
  }

  /** No two printed sequences are equal or reverse complements of each other. */
  lemma {:induction false} DedupNoRepeats(recs: seq<FastaRec>, seen: set<string>)
    requires forall i :: 0 <= i < |recs| ==> Valid(recs[i])
    ensures var p := Dedup(recs, seen).printed;
            forall i, j :: 0 <= i < j < |p| ==> Unrelated(p[i].bases, p[j].bases)
    decreases |recs|
  {
    if |recs| > 0 {
      var b := recs[0].bases;
      var rc := Rc(b);
      var seen' := seen + {b, rc};
      DedupNoRepeats(recs[1..], seen');
      DedupCons(recs, seen);
      if b !in seen && rc !in seen {
        DedupFresh(recs[1..], seen');
        NoRepeatsCons(recs[0], Dedup(recs[1..], seen').printed, seen');
      }
    }
  }

  lemma NoRepeatsCons(r: FastaRec, rest: seq<FastaRec>, seen: set<string>)
    requires r.bases in seen && Rc(r.bases) in seen
    requires forall i :: 0 <= i < |rest| ==> rest[i].bases !in seen && Rc(rest[i].bases) !in seen
    requires forall i, j :: 0 <= i < j < |rest| ==> Unrelated(rest[i].bases, rest[j].bases)
    ensures var p := [r] + rest;
            forall i, j :: 0 <= i < j < |p| ==> Unrelated(p[i].bases, p[j].bases)
  {
    var p := [r] + rest;
    forall i, j | 0 <= i < j < |p|
      ensures Unrelated(p[i].bases, p[j].bases)
    {
      assert p[j] == rest[j - 1];
      if i > 0 {
        assert p[i] == rest[i - 1];
      }
    }
  }

  /** Some printed record carries `b` or its reverse complement. */
  predicate Represented(p: seq<FastaRec>, b: string) {
    exists j :: 0 <= j < |p| && (p[j].bases == b || p[j].bases == Rc(b))
  }

  /** On upper-case `ACGT` input nothing is lost: every record's sequence, unless seen before the
      loop, is printed as it is or as its reverse complement. */
  lemma {:induction false} DedupCovers(recs: seq<FastaRec>, seen: set<string>)
    requires forall i :: 0 <= i < |recs| ==> Bases(recs[i].bases)
    ensures forall i :: 0 <= i < |recs| ==>
              recs[i].bases in seen || Rc(recs[i].bases) in seen || Represented(Dedup(recs, seen).printed, recs[i].bases)
    decreases |recs|
  {
    if |recs| > 0 {
      var r := recs[0];
      var seen' := seen + {r.bases, Rc(r.bases)};
      DedupCovers(recs[1..], seen');
      UpperOfBases(r.bases);
      DedupCons(recs, seen);
      var p := Dedup(recs, seen).printed;
      var rest := Dedup(recs[1..], seen').printed;
      forall i | 0 <= i < |recs|
        ensures recs[i].bases in seen || Rc(recs[i].bases) in seen || Represented(p, recs[i].bases)
      {
        if i > 0 {
          assert recs[1..][i - 1] == recs[i];
        }
        CoverOne(r, seen, rest, p, recs[i].bases);
      }
    }
  }

  /** One sequence after the first turn: covered by the first record, by what was seen before, or
      by what the rest of the loop prints. */
  lemma CoverOne(r: FastaRec, seen: set<string>, rest: seq<FastaRec>, p: seq<FastaRec>, x: string)
    requires Bases(r.bases) && Bases(x)
    requires p == if r.bases !in seen && Rc(r.bases) !in seen then [r] + rest else rest
    requires x == r.bases || x in seen + {r.bases, Rc(r.bases)} || Rc(x) in seen + {r.bases, Rc(r.bases)}
             || Represented(rest, x)
    ensures x in seen || Rc(x) in seen || Represented(p, x)
  {
    RcOfBases(r.bases);
    RcOfBases(x);
    if Represented(rest, x) {
      RepresentedTail(r, rest, p, x);
    } else {
      CoverStep(r, seen, p, x);
    }
  }

  lemma RepresentedTail(r: FastaRec, rest: seq<FastaRec>, p: seq<FastaRec>, x: string)
    requires p == [r] + rest || p == rest
    requires Represented(rest, x)
    ensures Represented(p, x)
  {
    var j :| 0 <= j < |rest| && (rest[j].bases == x || rest[j].bases == Rc(x));
    if p == [r] + rest {
      assert p[j + 1] == rest[j];
    }
  }

  /** A sequence equal to the first record's, or to its reverse complement, is covered by the
      first record: printed, or seen before. */
  lemma CoverStep(r: FastaRec, seen: set<string>, p: seq<FastaRec>, x: string)
    requires Bases(r.bases) && Bases(x) && Rc(Rc(r.bases)) == r.bases && Rc(Rc(x)) == x
    requires x == r.bases || x == Rc(r.bases) || x in seen || Rc(x) in seen
    requires r.bases !in seen && Rc(r.bases) !in seen ==> |p| > 0 && p[0] == r
    ensures x in seen || Rc(x) in seen || Represented(p, x)
  {
    if r.bases !in seen && Rc(r.bases) !in seen && (x == r.bases || x == Rc(r.bases)) {
      assert p[0].bases == x || p[0].bases == Rc(x);
    }
  }

  // ---------------------------------------------------------------------------------------------
  // the whole script

  /** On a FASTA file of upper-case `ACGT` barcodes the script prints without failing, no two
      printed barcodes are equal or reverse complements of each other, and every barcode read is
      printed as itself or as its reverse complement. */
  lemma RmRepeatBarcodeNoRepeats(file: SourceFile)
    requires !EndsWith(file.path, ".gz") && (EndsWith(file.path, ".fasta") || EndsWith(file.path, ".fa"))
    requires var recs := Fasta.ReadFastaFull(file.lines);
             forall i :: 0 <= i < |recs| ==> Bases(recs[i].bases)
    ensures var recs := Fasta.ReadFastaFull(file.lines);
            var run := RmRepeatBarcode(file);
            run.failure.None?
            && (forall i, j :: 0 <= i < j < |run.printed| ==> Unrelated(run.printed[i].bases, run.printed[j].bases))
            && (forall i :: 0 <= i < |recs| ==> Represented(run.printed, recs[i].bases))
            && run.printed == Selected(recs, {})
  {
    var recs := Fasta.ReadFastaFull(file.lines);
    forall i | 0 <= i < |recs|
      ensures Valid(recs[i])
    {
      UpperOfBases(recs[i].bases);
    }
    DedupFails(recs, {});
    DedupNoRepeats(recs, {});
    DedupCovers(recs, {});
    DedupIsSelected(recs, {});
  }

  lemma RcOne(c: char)
    ensures Rc([c]) == [Pair(UpperChar(c))]
  {
  }

  /** Sequences are compared as written, while reverse complements are upper-cased: a lower-case
      barcode and the lower-case form of its reverse complement are both printed. */
  lemma LowerCaseKept()
    ensures Dedup([FastaRec("x", "a"), FastaRec("y", "t")], {}).printed == [FastaRec("x", "a"), FastaRec("y", "t")]
  {
    var a, t := FastaRec("x", "a"), FastaRec("y", "t");
    assert UpperChar('a') == 'A' && UpperChar('t') == 'T';
    RcOne('a');
    RcOne('t');
    assert Rc("a") == "T" && Rc("t") == "A";
    assert [a, t][1..] == [t];
  }
}

=== FILE: sample_name.dfy ===
/** `get_sample`: the sample name a read file's name stands for. The same function appears in
    lib/ccs2sub.py, lib/filter_ccs.py, lib/filter_pbbarcode_old.py and lib/filter_ccs_bam.py. */
module SampleName {
  import opened Results
  import opened PyStr

  /** `s.split(sep)[0]`: the text before the first occurrence of `sep`, or all of `s`. */
  function Before(s: string, sep: string): (r: string)
    requires |sep| > 0
    ensures r <= s && !Contains(r, sep)
    ensures Find(s, sep).None? ==> r == s
    ensures Find(s, sep).Some? ==> Find(s, sep) == Some(|r|)
  {
    SplitHead(s, sep);
    match Find(s, sep)
    case None => s
    case Some(i) =>
      BeforeFirstIsFree(s, sep, i);
      s[..i]
  }

  /** The text after the first `--` of a name that holds one. */
  function AfterDashes(name: string): string
    requires Contains(name, "--")
  {
    name[Find(name, "--").value + 2..]
  }

  /** `r` is `tail` cut at whichever comes first: the end, the first `--` or the first `.bam`. */
  predicate CutAtDashOrBam(tail: string, r: string) {
    r <= tail && (r == tail || Find(tail, "--") == Some(|r|) || Find(tail, ".bam") == Some(|r|))
  }

  /** `r` is `name` cut at its first `.`, or all of it. */
  predicate CutAtDot(name: string, r: string) {
    r <= name && (r == name || (|r| < |name| && name[|r|] == '.'))
  }

  /** The base name; if it holds `--`, the text between the first `--` and the next `--`, cut
      before the first `.bam`; otherwise the text before the first `.`. */
  function GetSample(path: string): (r: string)
    ensures Contains(BaseName(path), "--") ==> !Contains(r, "--") && !Contains(r, ".bam")
    ensures Contains(BaseName(path), "--") ==> CutAtDashOrBam(AfterDashes(BaseName(path)), r)
    ensures !Contains(BaseName(path), "--") ==> CutAtDot(BaseName(path), r) && !Contains(r, ".")
  {
    var name := BaseName(path);
    if Contains(name, "--") then LimaSample(name) else PlainSample(name)
  }

  /** `name.split('--')[1].split('.bam')[0]`. */
  function LimaSample(name: string): (r: string)
    requires Contains(name, "--")
    ensures !Contains(r, "--") && !Contains(r, ".bam")
    ensures CutAtDashOrBam(AfterDashes(name), r)
  {
    var parts := Split(name, "--");
    SplitHead(name, "--");
    var piece := parts[1];
    PrefixFree(piece, "--", |Before(piece, ".bam")|);
    LimaField(AfterDashes(name), piece);
    Before(piece, ".bam")
  }

  /** `name.split('.')[0]`. */
  function PlainSample(name: string): (r: string)
    ensures CutAtDot(name, r) && !Contains(r, ".")
  {
    var r := Before(name, ".");
    assert r != name ==> name[|r|..|r| + 1] == ".";
    r
  }

  /** The field after the first `--`, cut before its first `.bam`, ends where `tail` does, at the
      first `--` of `tail`, or at the first `.bam` of `tail`. */
  lemma LimaField(tail: string, piece: string)
    requires piece == Split(tail, "--")[0]
    ensures CutAtDashOrBam(tail, Before(piece, ".bam"))
  {
    SplitHead(tail, "--");
    if Find(piece, ".bam").Some? {
      FindInPrefix(tail, piece, ".bam");
    }
  }

  /** An occurrence found in a prefix is the first one in the whole string too. */
  lemma FindInPrefix(s: string, p: string, sub: string)
    requires p <= s && Find(p, sub).Some?
    ensures Find(s, sub) == Find(p, sub)
  {
    var k := Find(p, sub).value;
    assert p[k..k + |sub|] == s[k..k + |sub|];
    forall j | 0 <= j < k
      ensures !Occurs(s, sub, j)
    {
      assert s[j..j + |sub|] == p[j..j + |sub|];
      assert !Occurs(p, sub, j);
    }
    FindFirst(s, sub, k);
  }

  // ---------------------------------------------------------------------------------------------
  // properties

  /** Only the text after the last `/` matters. */
  lemma GetSampleOfDir(dir: string, name: string)
    requires '/' !in name
    ensures GetSample(dir + "/" + name) == GetSample(name)
  {
    BaseNameOfDir(dir, name);
    BaseNameOfDir("", name);
    assert "" + "/" + name == "/" + name;
    BaseNameOfPlain(name);
  }

  lemma BaseNameOfPlain(name: string)
    requires '/' !in name
    ensures BaseName(name) == name
  {
    NoCharNoOccur(name, '/');
    assert Split(name, "/") == [name];
  }

  lemma BaseNameOfDir(dir: string, name: string)
    requires '/' !in name
    ensures BaseName(dir + "/" + name) == name
  {
    var s := dir + "/" + name;
    var p := BaseName(s);
    assert s[|dir|] == '/';
    if |p| > |name| {
      var k := |p| - |name| - 1;
      assert p[k] == s[|s| - |p| + k];
      CharContains(p, '/', k);
    }
    assert s[|s| - |name|..] == name;
  }

  lemma CharContains(s: string, c: char, k: nat)
    requires k < |s| && s[k] == c
    ensures Contains(s, [c])
  {
    assert s[k..k + 1] == [c];
    assert Occurs(s, [c], k);
  }

  /** A plain name: the text before its first `.`. */
  lemma GetSamplePlain(stem: string, rest: string)
    requires '/' !in stem + "." + rest && '.' !in stem
    requires !Contains(stem + "." + rest, "--")
    ensures GetSample(stem + "." + rest) == stem
  {
    var name := stem + "." + rest;
    BaseNameOfPlain(name);
    FirstOccurrenceAfter(stem, '.', rest);
    assert name[..|stem|] == stem;
  }

  /** A demultiplexer's name `<prefix>--<sample>.bam<rest>`: the sample part. */
  lemma GetSampleLima(prefix: string, sample: string, rest: string)
    requires '/' !in prefix + "--" + sample + ".bam" + rest
    requires !Contains(prefix, "--") && (|prefix| > 0 ==> prefix[|prefix| - 1] != '-')
    requires !Contains(sample, "--") && !Contains(sample, ".bam")
    ensures GetSample(prefix + "--" + sample + ".bam" + rest) == sample
  {
    var tail := sample + ".bam" + rest;
    var name := prefix + "--" + tail;
    assert name == prefix + "--" + sample + ".bam" + rest;
    BaseNameOfPlain(name);
    var piece := Split(tail, "--")[0];
    LimaPiece(prefix, tail);
    DashFreeHead(sample, rest);
    FirstBam(sample, rest);
    PieceKeepsBam(tail, piece, |sample|);
    assert tail[..|sample|] == sample;
  }

  /** The field after the first `--` of `prefix--tail` is `tail` up to its own first `--`. */
  lemma LimaPiece(prefix: string, tail: string)
    requires !Contains(prefix, "--") && (|prefix| > 0 ==> prefix[|prefix| - 1] != '-')
    ensures Contains(prefix + "--" + tail, "--")
    ensures |Split(prefix + "--" + tail, "--")| >= 2
    ensures Split(prefix + "--" + tail, "--")[1] == Split(tail, "--")[0]
  {
    var name := prefix + "--" + tail;
    FirstDoubleDash(prefix, tail);
    SplitHead(name, "--");
    assert name[|prefix| + 2..] == tail;
    SplitHead(tail, "--");
  }

  /** `--` right after a prefix that neither holds `--` nor ends in `-` is the first `--`. */
  lemma FirstDoubleDash(prefix: string, tail: string)
    requires !Contains(prefix, "--") && (|prefix| > 0 ==> prefix[|prefix| - 1] != '-')
    ensures Find(prefix + "--" + tail, "--") == Some(|prefix|)
  {
    var s := prefix + "--" + tail;
    assert s[|prefix|..|prefix| + 2] == "--";
    forall j | 0 <= j < |prefix|
      ensures !Occurs(s, "--", j)
    {
      if j + 2 <= |prefix| {
        assert s[j..j + 2] == prefix[j..j + 2];
        assert !Occurs(prefix, "--", j);
      } else {
        assert s[j] == prefix[|prefix| - 1] && s[j..j + 2][0] == s[j];
      }
    }
    assert Occurs(s, "--", |prefix|);
  }

  /** `sample + ".bam" + rest` holds no `--` before the end of `.bam`. */
  lemma DashFreeHead(sample: string, rest: string)
    requires !Contains(sample, "--")
    ensures forall j :: 0 <= j < |sample| + 4 ==> !Occurs(sample + ".bam" + rest, "--", j)
  {
    var s := sample + ".bam" + rest;
    forall j | 0 <= j < |sample| + 4
      ensures !Occurs(s, "--", j)
    {
      if j + 2 <= |sample| {
        assert s[j..j + 2] == sample[j..j + 2];
        assert !Occurs(sample, "--", j);
      } else {
        var m := if j < |sample| then |sample| else j;
        assert s[m] == ".bam"[m - |sample|];
      }
    }
  }

  /** The first `.bam` in `sample + ".bam" + rest` is the one after `sample`. */
  lemma FirstBam(sample: string, rest: string)
    requires !Contains(sample, ".bam")
    ensures Find(sample + ".bam" + rest, ".bam") == Some(|sample|)
  {
    var s := sample + ".bam" + rest;
    assert s[|sample|..|sample| + 4] == ".bam";
    forall j | 0 <= j < |sample|
      ensures !Occurs(s, ".bam", j)
    {
      if j + 4 <= |sample| {
        assert s[j..j + 4] == sample[j..j + 4];
        assert !Occurs(sample, ".bam", j);
      } else {
        assert s[j..j + 4][|sample| - j] == s[|sample|] == '.';
        assert ".bam"[|sample| - j] != '.';
      }
    }
    assert Occurs(s, ".bam", |sample|);
  }

  /** Cutting `tail` at its first `--`, which lies past `.bam` at `k`, keeps `.bam` at `k` the first
      occurrence in the piece. */
  lemma PieceKeepsBam(tail: string, piece: string, k: nat)
    requires piece == Split(tail, "--")[0]
    requires forall j :: 0 <= j < k + 4 ==> !Occurs(tail, "--", j)
    requires Find(tail, ".bam") == Some(k)
    ensures Before(piece, ".bam") == tail[..k]
  {
    SplitHead(tail, "--");
    assert Occurs(tail, ".bam", k);
    assert k + 4 <= |piece| by {
      match Find(tail, "--")
      case None =>
      case Some(i) => assert Occurs(tail, "--", i);
    }
    assert piece[k..k + 4] == tail[k..k + 4];
    assert Occurs(piece, ".bam", k);
    forall j | 0 <= j < k
      ensures !Occurs(piece, ".bam", j)
    {
      if j + 4 <= |piece| {
        assert tail[j..j + 4] == piece[j..j + 4];
        assert !Occurs(tail, ".bam", j);
      }
    }
    assert FindFrom(piece, ".bam", 0) == Some(k) by {
      FindFirst(piece, ".bam", k);
    }
    assert piece[..k] == tail[..k];
  }

  /** An occurrence with none before it is what `find` returns. */
  lemma FindFirst(s: string, sub: string, k: nat)
    requires Occurs(s, sub, k)
    requires forall j :: 0 <= j < k ==> !Occurs(s, sub, j)
    ensures Find(s, sub) == Some(k)
  {
  }
}

=== FILE: seqs.dfy ===
/** Sequence building blocks shared by the scripts: order-preserving filtering, sums and sorting. */
module Seqs {

  // ---------------------------------------------------------------------------------------------
  // filtering: a `for` loop with `continue`

  /** The elements of `xs` that satisfy `p`, in their original order. */
  function Filter<T(==,!new)>(xs: seq<T>, p: T -> bool): (r: seq<T>)
    ensures |r| <= |xs|
    ensures forall i :: 0 <= i < |r| ==> p(r[i])
  {
    if |xs| == 0 then []
    else (if p(xs[0]) then [xs[0]] else []) + Filter(xs[1..], p)
  }

  /** Filtering keeps exactly the elements that satisfy the predicate. */
  lemma {:induction false} FilterMembers<T(!new)>(xs: seq<T>, p: T -> bool, x: T)
    ensures x in Filter(xs, p) <==> x in xs && p(x)
    decreases |xs|
  {
    if |xs| > 0 {
      FilterMembers(xs[1..], p, x);
      assert xs == [xs[0]] + xs[1..];
    }
  }

  /** Filtering keeps every copy of an element that satisfies the predicate, and no other. */
  lemma {:induction false} FilterCount<T(!new)>(xs: seq<T>, p: T -> bool)
    ensures forall x :: multiset(Filter(xs, p))[x] == if p(x) then multiset(xs)[x] else 0
    decreases |xs|
  {
    if |xs| > 0 {
      FilterCount(xs[1..], p);
      assert xs == [xs[0]] + xs[1..];
    }
  }

  /** Filtering a concatenation filters each part: kept elements stay in input order. */
  lemma {:induction false} FilterAppend<T(!new)>(a: seq<T>, b: seq<T>, p: T -> bool)
    ensures Filter(a + b, p) == Filter(a, p) + Filter(b, p)
    decreases |a|
  {
    if |a| > 0 {
      FilterAppend(a[1..], b, p);
      FilterAppendStep(a, b, p);
    } else {
      assert a + b == b;
    }
  }

  lemma FilterAppendStep<T(!new)>(a: seq<T>, b: seq<T>, p: T -> bool)
    requires |a| > 0 && Filter(a[1..] + b, p) == Filter(a[1..], p) + Filter(b, p)
    ensures Filter(a + b, p) == Filter(a, p) + Filter(b, p)
  {
    var ab := a + b;
    assert ab[0] == a[0] && ab[1..] == a[1..] + b;
    var fa, fb := Filter(a[1..], p), Filter(b, p);
    FilterUnfold(ab, p);
    FilterUnfold(a, p);
    if p(a[0]) {
      ConsAssoc(a[0], fa, fb);
    } else {
      var none: seq<T> := [];
      assert Filter(ab, p) == none + (fa + fb) && Filter(a, p) == none + fa;
    }
  }

  lemma ConsAssoc<T>(x: T, s: seq<T>, t: seq<T>)
    ensures [x] + (s + t) == ([x] + s) + t
  {
  }

  lemma FilterUnfold<T(!new)>(xs: seq<T>, p: T -> bool)
    requires |xs| > 0
    ensures Filter(xs, p) == (if p(xs[0]) then [xs[0]] else []) + Filter(xs[1..], p)
  {
  }

  /** A stronger predicate keeps no more elements than a weaker one. */
  lemma {:induction false} FilterMonotone<T(!new)>(xs: seq<T>, p: T -> bool, q: T -> bool)
    requires forall i :: 0 <= i < |xs| && p(xs[i]) ==> q(xs[i])
    ensures |Filter(xs, p)| <= |Filter(xs, q)|
    decreases |xs|
  {
    if |xs| > 0 {
      FilterMonotone(xs[1..], p, q);
    }
  }

  /** Filtering is insensitive to the order of the input, as a multiset. */
  lemma FilterPermutation<T(!new)>(xs: seq<T>, ys: seq<T>, p: T -> bool)
    requires multiset(xs) == multiset(ys)
    ensures |Filter(xs, p)| == |Filter(ys, p)|
  {
    var a, b := Filter(xs, p), Filter(ys, p);
    FilterCount(xs, p);
    FilterCount(ys, p);
    assert multiset(a) == multiset(b);
    assert |multiset(a)| == |a| && |multiset(b)| == |b|;
  }

  /** Nothing is kept when no element satisfies the predicate. */
  lemma {:induction false} FilterNone<T(!new)>(xs: seq<T>, p: T -> bool)
    requires forall i :: 0 <= i < |xs| ==> !p(xs[i])
    ensures Filter(xs, p) == []
    decreases |xs|
  {
    if |xs| > 0 {
      FilterNone(xs[1..], p);
    }
  }

  /** Everything is kept when every element satisfies the predicate. */
  lemma {:induction false} FilterAll<T(!new)>(xs: seq<T>, p: T -> bool)
    requires forall i :: 0 <= i < |xs| ==> p(xs[i])
    ensures Filter(xs, p) == xs
    decreases |xs|
  {
    if |xs| > 0 {
      FilterAll(xs[1..], p);
      assert xs == [xs[0]] + xs[1..];
    }
  }

  // ---------------------------------------------------------------------------------------------
  // sums

  function Sum(xs: seq<int>): int {
    if |xs| == 0 then 0 else xs[0] + Sum(xs[1..])
  }

  lemma {:induction false} SumAppend(a: seq<int>, b: seq<int>)
    ensures Sum(a + b) == Sum(a) + Sum(b)
    decreases |a|
  {
    if |a| > 0 {
      assert (a + b)[1..] == a[1..] + b;
      SumAppend(a[1..], b);
    } else {
      assert a + b == b;
    }
  }

  /** `sum()` does not depend on the order of its argument. */
  lemma {:induction false} SumPermutation(a: seq<int>, b: seq<int>)
    requires multiset(a) == multiset(b)
    ensures Sum(a) == Sum(b)
    decreases |a|
  {
    if |a| > 0 {
      assert a[0] in multiset(b);
      var i :| 0 <= i < |b| && b[i] == a[0];
      var rest := b[..i] + b[i + 1..];
      MultisetRemove(a, b, i);
      SumPermutation(a[1..], rest);
      SumRemove(b, i);
    } else {
      assert |multiset(b)| == |b|;
    }
  }

  /** Taking the first element of `a` out of `a` and one equal element out of `b` keeps the two
      multisets equal. */
  lemma MultisetRemove(a: seq<int>, b: seq<int>, i: nat)
    requires multiset(a) == multiset(b) && |a| > 0 && i < |b| && b[i] == a[0]
    ensures multiset(a[1..]) == multiset(b[..i] + b[i + 1..])
  {
    var l, r := b[..i], b[i + 1..];
    assert b == l + [b[i]] + r;
    assert a == [a[0]] + a[1..];
    MultisetMiddle(l, b[i], r);
    assert multiset(a) == multiset{a[0]} + multiset(a[1..]);
    forall y ensures multiset(a[1..])[y] == multiset(l + r)[y] {
      assert multiset(a)[y] == multiset(a[1..])[y] + multiset{a[0]}[y];
      assert multiset(b)[y] == multiset(l + r)[y] + multiset{a[0]}[y];
    }
  }

  lemma MultisetMiddle(l: seq<int>, x: int, r: seq<int>)
    ensures multiset(l + [x] + r) == multiset(l + r) + multiset{x}
  {
    assert multiset(l + [x] + r) == multiset(l) + multiset{x} + multiset(r);
    assert multiset(l + r) == multiset(l) + multiset(r);
  }

  /** The sum with one element taken out. */
  lemma SumRemove(b: seq<int>, i: nat)
    requires i < |b|
    ensures Sum(b) == b[i] + Sum(b[..i] + b[i + 1..])
  {
    assert b == b[..i] + [b[i]] + b[i + 1..];
    SumMiddle(b[..i], b[i], b[i + 1..]);
  }

  lemma SumMiddle(l: seq<int>, x: int, r: seq<int>)
    ensures Sum(l + [x] + r) == x + Sum(l + r)
  {
    SumAppend(l + [x], r);
    SumAppend(l, [x]);
    SumAppend(l, r);
    assert Sum([x]) == x + Sum([]);
  }

  /** Non-negative numbers have a non-negative sum, at least as large as any element. */
  lemma {:induction false} SumNonNegative(xs: seq<int>)
    requires forall i :: 0 <= i < |xs| ==> xs[i] >= 0
    ensures Sum(xs) >= 0
    ensures forall i :: 0 <= i < |xs| ==> xs[i] <= Sum(xs)
    decreases |xs|
  {
    if |xs| > 0 {
      SumNonNegative(xs[1..]);
      assert forall i :: 1 <= i < |xs| ==> xs[i] == xs[1..][i - 1];
    }
  }

  /** A sum lies between `|xs|` times a lower bound and `|xs|` times an upper bound. */
  lemma {:induction false} SumBounds(xs: seq<int>, lo: int, hi: int)
    requires forall i :: 0 <= i < |xs| ==> lo <= xs[i] <= hi
    ensures |xs| * lo <= Sum(xs) <= |xs| * hi
    decreases |xs|
  {
    if |xs| > 0 {
      SumBounds(xs[1..], lo, hi);
    }
  }

  // ---------------------------------------------------------------------------------------------
  // sorting: `sorted(xs)` and `sorted(xs, reverse=True)`

  predicate SortedAsc(xs: seq<int>) {
    forall i, j :: 0 <= i < j < |xs| ==> xs[i] <= xs[j]
  }

  predicate SortedDesc(xs: seq<int>) {
    forall i, j :: 0 <= i < j < |xs| ==> xs[i] >= xs[j]
  }

  /** Inserts `x` into an ascending sequence. */
  function Insert(x: int, s: seq<int>): (r: seq<int>)
    requires SortedAsc(s)
    ensures |r| == |s| + 1
    ensures SortedAsc(r)
    ensures multiset(r) == multiset(s) + multiset{x}
  {
    if |s| == 0 then [x]
    else if x <= s[0] then
      ConsSorted(x, s);
      [x] + s
    else
      var t := Insert(x, s[1..]);
      assert s == [s[0]] + s[1..];
      BoundedByParts(s[0], t, s[1..], x);
      ConsSorted(s[0], t);
      [s[0]] + t
  }

  /** A head no larger than the first element of an ascending tail keeps the whole ascending. */
  lemma ConsSorted(h: int, t: seq<int>)
    requires SortedAsc(t)
    requires |t| > 0 ==> h <= t[0]
    ensures SortedAsc([h] + t)
  {
  }

  /** A lower bound of `x` and of every element of `u` bounds every element of a permutation of
      `u + [x]`. */
  lemma BoundedByParts(h: int, t: seq<int>, u: seq<int>, x: int)
    requires multiset(t) == multiset(u) + multiset{x}
    requires h <= x && forall k :: 0 <= k < |u| ==> h <= u[k]
    ensures |t| > 0 ==> h <= t[0]
  {
    if |t| > 0 {
      assert t[0] in multiset(t);
      if t[0] != x {
        assert t[0] in multiset(u);
      }
    }
  }

  /** The ascending permutation of `xs`. */
  function SortAsc(xs: seq<int>): (r: seq<int>)
    ensures SortedAsc(r)
    ensures multiset(r) == multiset(xs)
    ensures |r| == |xs|
  {
    if |xs| == 0 then []
    else
      assert xs == [xs[0]] + xs[1..];
      Insert(xs[0], SortAsc(xs[1..]))
  }

  function Reverse(xs: seq<int>): (r: seq<int>)
    ensures |r| == |xs|
    ensures forall i :: 0 <= i < |xs| ==> r[i] == xs[|xs| - 1 - i]
    ensures multiset(r) == multiset(xs)
  {
    if |xs| == 0 then []
    else
      assert xs == xs[..|xs| - 1] + [xs[|xs| - 1]];
      [xs[|xs| - 1]] + Reverse(xs[..|xs| - 1])
  }

  /** The descending permutation of `xs`. */
  function SortDesc(xs: seq<int>): (r: seq<int>)
    ensures SortedDesc(r)
    ensures multiset(r) == multiset(xs)
    ensures |r| == |xs|
  {
    Reverse(SortAsc(xs))
  }

  // ---------------------------------------------------------------------------------------------
  // existence

  /** Some element satisfies `p`. */
  predicate Any<T>(xs: seq<T>, p: T -> bool) {
    exists i :: 0 <= i < |xs| && p(xs[i])
  }

  lemma AnySnoc<T>(xs: seq<T>, p: T -> bool)
    requires |xs| > 0
    ensures Any(xs, p) <==> Any(xs[..|xs| - 1], p) || p(xs[|xs| - 1])
  {
    var init := xs[..|xs| - 1];
    if Any(init, p) {
      var i :| 0 <= i < |init| && p(init[i]);
      assert xs[i] == init[i];
    }
    if Any(xs, p) {
      var i :| 0 <= i < |xs| && p(xs[i]);
      if i < |init| {
        assert xs[i] == init[i];
      }
    }
  }
}

=== FILE: tsv.dfy ===
/** `read_tsv(file, '\t')`, defined the same way in lib/barcode2fasta.py and
    lib/rename_lima_file.py: each line is stripped, empty lines and `#` comments are skipped, and
    every other line is split on tabs into the cells of a row. */
module Tsv {
  import opened Results
  import opened PyStr
  import opened OrderedMaps

  type Row = seq<string>

  /** A stripped line that becomes a row: neither empty nor a comment. */
  predicate IsRow(text: string) {
    |text| > 0 && text[0] != '#'
  }

  /** `text.split('\t')`. */
  function Cells(text: string): (row: Row)
    ensures |row| >= 1
  {
    Split(text, "\t")
  }

  /** The rows of a table file, in line order. The first cell of a row is never empty, because a
      stripped line does not start with a tab. */
  function ReadTsv(lines: seq<string>): (rows: seq<Row>)
    ensures |rows| <= |lines|
    ensures forall k :: 0 <= k < |rows| ==> |rows[k]| >= 1 && rows[k][0] != ""
    decreases |lines|
  {
    if |lines| == 0 then []
    else
      var text := Strip(lines[0]);
      if IsRow(text) then
        FirstCellNonEmpty(text);
        [Cells(text)] + ReadTsv(lines[1..])
      else ReadTsv(lines[1..])
  }

  lemma FirstCellNonEmpty(text: string)
    requires |text| > 0 && !IsSpace(text[0])
    ensures Cells(text)[0] != ""
  {
    SplitHead(text, "\t");
    assert text[0..1] == [text[0]] && "\t" == ['\t'];
    assert !Occurs(text, "\t", 0);
  }

  /** Reading two pieces of a file one after the other gives the rows of the whole file. */
  lemma {:induction false} ReadTsvAppend(a: seq<string>, b: seq<string>)
    ensures ReadTsv(a + b) == ReadTsv(a) + ReadTsv(b)
    decreases |a|
  {
    if |a| == 0 {
      assert a + b == b;
    } else {
      assert (a + b)[0] == a[0] && (a + b)[1..] == a[1..] + b;
      ReadTsvAppend(a[1..], b);
    }
  }

  // ---------------------------------------------------------------------------------------------
  // writing a table and reading it back

  /** The line a table writer puts out for a row: the cells joined by tabs. */
  function Line(row: Row): string {
    Join(row, "\t")
  }

  function WriteTsv(rows: seq<Row>): (lines: seq<string>)
    ensures |lines| == |rows|
  {
    MapSeq(rows, Line)
  }

  /** A row that survives being written on one line: no cell holds a tab, the line starts with a
      character that is neither white space nor `#`, and it ends in one that is not white space. */
  predicate Writable(row: Row) {
    |row| >= 1
    && (forall k :: 0 <= k < |row| ==> '\t' !in row[k])
    && |row[0]| > 0 && !IsSpace(row[0][0]) && row[0][0] != '#'
    && |row[|row| - 1]| > 0 && !IsSpace(row[|row| - 1][|row[|row| - 1]| - 1])
  }

  /** Writing rows and reading them back with `read_tsv` gives the same rows. */
  lemma {:induction false} TsvRoundTrip(rows: seq<Row>)
    requires forall k :: 0 <= k < |rows| ==> Writable(rows[k])
    ensures ReadTsv(WriteTsv(rows)) == rows
    decreases |rows|
  {
    if |rows| > 0 {
      var lines := WriteTsv(rows);
      assert lines[1..] == WriteTsv(rows[1..]);
      TsvRoundTrip(rows[1..]);
      LineReadsBack(rows[0]);
      assert rows == [rows[0]] + rows[1..];
    }
  }

  /** One written row is kept by `read_tsv` and split back into its cells. */
  lemma LineReadsBack(row: Row)
    requires Writable(row)
    ensures Strip(Line(row)) == Line(row) && IsRow(Line(row)) && Cells(Line(row)) == row
  {
    var line := Line(row);
    LineEnds(row);
    StripStable(line, IsSpace);
    assert "\t" == ['\t'];
    SplitJoin(row, '\t');
  }

  /** The first character of a joined line is that of its first cell, the last that of its last
      cell. */
  lemma LineEnds(row: Row)
    requires |row| >= 1 && |row[0]| > 0 && |row[|row| - 1]| > 0
    ensures |Line(row)| > 0 && Line(row)[0] == row[0][0]
    ensures Line(row)[|Line(row)| - 1] == row[|row| - 1][|row[|row| - 1]| - 1]
  {
    if |row| >= 2 {
      JoinLast(row, "\t");
      assert Line(row) == row[0] + "\t" + Join(row[1..], "\t");
    }
  }
}
